=== FILE: README.md ===
# RASM assembler, modelled in Dafny

RASM turns the assembler text of the Resurgence virtual machine (RVM) into an
RVM module file. It makes one pass over the source lines. Before
`section code` each line is a `section <name>` directive or an entry of the
current header section: constants (`<index> => <literal>`), imports, exports,
or aliases (`<name> => <field>`). From `section code` on, each line is a
`.name` placeholder or an instruction, and the pass appends the
instruction's bytes to the code. The writer then emits:

- the header `RVM 88 00 05`;
- the constants table (a u32 count, then tagged entries);
- the imports table (a u64 count, then each name as a u64 length prefix
  followed by its UTF-8 bytes). The model's prefix is the UTF-8 byte count.
  `make_str` as written uses the character count instead, which differs for
  non-ASCII text (see "## Findings").
- the exports table (a u64 count, then each name with the u64 index of the
  instruction its placeholder marks);
- the code.

The model follows `rasm/rasm.py`, one module per concern:

| module | file | models |
|---|---|---|
| `Wrappers` | wrappers.dfy | `Option`, `Result` and the error kinds; each `fail(...)` and each uncaught Python exception becomes a `Failure` |
| `Encoding` | encoding.dfy | `make_u32`, `make_u64`, `make_i64` (`int.to_bytes`), with their readers |
| `Utf8` | utf8.dfy | `str.encode('utf8')`, `make_str`, and a length-prefixed string reader |
| `Text` | text.dfy | the Python string operations the assembler uses: `split()`, `split(",")`, `strip()`, `find`, `lower()`, `list.index`, `int()` |
| `Literals` | literals.dfy | classification of a constant literal as string, boolean, integer or float |
| `Fields` | fields.dfy | `resolve` and `resolveRef`: register fields and alias expansion |
| `Instructions` | instructions.dfy | the instruction table: mnemonics, opcodes and operand kinds, plus the instruction encoder and a decoder as its partner |
| `Dispatch` | dispatch.dfy | the source's `if inst == ...` chain, written branch by branch, and its equality with the table-driven encoder |
| `Assembler` | assembler.dfy | the state of the pass, one `Step` per line, and the pass's invariant |
| `Serializer` | serializer.dfy | the module writer, and a reader that inverts it |
| `Rasm` | rasm.dfy | the whole assembler: source lines in, file bytes out, and what a loader reads back |

The partners are reference definitions of what the bytes mean:

- The decoders (`DecodeInstr`, `Disassemble`, `ReadModule`) are the
  independent half of the round-trip lemmas.
- The branch-by-branch `SourceEncoding` checks the table-driven encoder. It
  keeps the source's `elif` structure, and a lemma proves the two equal on
  every input.

Some design points:

- **Alias expansion.** The source's recursion can be unbounded: an alias
  cycle recurses until Python's stack overflows. The model bounds expansion
  by the number of aliases. `Fields.AliasDepthIffDiverges` proves that this
  bound reports `AliasDepth` exactly when the unbounded recursion never
  returns. Python's recursion limit is the one difference; it is listed under
  `Fields.FieldOf` in "## Left out".
- **Lower-casing.** `lower()` is modelled on ASCII letters plus the Kelvin
  sign, the only non-ASCII character whose lower case is an ASCII letter.
  Every lower-cased word in the source is only compared with ASCII keywords,
  so every comparison comes out as in Python.
- **Comments in constant lines.** The constants parser reads the index and
  value from the raw line, which still holds its comment
  (rasm/rasm.py:137-140). The model does the same, so a trailing comment
  becomes part of the constant's value.
- **Forward jumps.** `jump` and `call` find only placeholders declared
  earlier (rasm/rasm.py:211-213). The model keeps this, and
  `Assembler.ParseInstructionBackward` shows that every accepted jump and
  call goes backwards.
- **Floats.** Float literals are read by a `FloatReader` parameter that
  returns the eight IEEE-754 bytes or nothing.

## Model

| member | source | states |
|---|---|---|
| Encoding.BigEndian | rasm/rasm.py:22-27 | the `w`-byte big-endian form of a value below 256^w has exactly `w` bytes |
| Encoding.FromBigEndianInverse | rasm/rasm.py:22-27 | reading back the big-endian bytes of a value gives the value |
| Encoding.BigEndianInverse | rasm/rasm.py:22-27 | every byte string is the big-endian form of its own reading, so the encoding is a bijection |
| Encoding.MakeU32 | rasm/rasm.py:22-23 | `make_u32` succeeds exactly for 0 <= i < 2^32, giving four bytes that read back as `i`; otherwise it fails with OverflowError |
| Encoding.MakeU64 | rasm/rasm.py:26-27 | `make_u64` succeeds exactly for 0 <= i < 2^64, giving eight bytes that read back as `i`; otherwise it fails with OverflowError |
| Encoding.MakeI64 | rasm/rasm.py:24-25 | `make_i64` succeeds exactly for -2^63 <= i < 2^63, giving eight bytes whose two's-complement reading is `i`; otherwise it fails with OverflowError |
| Encoding.DecodeI64Inverse | rasm/rasm.py:24-25 | every eight bytes are the `make_i64` encoding of their two's-complement reading |
| Encoding.ReadUnsigned | rasm/rasm.py:22-27 | the reader of a `w`-byte unsigned field succeeds exactly when `w` bytes are present, and the input is the field's big-endian bytes followed by what is left |
| Encoding.ReadUnsignedBigEndian | rasm/rasm.py:22-27 | a big-endian field followed by anything reads back as its value, leaving what follows |
| Encoding.ReadMadeU32 | rasm/rasm.py:22-23 | what `make_u32` writes reads back as the same number |
| Encoding.ReadMadeU64 | rasm/rasm.py:26-27 | what `make_u64` writes reads back as the same number |
| Utf8.EncodeChar | rasm/rasm.py:33 | a character's UTF-8 form is 1 to 4 bytes, and one byte exactly for ASCII |
| Utf8.DecodeEncodeChar | rasm/rasm.py:33 | a character's UTF-8 bytes decode back to the character, consuming exactly those bytes |
| Utf8.DecodeEncode | rasm/rasm.py:33 | decoding `s.encode('utf8')` gives `s` back |
| Utf8.Decode | rasm/rasm.py:33 | whatever the UTF-8 decoder accepts is exactly `encode('utf8')` of the text it returns, so overlong and other non-standard forms are rejected |
| Utf8.DecodeCharExact | rasm/rasm.py:33 | the bytes one decoded character consumes are exactly that character's standard UTF-8 form |
| Utf8.EncodeAscii | rasm/rasm.py:33 | for ASCII text the UTF-8 byte count equals the character count |
| Utf8.MakeStr | rasm/rasm.py:32-33 | the corrected `make_str` succeeds exactly when the UTF-8 length fits a u64; its bytes are that byte count as a big-endian u64 followed by exactly `s.encode('utf8')`, and they read back as the string whatever follows |
| Utf8.ReadStrMakeStr | rasm/rasm.py:32-33 | a u64 byte-length prefix followed by the UTF-8 bytes reads back as the string, leaving what follows |
| Utf8.ReadStrExact | rasm/rasm.py:32-33 | whatever the string reader accepts is a corrected `make_str` encoding of the string it returns, followed by the rest |
| Utf8.MakeStrAsWritten | rasm/rasm.py:32-33 | `make_str` as written: a u64 prefix holding the character count, followed by the UTF-8 bytes |
| Utf8.MakeStrAsciiAgrees | rasm/rasm.py:32-33 | on ASCII text, `make_str` as written and the corrected version produce the same bytes |
| Utf8.MakeStrAsWrittenMisframes | rasm/rasm.py:33 | for "é", `make_str` as written gives bytes the string reader rejects; the corrected version reads back |
| Text.FindChar | rasm/rasm.py:37-39 | `find` returns the first position of the character, or -1 exactly when the character is absent |
| Text.Slice | rasm/rasm.py:45 | a Python slice `s[i:j]` is the substring when i <= j, and empty otherwise |
| Text.StripComment | rasm/rasm.py:97 | `split("#")[0]` is the longest prefix without `#`, and it stops at a `#` when one exists |
| Text.TrimStart | rasm/rasm.py:140 | the left half of `strip()` removes exactly the leading whitespace |
| Text.TrimEnd | rasm/rasm.py:140 | the right half of `strip()` removes exactly the trailing whitespace |
| Text.Strip | rasm/rasm.py:140 | `strip()` gives the empty text exactly for all-whitespace text, never lengthens the text, and leaves no whitespace at either end |
| Text.StripPadded | rasm/rasm.py:140 | whitespace around a text without surrounding whitespace is exactly what `strip()` removes |
| Text.Words | rasm/rasm.py:97 | `split()` yields non-empty runs without whitespace, and nothing exactly when the text is all whitespace |
| Text.WordsIsSplit | rasm/rasm.py:97 | `split()` equals a character-by-character splitter that starts a word at a non-space and ends it at whitespace, so its pieces are the maximal whitespace-free runs, in order |
| Text.SplitFromWords | rasm/rasm.py:97 | the character-by-character splitter, started part-way through a word, gives `split()` of the partial word followed by the rest |
| Text.WordsLeadingSpace | rasm/rasm.py:97 | a leading whitespace character of any kind (space, tab, newline, ...) does not change `split()` |
| Text.FirstWord | rasm/rasm.py:138-139 | the first piece of `split(None, 2)` has no whitespace, and is empty exactly when the text is all whitespace |
| Text.FirstWordSplit | rasm/rasm.py:138-139 | `split()` of a non-blank text is its first word followed by `split()` of what follows that word, so `split(None, 2)` agrees with `split()` on the first two pieces |
| Text.FirstWordAt | rasm/rasm.py:138-139 | a word followed by whitespace or the end is the first word, and what follows it is the rest |
| Text.AfterWordAt | rasm/rasm.py:138-140 | after leading whitespace and a word, what follows the word is exactly the rest of the text |
| Text.WordsJoin | rasm/rasm.py:97 | `split()` of words joined by single spaces gives the words back |
| Text.WordsCons | rasm/rasm.py:97 | a word followed by the end of the text or by whitespace is the first piece of `split()` |
| Text.Lower | rasm/rasm.py:202 | lower-casing keeps the length and maps each character on its own |
| Text.SplitOn | rasm/rasm.py:205 | `split(",")` gives at least one piece, none containing a comma, and the pieces joined with commas give the text back |
| Text.IndexOf | rasm/rasm.py:238 | `list.index` gives the first position of the element, and fails exactly when the element is absent |
| Text.NatToString | rasm/rasm.py:45 | the decimal text of a natural number has no leading zero, and its digits denote the number |
| Text.ParseIntToString | rasm/rasm.py:163 | `int()` reads back the decimal text of every integer of at most 4300 digits and rejects the text of every longer one |
| Text.ParseNatToString | rasm/rasm.py:45 | the same for the unsigned text of a natural number |
| Text.WideIntFits | rasm/rasm.py:216 | every signed or unsigned 64-bit value has at most 20 digits, well within the 4300-digit limit |
| Text.ParseInt | rasm/rasm.py:139 | `int()` (sign and ASCII digits) succeeds exactly when the text after an optional sign is a digit string of at most 4300 characters, CPython's integer string conversion length limit (leading zeros count, the sign does not); a negative result needs a `-` sign, and a `-` sign never gives a positive result; the magnitude's decimal text is the digits without leading zeros |
| Literals.Unquote | rasm/rasm.py:146-147 | `val[1:-1]`: for two or more characters, the text with its first and last character removed; for one character, the empty text |
| Literals.ClassifyLiteral | rasm/rasm.py:145-176 | quoted text (single or double quotes, a lone quote included) becomes a string constant holding the text between the quotes; otherwise `true`/`false` in any case become a boolean; otherwise an integer, then a float; empty or uncategorised text fails, in that order of precedence |
| Literals.ClassifyRender | rasm/rasm.py:145-165 | the literal text of a string or boolean constant classifies back to that constant, and so does that of an integer constant exactly when it has at most 4300 digits |
| Literals.ClassifyRenderStr | rasm/rasm.py:146-149 | a double-quoted text becomes the string between the quotes |
| Literals.ClassifyRenderBool | rasm/rasm.py:152-159 | `true` and `false` become the booleans they name |
| Literals.ClassifyRenderInt | rasm/rasm.py:162-173 | the decimal text of an integer of at most 4300 digits becomes that integer; longer text goes to `float()`, becoming a float constant if the reader takes it and failing otherwise |
| Literals.ClassifyNumeric | rasm/rasm.py:162-176 | a value that is neither quoted nor a boolean word is an integer if `int()` reads it, otherwise a float if the float reader takes it, otherwise an error |
| Literals.BooleanWords | rasm/rasm.py:152-159 | `true` and `false` in any letter case are booleans |
| Fields.EncodeField | rasm/rasm.py:42-51 | a field is five bytes (the u32 index, zero for the accumulator, then the kind tag), and those bytes decode back to the field |
| Fields.DecodeFieldOnlyEncodings | rasm/rasm.py:42-51 | every five bytes that decode as a field are that field's encoding, so the field encoding is a bijection |
| Fields.EncodeRef | rasm/rasm.py:61-64 | a referenceable operand is six bytes |
| Fields.KindField | rasm/rasm.py:37-53 | a `kind(param)` token gives an encodable field or fails, and never reports alias depth |
| Fields.FieldWithin | rasm/rasm.py:36-58 | `resolve` with bounded alias expansion yields only encodable fields |
| Fields.FieldOf | rasm/rasm.py:36-58 | `resolve` yields only encodable fields; a bare word that names no alias fails as unknown; a token containing `(` is read as `kind(param)` without consulting the aliases |
| Fields.RefFieldOf | rasm/rasm.py:61-64 | an empty token fails; a leading `*` sets the indirection flag and is removed before `resolve`, whose result and error are passed on |
| Fields.Resolve | rasm/rasm.py:36-58 | `resolve` succeeds exactly when the token names a field, failing with the same error otherwise, and its five bytes decode to that field |
| Fields.ResolveRef | rasm/rasm.py:61-64 | `resolveRef` of an empty token fails (IndexError), and its result is six bytes |
| Fields.ResolveRefIsResolvePlusFlag | rasm/rasm.py:61-64 | `resolveRef(s)` is `resolve(s[1:]) + 02` when `s` starts with `*`, and `resolve(s) + 01` otherwise, with the same failures |
| Fields.DepthMeansExpanding | rasm/rasm.py:54-56 | running out of expansions means every token along the alias chain was an alias |
| Fields.SkipExpansions | rasm/rasm.py:54-56 | resolving a token that starts `j` alias steps equals resolving the token `j` steps down the chain, with `j` fewer steps |
| Fields.ExpandOnce | rasm/rasm.py:55-56 | an alias token resolves as its definition does, with one step fewer |
| Fields.AllExpandingDepth | rasm/rasm.py:54-56 | a chain of aliases longer than the bound reports AliasDepth |
| Fields.CycleNeverResolves | rasm/rasm.py:54-56 | an alias chain that returns to its start never resolves, whatever the bound |
| Fields.NoFuelLoss | rasm/rasm.py:54-56 | running out at the bound given by the number of aliases means running out at every bound |
| Fields.FuelMonotone | rasm/rasm.py:54-56 | once resolution ends within some bound, every larger bound gives the same answer |
| Fields.FieldOfIsTheLimit | rasm/rasm.py:54-56 | resolution bounded by the number of aliases gives the answer of every larger bound |
| Fields.AliasDepthIffDiverges | rasm/rasm.py:54-56 | bounded resolution reports AliasDepth exactly when the source's unbounded recursion never returns |
| Fields.AliasResolvesAsExpansion | rasm/rasm.py:55-56 | a bare alias name resolves to whatever its definition resolves to |
| Fields.KindTokenParse | rasm/rasm.py:37-45 | in `kind(n)`, the kind is everything before the first `(` (lower-cased) and the index is everything up to the first `)`; an index of more than 4300 digits fails as a bad integer |
| Fields.KindFieldBadIndex | rasm/rasm.py:41-45 | a non-accumulator `kind(param)` whose parameter `int()` rejects fails as a bad integer |
| Fields.FieldOfKind | rasm/rasm.py:37-38 | a token containing `(` is parsed as a `kind(param)` field, whatever the aliases say |
| Fields.KindFieldIndex | rasm/rasm.py:41-53 | a non-accumulator `kind(param)` whose parameter is an integer gives that kind's field, or fails on an unknown kind or an out-of-range index |
| Fields.IndexedKindTokens | rasm/rasm.py:45-51 | `local(n)`, `global(n)` and `const(n)`, the kind in any case, encode as the u32 `n` followed by 04, 03 and 01 |
| Fields.ResolveOf | rasm/rasm.py:45-51 | a token naming an indexed field resolves to that field's u32 index followed by its tag |
| Fields.AccumulatorToken | rasm/rasm.py:41-43 | `accumulator(...)` is four zero bytes and tag 02, whatever the parameter |
| Fields.AccumulatorField | rasm/rasm.py:41-43 | an `accumulator` kind with a closing parenthesis is the accumulator field |
| Fields.UnknownKindToken | rasm/rasm.py:45-53 | an unknown kind word fails: on the kind when `int()` reads the index, as a bad integer when the index has more than 4300 digits |
| Fields.MalformedTokens | rasm/rasm.py:39-58 | a `(` without `)` is a bad field, and a bare word that names no alias is an unknown alias |
| Instructions.OpOfCode | rasm/rasm.py:215-294 | the opcode bytes in use are exactly 0x01 to 0x19 |
| Instructions.Opcode | rasm/rasm.py:215-294 | every instruction's opcode lies in 0x01 to 0x19 (and `OpcodeDecodes` shows it identifies the instruction) |
| Instructions.Operands | rasm/rasm.py:215-294 | no instruction has more than three operands; an immediate, a jump or call target or an import index is always the only operand; three operands are always three values |
| Instructions.OpcodeDecodes | rasm/rasm.py:215-294 | each instruction's opcode identifies that instruction |
| Instructions.OpcodeTable | rasm/rasm.py:215-294 | opcodes are one-to-one with instructions |
| Instructions.MnemonicParses | rasm/rasm.py:215-294 | each instruction's mnemonic names that instruction |
| Instructions.MnemonicTable | rasm/rasm.py:215-296 | mnemonics are one-to-one with instructions, and any other word names none |
| Instructions.EncodeOperand | rasm/rasm.py:215-294 | an operand is as wide as its kind: 4 for immediates, 5 for values, 6 for references, 8 for targets and import indexes |
| Instructions.DecodeEncodeOperand | rasm/rasm.py:215-294 | every operand encoding decodes back to the operand, leaving what follows |
| Instructions.DecodeOperandExact | rasm/rasm.py:215-294 | the operand decoder accepts nothing but encodings of fitting operands |
| Instructions.DecodeEncodeOperands | rasm/rasm.py:215-294 | an instruction's operands, encoded in order, decode back in order |
| Instructions.DecodeOperandsExact | rasm/rasm.py:215-294 | whatever the operand-list decoder accepts is the encoding of the operands it returns |
| Instructions.DecodeEncodeInstr | rasm/rasm.py:215-294 | an instruction's bytes (opcode, then operands) decode back to it, leaving what follows |
| Instructions.DecodeInstrExact | rasm/rasm.py:215-294 | whatever the instruction decoder accepts is a well-formed instruction's encoding |
| Instructions.DisassembleEncode | rasm/rasm.py:299 | a code section made by concatenating instructions disassembles to exactly those instructions |
| Instructions.EncodeDisassemble | rasm/rasm.py:299 | every code section that disassembles is the concatenation of its instructions' bytes |
| Instructions.EncodeProgramAppend | rasm/rasm.py:299 | appending an instruction to the program appends its bytes to the code |
| Instructions.DisassembleAppend | rasm/rasm.py:299-300 | appending one instruction's bytes to the code adds exactly that instruction to the disassembly |
| Instructions.ParseOperand | rasm/rasm.py:215-294 | an operand token that converts gives an operand that fits its kind |
| Instructions.ParseOperands | rasm/rasm.py:245-294 | operand tokens that all convert give operands that fit their kinds |
| Instructions.ParseInstruction | rasm/rasm.py:215-296 | a line that converts gives a well-formed instruction with the same mnemonic; an unknown mnemonic and a wrong operand count fail as in the source |
| Instructions.DecodeEncodeInstrAll | rasm/rasm.py:215-294 | an instruction's encoding decodes back to it whatever follows |
| Instructions.EncodeInstruction | rasm/rasm.py:215-296 | a code line's bytes exist exactly when the line converts to an instruction, the failure is that conversion's error, and the bytes decode to the instruction whatever follows |
| Dispatch.FrameAllocAsWritten | rasm/rasm.py:218-220 | the `framealloc` branch as written never succeeds: a valid operand reaches the `str + bytes` join, which raises TypeError |
| Dispatch.OperandAgrees | rasm/rasm.py:215-294 | for every operand kind, converting a token and encoding it gives the bytes the source computes, failing exactly when and how the source fails |
| Dispatch.ImmAgrees | rasm/rasm.py:217 | an immediate is `make_u32(int(token))`, including its ValueError and OverflowError |
| Dispatch.ValueAgrees | rasm/rasm.py:264 | a value operand is `resolve(token)` |
| Dispatch.ReferenceAgrees | rasm/rasm.py:246 | a reference operand is `resolveRef(token)` |
| Dispatch.RelAgrees | rasm/rasm.py:229-230 | a jump target is `make_i64(place - instNumber)`, or fails for an unknown placeholder |
| Dispatch.AbsAgrees | rasm/rasm.py:233 | a call target is `make_u64(place)`, or fails for an unknown placeholder |
| Dispatch.ImportAgrees | rasm/rasm.py:236-240 | an extcall operand is `make_u64(imports.index(name))`, or fails for a name that is not imported |
| Dispatch.OperandsAgree | rasm/rasm.py:245-294 | converting all operand tokens of a line gives the concatenated bytes the source computes, the first failure winning |
| Dispatch.EncodeInstructionBranch | rasm/rasm.py:215-296 | a known mnemonic's encoding is its opcode followed by its operands' bytes, after the operand count is checked |
| Dispatch.SourceShapeIsTable | rasm/rasm.py:215-294 | every branch of the source's dispatch uses the table's opcode and operand kinds for its mnemonic |
| Dispatch.ControlShapes | rasm/rasm.py:215-243 | the branches `alloc` to `ret` match the table |
| Dispatch.MoveShapes | rasm/rasm.py:244-252 | the branches `mov`, `cpy` and `ref` match the table |
| Dispatch.StackShapes | rasm/rasm.py:253-261 | the branches `stackpush`, `stackmov` and `stackpop` match the table |
| Dispatch.ArithmeticShapes | rasm/rasm.py:262-270 | the branches `add`, `sub` and `mul` match the table |
| Dispatch.DivisionShapes | rasm/rasm.py:271-276 | the branches `div` and `mod` match the table |
| Dispatch.EqualityShapes | rasm/rasm.py:277-285 | the branches `equal`, `notequal` and `greater` match the table |
| Dispatch.OrderShapes | rasm/rasm.py:286-291 | the branches `less` and `greaterequal` match the table |
| Dispatch.LessEqualShape | rasm/rasm.py:292-294 | the `lessequal` branch matches the table |
| Dispatch.SourceShapeUnknown | rasm/rasm.py:295-296 | a word that is no mnemonic selects no branch |
| Dispatch.SourceEncoding | rasm/rasm.py:215-296 | the dispatch chain fails with an unknown-instruction error for a word that selects no branch, with an arity error for a wrong operand count, and otherwise starts its bytes with the branch's opcode |
| Dispatch.EncodeInstructionIsSourceEncoding | rasm/rasm.py:215-296 | the table-driven encoder equals the source's dispatch chain on every mnemonic and operand list, errors included |
| Dispatch.FrameAllocFinding | rasm/rasm.py:218-220 | for every in-range `n`, `framealloc n` fails as written, while the corrected branch gives 15 followed by the u32 `n` |
| Dispatch.KnownMnemonic | rasm/rasm.py:215-294 | the encoding of an instruction's mnemonic is the table's branch for that instruction |
| Dispatch.NoOperandInstructions | rasm/rasm.py:241-261 | `ret` and `stackpop` are their opcode alone, and any operand is an arity error |
| Dispatch.ImmediateInstructions | rasm/rasm.py:215-226 | `alloc`, `free` and `framefree` are their opcode followed by `make_u32(int(n))` |
| Dispatch.FrameAllocEncoding | rasm/rasm.py:218-220 | corrected `framealloc`: opcode 15 followed by `make_u32(int(n))`, like its neighbours |
| Dispatch.AllocEncoding | rasm/rasm.py:215-217 | `alloc n` for an in-range decimal `n` is 01 followed by `n` as four big-endian bytes |
| Dispatch.JumpEncoding | rasm/rasm.py:227-230 | `jump` to an unknown placeholder fails; otherwise it is 03 followed by the i64 distance from the current instruction |
| Dispatch.CallEncoding | rasm/rasm.py:231-233 | `call` to an unknown placeholder fails; otherwise it is 04 followed by the u64 index of the placeholder |
| Dispatch.ExtCallEncoding | rasm/rasm.py:234-240 | `extcall` of a name that is not imported fails; otherwise it is 05 followed by the u64 position of the name's first occurrence in the imports |
| Dispatch.ReferenceBranches | rasm/rasm.py:244-258 | the reference branches are the opcode followed by `resolveRef` of each operand, the first failure winning |
| Dispatch.TwoValueBranch | rasm/rasm.py:277-294 | a comparison is the opcode followed by `resolve` of both operands, the first failure winning |
| Dispatch.ThreeValueBranch | rasm/rasm.py:262-276 | an arithmetic instruction is the opcode followed by `resolve` of its three operands, the first failure winning |
| Dispatch.ArityAndUnknown | rasm/rasm.py:16-18 | a known mnemonic with the wrong operand count fails before any operand is looked at, and an unknown mnemonic fails |
| Assembler.SectionMode | rasm/rasm.py:111-129 | exactly the names constants, imports, exports, aliases and code select a mode, and none selects the initial mode |
| Assembler.SectionNames | rasm/rasm.py:111-127 | each mode is reached by exactly one section name |
| Assembler.Insert | rasm/rasm.py:147 | `list.insert` puts the element at the position, or at the end when the position is past it, and keeps the rest in order |
| Assembler.ConstantLine | rasm/rasm.py:133-176 | a constant line without the arrow shape fails; a bad index fails; an index other than the running count fails; otherwise the classified value is inserted and the count goes up |
| Assembler.ConstantIndex | rasm/rasm.py:138-139 | the index of a constant line is `int()` of the first word of the raw line, and exists only when the line is not blank |
| Assembler.ConstantValue | rasm/rasm.py:138-140 | the value text is never longer than the line and has no whitespace at either end |
| Assembler.ConstantFields | rasm/rasm.py:137-140 | the line `<i> => <v>` has value `v`, for any value text without surrounding whitespace, and index `i` when `i` has at most 4300 digits (no index otherwise) |
| Assembler.HeaderLine | rasm/rasm.py:105-190 | before any section a non-directive line fails; an accepted header line leaves the code, the counter and the placeholders alone, keeps the mode unless it is a directive, and only appends to the imports and exports |
| Assembler.CodeLine | rasm/rasm.py:192-300 | an accepted code line keeps the mode, constants, imports, exports and aliases and only appends to the code; a placeholder always succeeds and emits nothing; an instruction adds bytes, moves the counter on by one and keeps the placeholders |
| Assembler.LineWords | rasm/rasm.py:97 | the parts of a line are non-empty words without whitespace |
| Assembler.LineWordsSplit | rasm/rasm.py:97 | the parts of a line without `#` are the character-by-character split of the whole line |
| Assembler.LineWordsComment | rasm/rasm.py:97 | everything from the first `#` on is dropped before the line is split |
| Assembler.LineOfWords | rasm/rasm.py:97 | a comment-free line of words separated by single spaces has those words as its parts |
| Assembler.Step | rasm/rasm.py:95-300 | a blank line, or one holding only a comment, leaves the state unchanged; an accepted line only extends the code and never lowers the counter; no line leaves code mode; a line after which the pass is still outside code mode leaves the code, the counter and the placeholders alone |
| Assembler.SectionDirective | rasm/rasm.py:106-129 | a directive without a name fails, one with an unknown name fails, and one with a known name only switches the mode |
| Assembler.SectionRequiredFirst | rasm/rasm.py:130-131 | before the first directive every non-blank line fails |
| Assembler.SectionInCode | rasm/rasm.py:192-296 | in code mode a `section` line is read as an instruction, and fails as an unknown one |
| Assembler.ConstantLineAppends | rasm/rasm.py:142-148 | when the count equals the number of constants, an accepted constant is appended at the end and nothing but the constants changes |
| Assembler.StepConstantLine | rasm/rasm.py:132-176 | in the constants section a non-directive line is read as a constant |
| Assembler.ConstantStep | rasm/rasm.py:133-176 | a constant line is accepted exactly when it has the arrow shape, its index is the number of constants so far, and its value is a literal; the constant is then appended |
| Assembler.TableLine | rasm/rasm.py:178-190 | an imports or exports line appends its first word; an aliases line without the arrow shape fails; otherwise the alias is bound to the third word |
| Assembler.TableEntryStep | rasm/rasm.py:178-184 | in the imports and exports sections a line appends its first word to the table, and nothing else changes |
| Assembler.AliasStep | rasm/rasm.py:186-190 | in the aliases section, a `<name> => <expr>` line binds the name (a later binding replaces an earlier one), and any other line fails |
| Assembler.CodeLineInstruction | rasm/rasm.py:201-300 | an instruction line appends its encoding and moves the counter on, or fails with the encoding's error |
| Assembler.StepInstructionLine | rasm/rasm.py:201-300 | in code mode a non-placeholder line appends its instruction's bytes and moves the counter on, or fails with the encoding's error |
| Assembler.PlaceholderStep | rasm/rasm.py:194-199 | a `.name` line binds the name to the index of the next instruction and emits nothing |
| Assembler.InstructionStep | rasm/rasm.py:201-300 | an accepted instruction line adds exactly that instruction to the code's disassembly, moves the index on, keeps the placeholders, and transfers control only backwards |
| Assembler.BackwardOnlyAppend | rasm/rasm.py:211-213 | appending a backward-only instruction at the end keeps a program backward-only |
| Assembler.StepValid | rasm/rasm.py:95-300 | every accepted line keeps the pass's invariant: constants counted, placeholders behind, code decodable into `instNumber` backward-only instructions |
| Assembler.CodeStepValid | rasm/rasm.py:192-300 | every accepted code-section line keeps the invariant |
| Assembler.HeaderStepValid | rasm/rasm.py:105-190 | every accepted header line keeps the invariant and leaves the code alone |
| Assembler.ValidKeepsCode | rasm/rasm.py:105-190 | a step that leaves the code, its counter and the placeholders alone, and keeps the constants counted, keeps the invariant |
| Assembler.AssembleFromValid | rasm/rasm.py:95-300 | the invariant holds after any accepted run of lines |
| Assembler.AssembleValid | rasm/rasm.py:82-300 | a successful assembly from the initial state ends in a state satisfying the invariant |
| Assembler.AssembleFrom | rasm/rasm.py:95-300 | over any accepted run of lines the code only grows and the counter never drops; once in code mode the pass stays there to the end; a run that ends outside code mode has emitted no code and declared no placeholder |
| Assembler.Assemble | rasm/rasm.py:82-300 | a successful assembly that never reaches `section code` has no code, no instructions and no placeholders |
| Assembler.AssembleFromAppend | rasm/rasm.py:95-101 | assembling two blocks of lines is assembling the first, then the second from where it ended; a failure in the first block wins |
| Assembler.ParseOperandBackward | rasm/rasm.py:211-233 | a jump or call target not yet declared fails, and a known one lies at or before the current instruction |
| Assembler.ParseOperandsBackward | rasm/rasm.py:211-233 | every target among a line's operands lies at or before the current instruction |
| Assembler.ParseInstructionBackward | rasm/rasm.py:211-233 | an instruction read while every known label lies behind transfers control only backwards |
| Serializer.EncodeConstant | rasm/rasm.py:317-327 | a constant's entry exists exactly when its value fits (otherwise OverflowError), and the tag-checking reader reads it back as the constant whatever follows |
| Serializer.ReadEncodeTagged | rasm/rasm.py:317-327 | each tag with its payload reads back as the constant it was written for |
| Serializer.ReadTaggedStr | rasm/rasm.py:319-320 | a string entry reads back as the string |
| Serializer.ReadTaggedBool | rasm/rasm.py:321-323 | `04 01` reads back as true and `04 00` as false |
| Serializer.ReadTaggedFloat | rasm/rasm.py:324-325 | a float entry reads back as the same eight bytes |
| Serializer.ReadTaggedInt | rasm/rasm.py:326-327 | an integer entry reads back as the integer |
| Serializer.EncodeConstants | rasm/rasm.py:316-327 | the constants table body exists exactly when every constant fits, and otherwise fails with OverflowError |
| Serializer.ReadEncodeConstants | rasm/rasm.py:316-327 | reading back as many constants as were written gives them back in order |
| Serializer.ReadConstantExact | rasm/rasm.py:317-327 | whatever the tag-checking reader accepts is the written entry of the constant it returns, followed by the rest |
| Serializer.ReadConstants | rasm/rasm.py:316-327 | reading `n` constants gives `n` of them, and the input is exactly their written entries followed by the rest |
| Serializer.EncodeNames | rasm/rasm.py:330-333 | the imports table body exists exactly when every name's UTF-8 length fits a u64 |
| Serializer.ReadEncodeNames | rasm/rasm.py:330-333 | reading back as many names as were written gives them back in order |
| Serializer.ReadNames | rasm/rasm.py:330-333 | reading `n` names gives `n` of them, and the input is exactly their written entries followed by the rest |
| Serializer.Exported | rasm/rasm.py:338-342 | each exported name is paired with the instruction index its placeholder marks |
| Serializer.EncodeExport | rasm/rasm.py:338-344 | an export of an undeclared placeholder fails; otherwise its entry exists exactly when it fits, and reads back as the name with its index |
| Serializer.ReadExportEntry | rasm/rasm.py:338-342 | an export entry reads back as the name with the index its placeholder marks |
| Serializer.ReadExportExact | rasm/rasm.py:338-342 | whatever the export reader accepts is a written name followed by its u64 index and the rest |
| Serializer.EncodeExports | rasm/rasm.py:336-344 | the exports table body exists exactly when every export is declared and fits |
| Serializer.ReadEncodeExports | rasm/rasm.py:336-344 | reading back as many exports as were written gives each name with its placeholder's index, in order |
| Serializer.ReadExportsExact | rasm/rasm.py:336-344 | an exports table that reads back as the exported names of a state is exactly the bytes written for them |
| Serializer.Serialize | rasm/rasm.py:312-347 | the file starts with the header, exists exactly when every table entry and count fits, and reads back as the constants, imports, exports with their indexes, and the code; with `ReadModuleExact`, these bytes are the only ones that read back so |
| Serializer.ReadModuleParts | rasm/rasm.py:312-347 | the header followed by the three tables and the code reads back as the module they were written from |
| Serializer.ReadModuleExact | rasm/rasm.py:312-347 | a byte string that reads back as a state's module is exactly the file the writer makes for that state, so the written file is pinned byte for byte |
| Rasm.AssembleModule | rasm/rasm.py:82-347 | the assembler gives a file exactly when the pass and the writer both succeed, passes on the pass's error or else the writer's, and gives exactly the writer's bytes for the final state; that file loads back with the same constants and imports, each export paired with its placeholder's index, and the code disassembling to `instNumber` backward-only instructions |
| Rasm.ExportsInRange | rasm/rasm.py:336-342 | every exported entry point of an assembled module is the index of one of its instructions, or the end of the code |
| Rasm.AllocLine | rasm/rasm.py:215-217 | in code mode the line `alloc 10` appends 01 00 00 00 0A and counts one instruction |

## Left out

- Command-line handling and file I/O (rasm/rasm.py:74-79, 91, 312) are left out. The source arrives as a sequence of lines, and the result is the bytes of the file.
- Printing (rasm/rasm.py:13, 198, 207, 298, 302-308, 318, 332, 341) is left out: it does not affect the output file.
- `fail` and `sys.exit` (rasm/rasm.py:12-14) become a `Failure` carrying an error kind. The message text and the line number are not modelled.
- Uncaught Python exceptions are modelled as failures too, because each one also ends the run without a module:
  - ValueError from `int()` becomes `BadInteger`;
  - OverflowError from `to_bytes` becomes `Overflow`;
  - IndexError from an empty reference operand becomes `EmptyField`;
  - KeyError from `call` to an unknown placeholder becomes `UnknownPlaceholder`;
  - TypeError in `framealloc` becomes `TypeMismatch`.
- The file left half-written by a failure during writing (rasm/rasm.py:312-344) is left out: the model gives a failure and no bytes.
- Float parsing and `make_f64` (rasm/rasm.py:171, 325) are left out. Reading a float literal into its IEEE-754 bytes is the `FloatReader` parameter, so Python's float grammar and rounding are not modelled.
- `make_i32` and `make_f32` (rasm/rasm.py:20-21, 28-29) are left out: the assembler never calls them.
- Text.ParseInt: follows CPython 3.11 and later (and the 3.7.14, 3.8.14, 3.9.14 and 3.10.7 security releases), whose `int()` rejects decimal text of more than 4300 digits. Older Pythons read such text: an operand or index then fails on its range rather than as a bad integer, and a constant value becomes an integer that overflows the i64 instead of going to `float()`.
- Text.ParseInt: accepts only an optional sign followed by ASCII digits. Python's `int()` also accepts underscores between digits, surrounding whitespace and non-ASCII digits, so the model rejects some operands and constant indexes that the source accepts.
- Literals.ClassifyLiteral: a constant value such as `1_000`, or a run of non-ASCII digits, is an integer constant in the source (tag 01 and an i64, rasm/rasm.py:163). The model's narrower `int()` rejects it, so the value goes on to the float reader. With a reader that follows Python's `float()` it becomes a float constant (tag 02); otherwise the line fails. A value of more than 4300 digits goes to the float reader in both, as CPython's digit limit makes `int()` reject it; `float()` makes it inf (tag 02 followed by 7F F0 00 00 00 00 00 00).
- Text.Lower: maps only ASCII capitals and the Kelvin sign. Other non-ASCII case mappings of `str.lower()` are not modelled. The lowered text is only ever compared with ASCII keywords, and no other character lowers into ASCII, so every comparison is unaffected.
- Literals.ClassifyLiteral: its `MissingValue` error (the IndexError of `val[0]` on an empty value) cannot occur in a whole run. A constant line needs three words before its comment, so the value text of the raw line is never empty.
- Lines are taken as given, with no line-ending translation. A trailing newline is whitespace to `split()` and `strip()`, so it changes nothing.
- Fields.FieldOf: bounds alias expansion by the number of aliases and resolves every acyclic chain. Python stops any chain deeper than its recursion limit (about 1000 calls, rasm/rasm.py:55-56) with RecursionError; the model does not.
- Serializer.Serialize: uses the corrected `make_str` (a UTF-8 byte-count prefix). For a non-ASCII string constant, import name or export name, the file therefore differs from what the program writes, whose prefix is the character count (rasm/rasm.py:33, modelled as `Utf8.MakeStrAsWritten`). `Utf8.MakeStrAsciiAgrees` shows the two agree on ASCII text. The same holds for Rasm.AssembleModule, which writes through Serialize.
- Serializer.EncodeConstant: a string constant is framed with the corrected `make_str`, as described under Serializer.Serialize.
- Serializer.EncodeNames: each import name is framed with the corrected `make_str`, as described under Serializer.Serialize.
- Serializer.EncodeExport: the export name is framed with the corrected `make_str`, as described under Serializer.Serialize.
- Rasm.AssembleModule: its file uses the corrected `make_str`, as described under Serializer.Serialize.
- The host programs that load modules (the C API example and the test runner) are not part of this model.

## Findings

| source | as written | input that shows it | evidently intended | confidence | as-written member | corrected member |
|---|---|---|---|---|---|---|
| rasm/rasm.py:220 | the opcode of `framealloc` is written as the text `'b\x15'` instead of the bytes `b'\x15'`, so joining it with `make_u32(...)` raises TypeError | the line `framealloc 10` in the code section | the opcode byte 0x15 followed by the u32 operand, like the neighbouring `free` and `framefree` branches | high; not executed | Dispatch.FrameAllocFinding | Dispatch.FrameAllocEncoding |
| rasm/rasm.py:33 | `make_str` prefixes a string with its character count `len(i)`, but the payload that follows is its UTF-8 bytes | the constant `"é"`: prefix 1, payload C3 A9, so a reader takes one byte and loses the framing | the prefix is the UTF-8 byte length, `len(i.encode('utf8'))` | medium; not executed | Utf8.MakeStrAsWrittenMisframes | Utf8.MakeStr |

=== FILE: assembler.dfy ===
/** The assembler's single pass over the source lines (rasm/rasm.py:82-300):
    one state record, threaded through one step per line. The first failing
    line ends the run. */
module Assembler {
  import opened Wrappers
  import opened Encoding
  import opened Text
  import opened Literals
  import opened Instructions

  /** What the next non-blank line is read as: the header sections
      (`imode` 0..4 in the source), or code once `section code` was seen. */
  datatype Mode = Unset | InConstants | InImports | InExports | InAliases | InCode

  /** Everything the pass accumulates (rasm/rasm.py:82-89), plus the mode. */
  datatype State = State(
    mode: Mode,
    constants: seq<Constant>,
    constantNum: nat,
    imports: seq<string>,
    exports: seq<string>,
    aliases: map<string, string>,
    instPlaces: map<string, nat>,
    instNumber: nat,
    instructionData: bytes)

  const Init := State(Unset, [], 0, [], [], map[], map[], 0, [])

  /** The mode a `section <name>` directive switches to (name lower-cased). */
  function SectionMode(name: string): (m: Option<Mode>)
    ensures m != Some(Unset)
    ensures m.Some? <==> name in {"constants", "imports", "exports", "aliases", "code"}
  {
    if name == "constants" then Some(InConstants)
    else if name == "imports" then Some(InImports)
    else if name == "exports" then Some(InExports)
    else if name == "aliases" then Some(InAliases)
    else if name == "code" then Some(InCode)
    else None
  }

  /** The directive name of a mode. */
  function SectionName(m: Mode): string
    requires m != Unset
  {
    match m
    case InConstants => "constants"
    case InImports => "imports"
    case InExports => "exports"
    case InAliases => "aliases"
    case InCode => "code"
  }

  /** Every mode but the initial one is reached by exactly its own name. */
  lemma SectionNames(m: Mode)
    requires m != Unset
    ensures SectionMode(SectionName(m)) == Some(m)
    ensures forall name :: SectionMode(name) == Some(m) ==> name == SectionName(m)
  {
  }

  /** Python's `xs.insert(pos, x)` for a non-negative position: a position
      past the end appends. */
  function Insert<T>(xs: seq<T>, pos: nat, x: T): (r: seq<T>)
    ensures |r| == |xs| + 1
    ensures var p := if pos < |xs| then pos else |xs|;
      r[..p] == xs[..p] && r[p] == x && r[p + 1..] == xs[p..]
  {
    if pos < |xs| then xs[..pos] + [x] + xs[pos..] else xs + [x]
  }

  /** The index word of a constant line, read from the raw line (comment
      included), as `text.split(None, 2)[0]` does. */
  function ConstantIndex(line: string): (r: Option<int>)
    ensures r.Some? ==> !AllSpace(line) && r == ParseInt(Words(line)[0])
  {
    ParseInt(FirstWord(line))
  }

  /** The value text of a constant line: everything after the second word of
      the raw line, stripped, as `text.split(None, 2)[2].strip()` gives it. A
      trailing comment stays part of the value. */
  function ConstantValue(line: string): (r: string)
    ensures Stripped(r)
    ensures |r| <= |line|
  {
    Strip(AfterWord(AfterWord(line)))
  }

  /** The line `<i> => <v>` has index `i` (when `int()` reads it) and value
      `v`, for any value text without surrounding whitespace. */
  lemma ConstantFields(i: int, v: string)
    requires v != [] && Stripped(v)
    ensures ConstantIndex(IntToString(i) + " => " + v) == if IntFits(i) then Some(i) else None
    ensures ConstantValue(IntToString(i) + " => " + v) == v
  {
    var w := IntToString(i);
    var line := w + " => " + v;
    assert FirstWord(line) == w && AfterWord(line) == " => " + v by {
      IntToStringWord(i);
      FirstWordAt(w, " => " + v);
      assert line == w + (" => " + v);
    }
    ParseIntToString(i);
    AfterArrow(v);
  }

  /** After the index word, the arrow and the whitespace around it go. */
  lemma AfterArrow(v: string)
    requires v != [] && Stripped(v)
    ensures Strip(AfterWord(" => " + v)) == v
  {
    ArrowWord(v);
    AppendEmpty(v);
    StripPadded(" ", v, []);
  }

  lemma ArrowWord(rest: string)
    ensures AfterWord(" => " + rest) == " " + rest
  {
    assert IsSpace(' ') && !IsSpace('=');
    assert AllSpace(" ") && IsWord("=>");
    assert " => " + rest == " " + ("=>" + (" " + rest));
    AfterWordAt(" ", "=>", " " + rest);
  }

  lemma IntToStringWord(i: int)
    ensures IsWord(IntToString(i))
  {
    var d := NatToString(if i < 0 then -i else i);
    assert forall k :: 0 <= k < |d| ==> !IsSpace(d[k]) by {
      forall k | 0 <= k < |d| ensures !IsSpace(d[k]) { assert IsDigit(d[k]); }
    }
    if i < 0 {
      var s := "-" + d;
      assert forall k :: 0 <= k < |s| ==> !IsSpace(s[k]) by {
        forall k | 0 <= k < |s| ensures !IsSpace(s[k]) {
          if k > 0 { assert s[k] == d[k - 1]; }
        }
      }
    }
  }

  /** A line of the shape `<index> => <value> ...` (after comment removal). */
  predicate ArrowShape(parts: seq<string>) {
    |parts| >= 3 && parts[1] == "=>"
  }

  /** A line of the constants section. */
  function ConstantLine(st: State, line: string, parts: seq<string>, readFloat: FloatReader): (r: Result<State>)
    ensures !ArrowShape(parts) ==> r == Failure(BadConstant)
    ensures ArrowShape(parts) && ConstantIndex(line).None? ==> r == Failure(BadInteger)
    ensures ArrowShape(parts) && ConstantIndex(line).Some? && ConstantIndex(line).value != st.constantNum
            ==> r == Failure(BadConstantIndex)
    ensures r.Success? <==>
      && ArrowShape(parts)
      && ConstantIndex(line) == Some(st.constantNum as int)
      && ClassifyLiteral(ConstantValue(line), readFloat).Success?
    ensures r.Success? ==>
      var c := ClassifyLiteral(ConstantValue(line), readFloat).value;
      r.value == st.(constants := Insert(st.constants, st.constantNum, c), constantNum := st.constantNum + 1)
  {
    if !ArrowShape(parts) then Failure(BadConstant)
    else
      var pos :- Need(ConstantIndex(line), BadInteger);
      if pos != st.constantNum then Failure(BadConstantIndex)
      else
        var c :- ClassifyLiteral(ConstantValue(line), readFloat);
        Success(st.(constants := Insert(st.constants, pos, c), constantNum := st.constantNum + 1))
  }

  /** A non-blank line before code mode: a section directive or an entry of
      the current section. */
  function HeaderLine(st: State, line: string, parts: seq<string>, readFloat: FloatReader): (r: Result<State>)
    requires st.mode != InCode && parts != []
    ensures Lower(parts[0]) != "section" && st.mode == Unset ==> r == Failure(SectionRequired)
    ensures r.Success? ==>
      && r.value.instructionData == st.instructionData
      && r.value.instNumber == st.instNumber
      && r.value.instPlaces == st.instPlaces
    ensures r.Success? && Lower(parts[0]) != "section" ==> r.value.mode == st.mode
    ensures r.Success? ==> st.imports <= r.value.imports && st.exports <= r.value.exports
  {
    if Lower(parts[0]) == "section" then
      if |parts| < 2 then Failure(BadSectionDeclaration)
      else
        var m :- Need(SectionMode(Lower(parts[1])), UnknownSection);
        Success(st.(mode := m))
    else if st.mode == Unset then Failure(SectionRequired)
    else if st.mode == InConstants then ConstantLine(st, line, parts, readFloat)
    else if st.mode == InImports then Success(st.(imports := st.imports + [parts[0]]))
    else if st.mode == InExports then Success(st.(exports := st.exports + [parts[0]]))
    else if !ArrowShape(parts) then Failure(BadAlias)
    else Success(st.(aliases := st.aliases[parts[0] := parts[2]]))
  }

  /** The operand tokens of a code line: the words after the mnemonic,
      glued together and split at commas. */
  function Params(parts: seq<string>): seq<string>
    requires parts != []
  {
    if |parts| > 1 then SplitOn(Concat(parts[1..]), ',') else []
  }

  /** What an operand may refer to on the current line. */
  function SymbolsOf(st: State): Symbols {
    Symbols(st.aliases, st.instPlaces, st.instNumber, st.imports)
  }

  /** A non-blank line in code mode: a `.name` placeholder or an instruction. */
  function CodeLine(st: State, parts: seq<string>): (r: Result<State>)
    requires parts != [] && parts[0] != []
    ensures r.Success? ==>
      && r.value.mode == st.mode
      && r.value.constants == st.constants && r.value.constantNum == st.constantNum
      && r.value.imports == st.imports && r.value.exports == st.exports
      && r.value.aliases == st.aliases
      && st.instructionData <= r.value.instructionData
    ensures parts[0][0] == '.' ==>
      r.Success? && r.value.instructionData == st.instructionData && r.value.instNumber == st.instNumber
    ensures parts[0][0] != '.' && r.Success? ==>
      r.value.instNumber == st.instNumber + 1 && r.value.instPlaces == st.instPlaces &&
      |r.value.instructionData| > |st.instructionData|
  {
    if parts[0][0] == '.' then
      Success(st.(instPlaces := st.instPlaces[parts[0][1..] := st.instNumber]))
    else
      var data :- EncodeInstruction(Lower(parts[0]), Params(parts), SymbolsOf(st));
      Success(st.(instructionData := st.instructionData + data, instNumber := st.instNumber + 1))
  }

  /** The words of a line once its comment is removed. */
  function LineWords(line: string): (parts: seq<string>)
    ensures forall i :: 0 <= i < |parts| ==> IsWord(parts[i])
  {
    var parts := Words(StripComment(line));
    assert forall i :: 0 <= i < |parts| ==> parts[i] in parts;
    parts
  }

  /** A line without `#` has no comment: its parts are `split()` of it. */
  lemma LineWordsSplit(line: string)
    requires '#' !in line
    ensures LineWords(line) == SplitFrom(line, [])
  {
    assert StripComment(line) == line;
    WordsIsSplit(line);
  }

  /** Everything from the first `#` on is a comment: the parts are
      `split()` of the text before it. */
  lemma LineWordsComment(before: string, after: string)
    requires '#' !in before
    ensures LineWords(before + "#" + after) == SplitFrom(before, [])
  {
    var line := before + "#" + after;
    FindCharAt(before, '#', after);
    assert line[..|before|] == before;
    assert StripComment(line) == before;
    WordsIsSplit(before);
  }

  /** A line written as words separated by single spaces, without a
      comment, is read back as exactly those words. */
  lemma LineOfWords(ws: seq<string>)
    requires |ws| >= 1 && forall i :: 0 <= i < |ws| ==> IsWord(ws[i])
    requires '#' !in JoinWith(ws, " ")
    ensures LineWords(JoinWith(ws, " ")) == ws
  {
    var s := JoinWith(ws, " ");
    var r := StripComment(s);
    if |r| < |s| {
      assert false;
    }
    assert r == s;
    WordsJoin(ws);
  }

  /** One line of the source through the assembler. */
  function Step(st: State, line: string, readFloat: FloatReader): (r: Result<State>)
    ensures LineWords(line) == [] ==> r == Success(st)
    ensures r.Success? ==>
      st.instructionData <= r.value.instructionData && st.instNumber <= r.value.instNumber
    ensures r.Success? && st.mode == InCode ==> r.value.mode == InCode
    ensures r.Success? && r.value.mode != InCode ==>
      && r.value.instructionData == st.instructionData
      && r.value.instNumber == st.instNumber
      && r.value.instPlaces == st.instPlaces
  {
    var parts := LineWords(line);
    if parts == [] then Success(st)
    else if st.mode != InCode then HeaderLine(st, line, parts, readFloat)
    else CodeLine(st, parts)
  }

  /** The lines from `st` on, stopping at the first failure. */
  function AssembleFrom(st: State, lines: seq<string>, readFloat: FloatReader): (r: Result<State>)
    ensures r.Success? ==>
      st.instructionData <= r.value.instructionData && st.instNumber <= r.value.instNumber
    ensures r.Success? && st.mode == InCode ==> r.value.mode == InCode
    ensures r.Success? && r.value.mode != InCode ==>
      && r.value.instructionData == st.instructionData
      && r.value.instNumber == st.instNumber
      && r.value.instPlaces == st.instPlaces
    decreases |lines|
  {
    if lines == [] then Success(st)
    else
      var next := Step(st, lines[0], readFloat);
      if next.Failure? then Failure(next.error)
      else AssembleFrom(next.value, lines[1..], readFloat)
  }

  /** The whole source through the assembler. */
  function Assemble(lines: seq<string>, readFloat: FloatReader): (r: Result<State>)
    ensures r.Success? && r.value.mode != InCode ==>
      r.value.instructionData == [] && r.value.instNumber == 0 && r.value.instPlaces == map[]
  {
    AssembleFrom(Init, lines, readFloat)
  }

  // ---------------------------------------------------------------------
  // What the pass keeps true

  /** The pass's invariant: the constant counter counts the constants, every
      placeholder marks an instruction already emitted or the next one, and
      the code bytes decode to exactly `instNumber` instructions, none of
      which transfers control forwards. */
  predicate Valid(st: State) {
    && st.constantNum == |st.constants|
    && (forall name :: name in st.instPlaces ==> st.instPlaces[name] <= st.instNumber)
    && Disassemble(st.instructionData).Some?
    && |Disassemble(st.instructionData).value| == st.instNumber
    && BackwardOnly(Disassemble(st.instructionData).value)
  }

  /** A `section` directive outside code mode: without a name it fails, with
      an unknown name it fails, and otherwise it only switches the mode. */
  lemma SectionDirective(st: State, line: string, readFloat: FloatReader)
    requires st.mode != InCode
    requires LineWords(line) != [] && Lower(LineWords(line)[0]) == "section"
    ensures var parts := LineWords(line); var r := Step(st, line, readFloat);
      && (|parts| < 2 ==> r == Failure(BadSectionDeclaration))
      && (|parts| >= 2 ==>
            && (r.Success? <==> Lower(parts[1]) in {"constants", "imports", "exports", "aliases", "code"})
            && (r.Failure? ==> r.error == UnknownSection)
            && (r.Success? ==> r.value == st.(mode := SectionMode(Lower(parts[1])).value)))
  {
  }

  /** Before the first `section` directive every non-blank line fails. */
  lemma SectionRequiredFirst(st: State, line: string, readFloat: FloatReader)
    requires st.mode == Unset
    requires LineWords(line) != [] && Lower(LineWords(line)[0]) != "section"
    ensures Step(st, line, readFloat) == Failure(SectionRequired)
  {
  }

  /** In code mode a `section` line is read as an instruction, and there is
      no instruction of that name. */
  lemma SectionInCode(st: State, line: string, readFloat: FloatReader)
    requires st.mode == InCode
    requires LineWords(line) != [] && Lower(LineWords(line)[0]) == "section"
    ensures Step(st, line, readFloat) == Failure(UnknownInstruction)
  {
    var parts := LineWords(line);
    var w := parts[0];
    assert w[0] != '.' by {
      assert Lower(w)[0] == LowerChar(w[0]) == 's';
    }
    assert ParseMnemonic("section").None?;
    var e := EncodeInstruction(Lower(w), Params(parts), SymbolsOf(st));
    assert e == Failure(UnknownInstruction);
    assert Step(st, line, readFloat) == CodeLine(st, parts);
  }

  /** A constant line, once its index matches the count, appends its
      constant: the counter and the list grow together. */
  lemma ConstantLineAppends(st: State, line: string, parts: seq<string>, readFloat: FloatReader)
    requires st.constantNum == |st.constants|
    ensures var r := ConstantLine(st, line, parts, readFloat); var val := ConstantValue(line);
      r.Success? ==>
        && r.value.constants == st.constants + [ClassifyLiteral(val, readFloat).value]
        && r.value.constantNum == st.constantNum + 1
        && r.value.mode == st.mode
        && r.value.instructionData == st.instructionData
  {
    var r := ConstantLine(st, line, parts, readFloat);
    if r.Success? {
      var c := ClassifyLiteral(ConstantValue(line), readFloat).value;
      assert Insert(st.constants, st.constantNum, c) == st.constants + [c];
    }
  }

  lemma StepConstantLine(st: State, line: string, readFloat: FloatReader)
    requires st.mode == InConstants
    requires LineWords(line) != [] && Lower(LineWords(line)[0]) != "section"
    ensures Step(st, line, readFloat) == ConstantLine(st, line, LineWords(line), readFloat)
  {
    var parts := LineWords(line);
    assert Step(st, line, readFloat) == HeaderLine(st, line, parts, readFloat);
  }

  /** Outside code mode a non-blank line is read as a header line. */
  lemma StepHeader(st: State, line: string, readFloat: FloatReader)
    requires st.mode != InCode && LineWords(line) != []
    ensures Step(st, line, readFloat) == HeaderLine(st, line, LineWords(line), readFloat)
  {
  }

  /** A header line outside the constants section that is not a directive:
      an imports or exports entry, or an alias definition. */
  lemma TableLine(st: State, line: string, parts: seq<string>, readFloat: FloatReader)
    requires st.mode == InImports || st.mode == InExports || st.mode == InAliases
    requires parts != [] && Lower(parts[0]) != "section"
    ensures var r := HeaderLine(st, line, parts, readFloat);
      && (st.mode == InImports ==> r == Success(st.(imports := st.imports + [parts[0]])))
      && (st.mode == InExports ==> r == Success(st.(exports := st.exports + [parts[0]])))
      && (st.mode == InAliases && !ArrowShape(parts) ==> r == Failure(BadAlias))
      && (st.mode == InAliases && ArrowShape(parts) ==>
            r == Success(st.(aliases := st.aliases[parts[0] := parts[2]])))
  {
  }

  /** In the imports and exports sections a line adds its first word to the
      end of the table and changes nothing else. */
  lemma TableEntryStep(st: State, line: string, readFloat: FloatReader)
    requires st.mode == InImports || st.mode == InExports
    requires LineWords(line) != [] && Lower(LineWords(line)[0]) != "section"
    ensures var parts := LineWords(line); var r := Step(st, line, readFloat);
      && (st.mode == InImports ==> r == Success(st.(imports := st.imports + [parts[0]])))
      && (st.mode == InExports ==> r == Success(st.(exports := st.exports + [parts[0]])))
  {
    StepHeader(st, line, readFloat);
    TableLine(st, line, LineWords(line), readFloat);
  }

  /** In the aliases section a `<name> => <expr> ...` line binds the name (a
      later binding replaces an earlier one) and any other line fails. */
  lemma AliasStep(st: State, line: string, readFloat: FloatReader)
    requires st.mode == InAliases
    requires LineWords(line) != [] && Lower(LineWords(line)[0]) != "section"
    ensures var parts := LineWords(line); var r := Step(st, line, readFloat);
      && (!ArrowShape(parts) ==> r == Failure(BadAlias))
      && (ArrowShape(parts) ==> r == Success(st.(aliases := st.aliases[parts[0] := parts[2]])))
  {
    StepHeader(st, line, readFloat);
    TableLine(st, line, LineWords(line), readFloat);
  }

  /** A line of the constants section is accepted exactly when it has the
      `<index> => <value>` shape, its index is the number of constants so
      far and its value is a literal; the constant is then appended. */
  lemma ConstantStep(st: State, line: string, readFloat: FloatReader)
    requires st.constantNum == |st.constants| && st.mode == InConstants
    requires LineWords(line) != [] && Lower(LineWords(line)[0]) != "section"
    ensures var r := Step(st, line, readFloat); var val := ConstantValue(line);
      && (r.Success? <==>
            && ArrowShape(LineWords(line))
            && ConstantIndex(line) == Some(|st.constants|)
            && ClassifyLiteral(val, readFloat).Success?)
      && (r.Success? ==>
            && r.value.constants == st.constants + [ClassifyLiteral(val, readFloat).value]
            && r.value.constantNum == st.constantNum + 1
            && r.value.mode == st.mode
            && r.value.instructionData == st.instructionData)
  {
    StepConstantLine(st, line, readFloat);
    ConstantLineAppends(st, line, LineWords(line), readFloat);
  }

  /** An instruction line in code mode: the encoding is appended and the
      instruction counter moves on, or the encoding's error is the result. */
  lemma CodeLineInstruction(st: State, parts: seq<string>)
    requires parts != [] && parts[0] != [] && parts[0][0] != '.'
    ensures var e := EncodeInstruction(Lower(parts[0]), Params(parts), SymbolsOf(st));
      && (e.Success? ==>
            CodeLine(st, parts) ==
            Success(st.(instructionData := st.instructionData + e.value, instNumber := st.instNumber + 1)))
      && (e.Failure? ==> CodeLine(st, parts) == Failure(e.error))
  {
  }

  lemma StepInstructionLine(st: State, line: string, readFloat: FloatReader)
    requires st.mode == InCode
    requires LineWords(line) != [] && LineWords(line)[0][0] != '.'
    ensures var parts := LineWords(line);
      var e := EncodeInstruction(Lower(parts[0]), Params(parts), SymbolsOf(st));
      && (e.Success? ==>
            Step(st, line, readFloat) ==
            Success(st.(instructionData := st.instructionData + e.value, instNumber := st.instNumber + 1)))
      && (e.Failure? ==> Step(st, line, readFloat) == Failure(e.error))
  {
    var parts := LineWords(line);
    assert Step(st, line, readFloat) == CodeLine(st, parts);
    CodeLineInstruction(st, parts);
  }

  /** A placeholder line binds its name to the index of the next
      instruction and emits nothing. */
  lemma PlaceholderStep(st: State, line: string, readFloat: FloatReader)
    requires st.mode == InCode
    requires LineWords(line) != [] && LineWords(line)[0][0] == '.'
    ensures var name := LineWords(line)[0][1..]; var r := Step(st, line, readFloat);
      && r.Success?
      && r.value.instPlaces == st.instPlaces[name := st.instNumber]
      && r.value.instructionData == st.instructionData
      && r.value.instNumber == st.instNumber
  {
  }

  /** An instruction line is accepted exactly when it parses as an
      instruction; it then appends that instruction's bytes, so the code
      section decodes to one more instruction, and advances the index. */
  lemma InstructionStep(st: State, line: string, readFloat: FloatReader)
    requires Valid(st) && st.mode == InCode
    requires LineWords(line) != [] && LineWords(line)[0][0] != '.'
    ensures var parts := LineWords(line); var r := Step(st, line, readFloat);
      var i := ParseInstruction(Lower(parts[0]), Params(parts), SymbolsOf(st));
      && (r.Success? <==> i.Success?)
      && (r.Failure? ==> r.error == i.error)
      && (r.Success? ==>
            && r.value.instructionData == st.instructionData + EncodeInstr(i.value)
            && Disassemble(r.value.instructionData) == Some(Disassemble(st.instructionData).value + [i.value])
            && r.value.instNumber == st.instNumber + 1
            && r.value.instPlaces == st.instPlaces
            && TransfersBackward(i.value, st.instNumber))
  {
    var parts := LineWords(line);
    var i := ParseInstruction(Lower(parts[0]), Params(parts), SymbolsOf(st));
    if i.Success? {
      DisassembleAppend(st.instructionData, i.value);
      ParseInstructionBackward(Lower(parts[0]), Params(parts), SymbolsOf(st));
    }
  }

  lemma BackwardOnlyAppend(prog: seq<Instr>, i: Instr)
    requires BackwardOnly(prog) && TransfersBackward(i, |prog|)
    ensures BackwardOnly(prog + [i])
  {
    forall k | 0 <= k < |prog| + 1
      ensures TransfersBackward((prog + [i])[k], k)
    {
      if k < |prog| {
        assert (prog + [i])[k] == prog[k];
      }
    }
  }

  /** Every accepted line keeps the invariant. */
  lemma StepValid(st: State, line: string, readFloat: FloatReader)
    requires Valid(st)
    ensures Step(st, line, readFloat).Success? ==> Valid(Step(st, line, readFloat).value)
  {
    var parts := LineWords(line);
    if parts != [] && st.mode == InCode {
      CodeStepValid(st, line, parts, readFloat);
    } else if parts != [] {
      HeaderStepValid(st, line, parts, readFloat);
    }
  }

  lemma CodeStepValid(st: State, line: string, parts: seq<string>, readFloat: FloatReader)
    requires Valid(st) && st.mode == InCode && parts == LineWords(line) && parts != []
    ensures Step(st, line, readFloat).Success? ==> Valid(Step(st, line, readFloat).value)
  {
    if parts[0][0] == '.' {
      PlaceholderStep(st, line, readFloat);
    } else {
      InstructionStep(st, line, readFloat);
      var r := Step(st, line, readFloat);
      if r.Success? {
        var i := ParseInstruction(Lower(parts[0]), Params(parts), SymbolsOf(st)).value;
        BackwardOnlyAppend(Disassemble(st.instructionData).value, i);
      }
    }
  }

  lemma HeaderStepValid(st: State, line: string, parts: seq<string>, readFloat: FloatReader)
    requires Valid(st) && st.mode != InCode && parts != []
    ensures var r := HeaderLine(st, line, parts, readFloat);
      r.Success? ==> Valid(r.value) && r.value.instructionData == st.instructionData
  {
    var r := HeaderLine(st, line, parts, readFloat);
    if r.Success? {
      if Lower(parts[0]) != "section" && st.mode == InConstants {
        assert r == ConstantLine(st, line, parts, readFloat);
      }
      assert r.value.constantNum == |r.value.constants|;
      ValidKeepsCode(st, r.value);
    }
  }

  /** A step that leaves the code, its counter and the placeholders alone
      keeps the invariant as long as the constants stay counted. */
  lemma ValidKeepsCode(st: State, st': State)
    requires Valid(st)
    requires st'.constantNum == |st'.constants|
    requires st'.instructionData == st.instructionData
    requires st'.instNumber == st.instNumber && st'.instPlaces == st.instPlaces
    ensures Valid(st')
  {
  }

  /** The invariant holds after any accepted run of lines. */
  lemma {:induction false} AssembleFromValid(st: State, lines: seq<string>, readFloat: FloatReader)
    requires Valid(st)
    ensures AssembleFrom(st, lines, readFloat).Success? ==> Valid(AssembleFrom(st, lines, readFloat).value)
    decreases |lines|
  {
    if lines != [] {
      StepValid(st, lines[0], readFloat);
      var next := Step(st, lines[0], readFloat);
      if next.Success? {
        AssembleFromValid(next.value, lines[1..], readFloat);
      }
    }
  }

  /** A successful assembly ends in a state satisfying the invariant. */
  lemma AssembleValid(lines: seq<string>, readFloat: FloatReader)
    ensures Assemble(lines, readFloat).Success? ==> Valid(Assemble(lines, readFloat).value)
  {
    assert Disassemble([]) == Some([]);
    AssembleFromValid(Init, lines, readFloat);
  }

  /** Assembling two blocks of lines is assembling the first, then the second
      from where the first ended; a failure in the first block wins. */
  lemma {:induction false} AssembleFromAppend(st: State, a: seq<string>, b: seq<string>, readFloat: FloatReader)
    ensures AssembleFrom(st, a + b, readFloat) ==
      (var mid :- AssembleFrom(st, a, readFloat); AssembleFrom(mid, b, readFloat))
    decreases |a|
  {
    if a != [] {
      ConcatTail(a, b);
      var next := Step(st, a[0], readFloat);
      if next.Success? {
        assert AssembleFrom(st, a + b, readFloat) == AssembleFrom(next.value, a[1..] + b, readFloat);
        assert AssembleFrom(st, a, readFloat) == AssembleFrom(next.value, a[1..], readFloat);
        AssembleFromAppend(next.value, a[1..], b, readFloat);
      } else {
        assert AssembleFrom(st, a, readFloat) == Failure(next.error);
      }
    } else {
      EmptyConcat(b);
    }
  }

  /** Where a control-transfer operand of the instruction at index `k`
      lands: a relative jump to an index in `0..k`, an absolute call to an
      index at most `k`. Other operands are unconstrained. */
  predicate TargetBackward(o: Operand, kind: OperandKind, k: nat) {
    && (kind == RelTarget ==> o.Rel? && 0 <= k + o.offset <= k)
    && (kind == AbsTarget ==> o.Abs? && o.n <= k)
  }

  predicate TargetsBackward(args: seq<Operand>, kinds: seq<OperandKind>, k: nat) {
    forall j :: 0 <= j < |args| && j < |kinds| ==> TargetBackward(args[j], kinds[j], k)
  }

  /** Every `jump` and `call` of the instruction at index `k` goes back to an
      instruction at or before `k`. */
  predicate TransfersBackward(i: Instr, k: nat) {
    TargetsBackward(i.args, Operands(i.op), k)
  }

  /** Every instruction of a program transfers control only backwards. */
  predicate BackwardOnly(prog: seq<Instr>) {
    forall k :: 0 <= k < |prog| ==> TransfersBackward(prog[k], k)
  }

  /** Labels known so far mark instructions up to the current one. */
  predicate PlacesBehind(sy: Symbols) {
    forall name :: name in sy.places ==> sy.places[name] <= sy.here
  }

  /** Jumps and calls only go backwards: a label is known only once its line
      has been read, so a label declared further down is not found, and a
      known one lies at or before the current instruction. */
  lemma ParseOperandBackward(kind: OperandKind, token: string, sy: Symbols)
    requires PlacesBehind(sy)
    ensures var o := ParseOperand(kind, token, sy);
      && ((kind == RelTarget || kind == AbsTarget) && token !in sy.places ==> o == Failure(UnknownPlaceholder))
      && (o.Success? ==> TargetBackward(o.value, kind, sy.here))
  {
  }

  lemma {:induction false} ParseOperandsBackward(kinds: seq<OperandKind>, params: seq<string>, sy: Symbols)
    requires |kinds| == |params| && PlacesBehind(sy)
    ensures var r := ParseOperands(kinds, params, sy);
      r.Success? ==> TargetsBackward(r.value, kinds, sy.here)
  {
    var r := ParseOperands(kinds, params, sy);
    if kinds != [] && r.Success? {
      ParseOperandBackward(kinds[0], params[0], sy);
      ParseOperandsBackward(kinds[1..], params[1..], sy);
      var o := ParseOperand(kinds[0], params[0], sy).value;
      var os := ParseOperands(kinds[1..], params[1..], sy).value;
      assert r.value == [o] + os;
      forall j | 0 <= j < |r.value| && j < |kinds|
        ensures TargetBackward(r.value[j], kinds[j], sy.here)
      {
        if j > 0 {
          assert r.value[j] == os[j - 1] && kinds[j] == kinds[1..][j - 1];
        }
      }
    }
  }

  /** An instruction read while every known label lies behind transfers
      control only backwards. */
  lemma ParseInstructionBackward(mnemonic: string, params: seq<string>, sy: Symbols)
    requires PlacesBehind(sy)
    ensures var r := ParseInstruction(mnemonic, params, sy);
      r.Success? ==> TransfersBackward(r.value, sy.here)
  {
    var r := ParseInstruction(mnemonic, params, sy);
    if r.Success? {
      var op := ParseMnemonic(mnemonic).value;
      ParseOperandsBackward(Operands(op), params, sy);
    }
  }
}

=== FILE: dispatch.dfy ===
/** The instruction dispatch as rasm/rasm.py:215-294 writes it, one branch
    per mnemonic, each concatenating the opcode with the bytes of `make_u32`,
    `make_i64`, `make_u64`, `resolve` or `resolveRef` of its operands; and
    the proof that the table-driven translation of `Instructions` computes
    the same bytes and the same failures. */
module Dispatch {
  import opened Wrappers
  import opened Encoding
  import opened Text
  import opened Fields
  import opened Instructions


  /** The bytes the source computes for one operand token. */
  function OperandBytes(k: OperandKind, token: string, sy: Symbols): Result<bytes> {
    match k
    case Imm32 =>
      var n :- Need(ParseInt(token), BadInteger);
      MakeU32(n)
    case Value => Resolve(token, sy.aliases)
    case Reference => ResolveRef(token, sy.aliases)
    case RelTarget =>
      if token !in sy.places then Failure(UnknownPlaceholder)
      else MakeI64(sy.places[token] - sy.here)
    case AbsTarget =>
      if token !in sy.places then Failure(UnknownPlaceholder)
      else MakeU64(sy.places[token])
    case ImportIndex =>
      var n :- Need(IndexOf(sy.imports, token), UnknownImport);
      MakeU64(n)
  }

  function OperandsBytes(kinds: seq<OperandKind>, params: seq<string>, sy: Symbols): Result<bytes>
    requires |kinds| == |params|
  {
    if kinds == [] then Success([])
    else
      var b :- OperandBytes(kinds[0], params[0], sy);
      var bs :- OperandsBytes(kinds[1..], params[1..], sy);
      Success(b + bs)
  }

  /** `require_len` followed by the opcode and the operands' bytes. */
  function Branch(opcode: byte, kinds: seq<OperandKind>, params: seq<string>, sy: Symbols): Result<bytes> {
    if |params| != |kinds| then Failure(ArityMismatch)
    else
      var bs :- OperandsBytes(kinds, params, sy);
      Success([opcode] + bs)
  }

  /** One `elif inst == ...` branch of the source: its opcode byte and the
      conversion it applies to each operand token. */
  datatype Shape = Shape(opcode: byte, kinds: seq<OperandKind>)

  /** The branch of the source's dispatch a lower-cased mnemonic selects,
      with `framealloc` emitting opcode 0x15 (see `FrameAllocAsWritten` for
      the branch as written). */
  function SourceShape(m: string): Option<Shape> {
    if m == "alloc" then Some(Shape(0x01, [Imm32]))
    else if m == "framealloc" then Some(Shape(0x15, [Imm32]))
    else if m == "free" then Some(Shape(0x02, [Imm32]))
    else if m == "framefree" then Some(Shape(0x16, [Imm32]))
    else if m == "jump" then Some(Shape(0x03, [RelTarget]))
    else if m == "call" then Some(Shape(0x04, [AbsTarget]))
    else if m == "extcall" then Some(Shape(0x05, [ImportIndex]))
    else if m == "ret" then Some(Shape(0x19, []))
    else if m == "mov" then Some(Shape(0x06, [Reference, Reference]))
    else if m == "cpy" then Some(Shape(0x07, [Reference, Reference]))
    else if m == "ref" then Some(Shape(0x08, [Reference, Reference]))
    else if m == "stackpush" then Some(Shape(0x09, [Reference]))
    else if m == "stackmov" then Some(Shape(0x17, [Reference]))
    else if m == "stackpop" then Some(Shape(0x0A, []))
    else if m == "add" then Some(Shape(0x0B, [Value, Value, Value]))
    else if m == "sub" then Some(Shape(0x0C, [Value, Value, Value]))
    else if m == "mul" then Some(Shape(0x0D, [Value, Value, Value]))
    else if m == "div" then Some(Shape(0x0E, [Value, Value, Value]))
    else if m == "mod" then Some(Shape(0x18, [Value, Value, Value]))
    else if m == "equal" then Some(Shape(0x0F, [Value, Value]))
    else if m == "notequal" then Some(Shape(0x10, [Value, Value]))
    else if m == "greater" then Some(Shape(0x11, [Value, Value]))
    else if m == "less" then Some(Shape(0x12, [Value, Value]))
    else if m == "greaterequal" then Some(Shape(0x13, [Value, Value]))
    else if m == "lessequal" then Some(Shape(0x14, [Value, Value]))
    else None
  }

  /** The source's dispatch: an unknown mnemonic fails, a known one runs
      its branch. */
  function SourceEncoding(m: string, params: seq<string>, sy: Symbols): (r: Result<bytes>)
    ensures SourceShape(m).None? ==> r == Failure(UnknownInstruction)
    ensures SourceShape(m).Some? && |params| != |SourceShape(m).value.kinds| ==> r == Failure(ArityMismatch)
    ensures r.Success? ==> SourceShape(m).Some? && |r.value| >= 1 && r.value[0] == SourceShape(m).value.opcode
  {
    var shape :- Need(SourceShape(m), UnknownInstruction);
    Branch(shape.opcode, shape.kinds, params, sy)
  }

  /** The branch as written stores the opcode as the two-character text
      `'b\x15'`; once the operand has converted, joining that text with
      the operand's bytes raises TypeError, so no `framealloc` line ever
      assembles. */
  function FrameAllocAsWritten(params: seq<string>): (r: Result<bytes>)
    ensures r.Failure?
    ensures |params| == 1 && ParseInt(params[0]).Some? && IsU32(ParseInt(params[0]).value)
            ==> r == Failure(TypeMismatch)
  {
    if |params| != 1 then Failure(ArityMismatch)
    else
      var n :- Need(ParseInt(params[0]), BadInteger);
      if !IsU32(n) then Failure(Overflow) else Failure(TypeMismatch)
  }

  function SourceEncodingAsWritten(m: string, params: seq<string>, sy: Symbols): Result<bytes> {
    if m == "framealloc" then FrameAllocAsWritten(params) else SourceEncoding(m, params, sy)
  }

  /** Reading an operand and encoding it gives the bytes the source
      computes for the token, and fails exactly when and how the source does. */
  predicate Agrees(k: OperandKind, token: string, sy: Symbols) {
    var p, b := ParseOperand(k, token, sy), OperandBytes(k, token, sy);
    && (p.Success? <==> b.Success?)
    && (p.Failure? ==> p.error == b.error)
    && (p.Success? ==> EncodeOperand(p.value, k) == b.value)
  }

  lemma OperandAgrees(k: OperandKind, token: string, sy: Symbols)
    ensures ParseOperand(k, token, sy).Success? <==> OperandBytes(k, token, sy).Success?
    ensures ParseOperand(k, token, sy).Failure? ==>
      ParseOperand(k, token, sy).error == OperandBytes(k, token, sy).error
    ensures ParseOperand(k, token, sy).Success? ==>
      EncodeOperand(ParseOperand(k, token, sy).value, k) == OperandBytes(k, token, sy).value
  {
    match k
    case Imm32 => ImmAgrees(token, sy);
    case Value => ValueAgrees(token, sy);
    case Reference => ReferenceAgrees(token, sy);
    case RelTarget => RelAgrees(token, sy);
    case AbsTarget => AbsAgrees(token, sy);
    case ImportIndex => ImportAgrees(token, sy);
  }

  lemma ImmAgrees(token: string, sy: Symbols)
    ensures Agrees(Imm32, token, sy)
  {
    Pow256Widths();
  }

  lemma ValueAgrees(token: string, sy: Symbols)
    ensures Agrees(Value, token, sy)
  {
  }

  lemma ReferenceAgrees(token: string, sy: Symbols)
    ensures Agrees(Reference, token, sy)
  {
  }

  lemma RelAgrees(token: string, sy: Symbols)
    ensures Agrees(RelTarget, token, sy)
  {
  }

  lemma AbsAgrees(token: string, sy: Symbols)
    ensures Agrees(AbsTarget, token, sy)
  {
    Pow256Widths();
  }

  lemma ImportAgrees(token: string, sy: Symbols)
    ensures Agrees(ImportIndex, token, sy)
  {
    Pow256Widths();
  }

  lemma {:induction false} OperandsAgree(kinds: seq<OperandKind>, params: seq<string>, sy: Symbols)
    requires |kinds| == |params|
    ensures ParseOperands(kinds, params, sy).Success? <==> OperandsBytes(kinds, params, sy).Success?
    ensures ParseOperands(kinds, params, sy).Failure? ==>
      ParseOperands(kinds, params, sy).error == OperandsBytes(kinds, params, sy).error
    ensures ParseOperands(kinds, params, sy).Success? ==>
      EncodeOperands(ParseOperands(kinds, params, sy).value, kinds) == OperandsBytes(kinds, params, sy).value
  {
    if kinds != [] {
      OperandAgrees(kinds[0], params[0], sy);
      OperandsAgree(kinds[1..], params[1..], sy);
      var r := ParseOperands(kinds, params, sy);
      if r.Success? {
        EncodeOperandsCons(r.value, kinds, []);
      }
    }
  }

  /** The table-driven translation of a known mnemonic is the opcode
      followed by the operand bytes, after the operand count is checked. */
  lemma EncodeInstructionBranch(m: string, params: seq<string>, sy: Symbols)
    requires ParseMnemonic(m).Some?
    ensures var op := ParseMnemonic(m).value;
      EncodeInstruction(m, params, sy) == Branch(Opcode(op), Operands(op), params, sy)
  {
    var op := ParseMnemonic(m).value;
    if |params| == |Operands(op)| {
      OperandsAgree(Operands(op), params, sy);
    }
  }

  /** The source's dispatch selects, for every mnemonic, the opcode and
      operand layout of the instruction table, and no branch for any other
      word. */
  lemma SourceShapeIsTable(op: Op)
    ensures SourceShape(Mnemonic(op)) == Some(Shape(Opcode(op), Operands(op)))
  {
    if op == Alloc || op == FrameAlloc || op == Free || op == FrameFree
        || op == Jump || op == Call || op == ExtCall || op == Ret {
      ControlShapes(op);
    } else if op == Mov || op == Cpy || op == Ref {
      MoveShapes(op);
    } else if op == StackPush || op == StackMov || op == StackPop {
      StackShapes(op);
    } else if op == Add || op == Sub || op == Mul {
      ArithmeticShapes(op);
    } else if op == Div || op == Mod {
      DivisionShapes(op);
    } else if op == Equal || op == NotEqual || op == Greater {
      EqualityShapes(op);
    } else if op == Less || op == GreaterEqual {
      OrderShapes(op);
    } else {
      LessEqualShape();
    }
  }

  lemma ControlShapes(op: Op)
    requires op == Alloc || op == FrameAlloc || op == Free || op == FrameFree
          || op == Jump || op == Call || op == ExtCall || op == Ret
    ensures SourceShape(Mnemonic(op)) == Some(Shape(Opcode(op), Operands(op)))
  {
  }

  lemma MoveShapes(op: Op)
    requires op == Mov || op == Cpy || op == Ref
    ensures SourceShape(Mnemonic(op)) == Some(Shape(Opcode(op), Operands(op)))
  {
  }

  lemma StackShapes(op: Op)
    requires op == StackPush || op == StackMov || op == StackPop
    ensures SourceShape(Mnemonic(op)) == Some(Shape(Opcode(op), Operands(op)))
  {
  }

  lemma ArithmeticShapes(op: Op)
    requires op == Add || op == Sub || op == Mul
    ensures SourceShape(Mnemonic(op)) == Some(Shape(Opcode(op), Operands(op)))
  {
  }

  lemma DivisionShapes(op: Op)
    requires op == Div || op == Mod
    ensures SourceShape(Mnemonic(op)) == Some(Shape(Opcode(op), Operands(op)))
  {
  }

  lemma EqualityShapes(op: Op)
    requires op == Equal || op == NotEqual || op == Greater
    ensures SourceShape(Mnemonic(op)) == Some(Shape(Opcode(op), Operands(op)))
  {
  }

  lemma OrderShapes(op: Op)
    requires op == Less || op == GreaterEqual
    ensures SourceShape(Mnemonic(op)) == Some(Shape(Opcode(op), Operands(op)))
  {
  }

  lemma LessEqualShape()
    ensures SourceShape(Mnemonic(LessEqual)) == Some(Shape(Opcode(LessEqual), Operands(LessEqual)))
  {
  }

  lemma SourceShapeUnknown(m: string)
    requires ParseMnemonic(m).None?
    ensures SourceShape(m).None?
  {
  }

  /** The table-driven translation agrees with the source's dispatch on
      every mnemonic and every operand list, errors included. */
  lemma EncodeInstructionIsSourceEncoding(m: string, params: seq<string>, sy: Symbols)
    ensures EncodeInstruction(m, params, sy) == SourceEncoding(m, params, sy)
  {
    MnemonicTable(m);
    match ParseMnemonic(m)
    case None =>
      SourceShapeUnknown(m);
    case Some(op) =>
      EncodeInstructionBranch(m, params, sy);
      SourceShapeIsTable(op);
  }

  /** The `framealloc` branch as written rejects every well-formed line
      that the intended encoding accepts. */
  lemma FrameAllocFinding(n: nat, sy: Symbols)
    requires IsU32(n)
    ensures SourceEncodingAsWritten("framealloc", [NatToString(n)], sy) == Failure(TypeMismatch)
    ensures EncodeInstruction("framealloc", [NatToString(n)], sy) == Success([0x15] + BigEndian(n, 4))
  {
    Pow256Widths();
    EncodeInstructionIsSourceEncoding("framealloc", [NatToString(n)], sy);
    assert ParseInt(NatToString(n)) == Some(n) by {
      WideIntFits(n);
      ParseIntToString(n);
      assert IntToString(n) == NatToString(n);
    }
    var t := NatToString(n);
    assert OperandBytes(Imm32, t, sy) == Success(BigEndian(n, 4));
    assert OperandsBytes([Imm32], [t], sy) == Success(BigEndian(n, 4)) by {
      assert [Imm32][1..] == [] && [t][1..] == [];
      assert BigEndian(n, 4) + [] == BigEndian(n, 4);
    }
  }

  lemma OperandsBytesOne(k: OperandKind, t: string, sy: Symbols)
    ensures OperandsBytes([k], [t], sy) == OperandBytes(k, t, sy)
  {
    assert [k][1..] == [] && [t][1..] == [];
    assert OperandsBytes([], [], sy) == Success([]);
    var r := OperandBytes(k, t, sy);
    if r.Success? {
      assert r.value + [] == r.value;
    }
  }

  lemma OperandsBytesCons(k: OperandKind, ks: seq<OperandKind>, t: string, ts: seq<string>, sy: Symbols)
    requires |ks| == |ts|
    ensures OperandsBytes([k] + ks, [t] + ts, sy) ==
      var x :- OperandBytes(k, t, sy); var y :- OperandsBytes(ks, ts, sy); Success(x + y)
  {
    assert ([k] + ks)[1..] == ks && ([t] + ts)[1..] == ts;
  }

  lemma OperandsBytesTwo(k: OperandKind, a: string, b: string, sy: Symbols)
    ensures OperandsBytes([k, k], [a, b], sy) ==
      var x :- OperandBytes(k, a, sy); var y :- OperandBytes(k, b, sy); Success(x + y)
  {
    assert [k, k] == [k] + [k] && [a, b] == [a] + [b];
    OperandsBytesCons(k, [k], a, [b], sy);
    OperandsBytesOne(k, b, sy);
  }

  lemma OperandsBytesThree(k: OperandKind, a: string, b: string, c: string, sy: Symbols)
    ensures OperandsBytes([k, k, k], [a, b, c], sy) ==
      var x :- OperandBytes(k, a, sy); var y :- OperandBytes(k, b, sy); var z :- OperandBytes(k, c, sy);
      Success(x + y + z)
  {
    assert [k, k, k] == [k] + [k, k] && [a, b, c] == [a] + [b, c];
    OperandsBytesCons(k, [k, k], a, [b, c], sy);
    OperandsBytesTwo(k, b, c, sy);
    ChainThree(OperandBytes(k, a, sy), OperandBytes(k, b, sy), OperandBytes(k, c, sy),
               OperandsBytes([k, k], [b, c], sy), OperandsBytes([k, k, k], [a, b, c], sy));
  }

  /** Converting the first operand, then the other two, is converting the
      three in turn. */
  lemma ChainThree(x: Result<bytes>, y: Result<bytes>, z: Result<bytes>, yz: Result<bytes>, r: Result<bytes>)
    requires yz == (var v :- y; var w :- z; Success(v + w))
    requires r == (var u :- x; var t :- yz; Success(u + t))
    ensures r == (var u :- x; var v :- y; var w :- z; Success(u + v + w))
  {
    if x.Success? && y.Success? && z.Success? {
      assert x.value + (y.value + z.value) == x.value + y.value + z.value;
    }
  }

  /** The table's branch for a known mnemonic. */
  lemma KnownMnemonic(m: string, op: Op, params: seq<string>, sy: Symbols)
    requires Mnemonic(op) == m
    ensures EncodeInstruction(m, params, sy) == Branch(Opcode(op), Operands(op), params, sy)
  {
    MnemonicParses(op);
    EncodeInstructionBranch(m, params, sy);
  }

  /** `ret` and `stackpop` are their opcode alone; any operand is an arity error. */
  lemma NoOperandInstructions(params: seq<string>, sy: Symbols)
    ensures EncodeInstruction("ret", params, sy) ==
      if params == [] then Success([0x19]) else Failure(ArityMismatch)
    ensures EncodeInstruction("stackpop", params, sy) ==
      if params == [] then Success([0x0A]) else Failure(ArityMismatch)
  {
    KnownMnemonic("ret", Ret, params, sy);
    KnownMnemonic("stackpop", StackPop, params, sy);
    assert [0x19 as byte] + [] == [0x19] && [0x0A as byte] + [] == [0x0A];
  }

  /** `alloc n`, `free n` and `framefree n` are the opcode and `make_u32(int(n))`. */
  lemma ImmediateInstructions(t: string, sy: Symbols)
    ensures EncodeInstruction("alloc", [t], sy) ==
      (var n :- Need(ParseInt(t), BadInteger); var u :- MakeU32(n); Success([0x01] + u))
    ensures EncodeInstruction("free", [t], sy) ==
      (var n :- Need(ParseInt(t), BadInteger); var u :- MakeU32(n); Success([0x02] + u))
    ensures EncodeInstruction("framefree", [t], sy) ==
      (var n :- Need(ParseInt(t), BadInteger); var u :- MakeU32(n); Success([0x16] + u))
  {
    KnownMnemonic("alloc", Alloc, [t], sy);
    KnownMnemonic("free", Free, [t], sy);
    KnownMnemonic("framefree", FrameFree, [t], sy);
    OperandsBytesOne(Imm32, t, sy);
  }

  /** `framealloc n` is opcode 15 and `make_u32(int(n))`, as its neighbours
      are; compare `FrameAllocAsWritten`. */
  lemma FrameAllocEncoding(t: string, sy: Symbols)
    ensures EncodeInstruction("framealloc", [t], sy) ==
      (var n :- Need(ParseInt(t), BadInteger); var u :- MakeU32(n); Success([0x15] + u))
  {
    KnownMnemonic("framealloc", FrameAlloc, [t], sy);
    OperandsBytesOne(Imm32, t, sy);
  }

  /** `alloc n` for an in-range decimal `n` is `01` followed by `n` as four
      big-endian bytes. */
  lemma AllocEncoding(n: nat, sy: Symbols)
    requires IsU32(n)
    ensures EncodeInstruction("alloc", [NatToString(n)], sy) == Success([0x01] + BigEndian(n, 4))
  {
    Pow256Widths();
    WideIntFits(n);
    ParseIntToString(n);
    assert IntToString(n) == NatToString(n);
    ImmediateInstructions(NatToString(n), sy);
  }

  /** `jump` is relative to the current instruction and needs a placeholder
      already bound. */
  lemma JumpEncoding(t: string, sy: Symbols)
    ensures t !in sy.places ==> EncodeInstruction("jump", [t], sy) == Failure(UnknownPlaceholder)
    ensures t in sy.places ==>
      EncodeInstruction("jump", [t], sy) == (var d :- MakeI64(sy.places[t] - sy.here); Success([0x03] + d))
  {
    KnownMnemonic("jump", Jump, [t], sy);
    OneOperandBranch(Opcode(Jump), RelTarget, t, sy);
    if t in sy.places {
      JumpBound(t, sy, EncodeInstruction("jump", [t], sy));
    } else {
      assert OperandBytes(RelTarget, t, sy) == Failure(UnknownPlaceholder);
    }
  }

  lemma JumpBound(t: string, sy: Symbols, r: Result<bytes>)
    requires t in sy.places
    requires r == (var u :- OperandBytes(RelTarget, t, sy); Success([0x03] + u))
    ensures r == (var d :- MakeI64(sy.places[t] - sy.here); Success([0x03] + d))
  {
    var y := MakeI64(sy.places[t] - sy.here);
    assert OperandBytes(RelTarget, t, sy) == y;
    PlaceholderBranch(0x03, true, y, r);
  }

  /** A branch whose operand needs a bound placeholder. */
  lemma PlaceholderBranch(opcode: byte, bound: bool, x: Result<bytes>, r: Result<bytes>)
    requires !bound ==> x == Failure(UnknownPlaceholder)
    requires r == (var u :- x; Success([opcode] + u))
    ensures !bound ==> r == Failure(UnknownPlaceholder)
    ensures bound ==> r == (var d :- x; Success([opcode] + d))
  {
  }

  /** `call` is absolute and also needs a placeholder already bound. */
  lemma CallEncoding(t: string, sy: Symbols)
    ensures EncodeInstruction("call", [t], sy) ==
      if t !in sy.places then Failure(UnknownPlaceholder)
      else var a :- MakeU64(sy.places[t]); Success([0x04] + a)
  {
    KnownMnemonic("call", Call, [t], sy);
    OneOperandBranch(Opcode(Call), AbsTarget, t, sy);
  }

  /** `extcall` uses the first position of the name in the imports table. */
  lemma ExtCallEncoding(t: string, sy: Symbols)
    ensures t !in sy.imports ==> EncodeInstruction("extcall", [t], sy) == Failure(UnknownImport)
    ensures forall k :: 0 <= k < |sy.imports| && sy.imports[k] == t && t !in sy.imports[..k] ==>
      EncodeInstruction("extcall", [t], sy) == (var a :- MakeU64(k); Success([0x05] + a))
  {
    ExtCallBranch(t, sy);
    forall k | 0 <= k < |sy.imports| && sy.imports[k] == t && t !in sy.imports[..k]
      ensures EncodeInstruction("extcall", [t], sy) == (var a :- MakeU64(k); Success([0x05] + a))
    {
      assert IndexOf(sy.imports, t) == Some(k);
    }
  }

  lemma ExtCallBranch(t: string, sy: Symbols)
    ensures EncodeInstruction("extcall", [t], sy) ==
      (var n :- Need(IndexOf(sy.imports, t), UnknownImport); var a :- MakeU64(n); Success([0x05] + a))
  {
    assert Opcode(ExtCall) == 0x05 && Operands(ExtCall) == [ImportIndex];
    KnownMnemonic("extcall", ExtCall, [t], sy);
    OneOperandBranch(0x05, ImportIndex, t, sy);
  }

  lemma OneOperandBranch(opcode: byte, k: OperandKind, a: string, sy: Symbols)
    ensures Branch(opcode, [k], [a], sy) ==
      (var x :- OperandBytes(k, a, sy); Success([opcode] + x))
  {
    OperandsBytesOne(k, a, sy);
  }

  lemma TwoOperandBranch(opcode: byte, k: OperandKind, a: string, b: string, sy: Symbols)
    ensures Branch(opcode, [k, k], [a, b], sy) ==
      (var x :- OperandBytes(k, a, sy); var y :- OperandBytes(k, b, sy); Success([opcode] + x + y))
  {
    OperandsBytesTwo(k, a, b, sy);
    var bs := OperandsBytes([k, k], [a, b], sy);
    assert Branch(opcode, [k, k], [a, b], sy) ==
      if bs.Failure? then Failure(bs.error) else Success([opcode] + bs.value);
    BranchTwo(opcode, OperandBytes(k, a, sy), OperandBytes(k, b, sy), bs, Branch(opcode, [k, k], [a, b], sy));
  }

  /** Two conversions chained left to right, behind an opcode. */
  lemma BranchTwo(opcode: byte, x: Result<bytes>, y: Result<bytes>, bs: Result<bytes>, r: Result<bytes>)
    requires bs == (var u :- x; var v :- y; Success(u + v))
    requires r == if bs.Failure? then Failure(bs.error) else Success([opcode] + bs.value)
    ensures r == (var u :- x; var v :- y; Success([opcode] + u + v))
  {
    if x.Success? && y.Success? {
      assert [opcode] + (x.value + y.value) == [opcode] + x.value + y.value;
    }
  }

  /** A `stackpush`/`stackmov` branch is the opcode and `resolveRef` of its
      operand; a `mov`/`cpy`/`ref` branch is the opcode and `resolveRef` of
      both operands, the first failure winning. */
  lemma ReferenceBranches(opcode: byte, a: string, b: string, sy: Symbols)
    ensures Branch(opcode, [Reference], [a], sy) ==
      (var x :- ResolveRef(a, sy.aliases); Success([opcode] + x))
    ensures Branch(opcode, [Reference, Reference], [a, b], sy) ==
      (var x :- ResolveRef(a, sy.aliases); var y :- ResolveRef(b, sy.aliases); Success([opcode] + x + y))
  {
    OneOperandBranch(opcode, Reference, a, sy);
    TwoOperandBranch(opcode, Reference, a, b, sy);
    assert OperandBytes(Reference, a, sy) == ResolveRef(a, sy.aliases);
    assert OperandBytes(Reference, b, sy) == ResolveRef(b, sy.aliases);
  }

  /** A comparison branch is the opcode and `resolve` of both operands,
      the first failure winning. */
  lemma TwoValueBranch(opcode: byte, a: string, b: string, sy: Symbols)
    ensures Branch(opcode, [Value, Value], [a, b], sy) ==
      (var x :- Resolve(a, sy.aliases); var y :- Resolve(b, sy.aliases); Success([opcode] + x + y))
  {
    TwoOperandBranch(opcode, Value, a, b, sy);
    assert OperandBytes(Value, a, sy) == Resolve(a, sy.aliases);
    assert OperandBytes(Value, b, sy) == Resolve(b, sy.aliases);
  }

  /** An arithmetic branch is the opcode and `resolve` of all three
      operands, the first failure winning. */
  lemma ThreeValueBranch(opcode: byte, a: string, b: string, c: string, sy: Symbols)
    ensures var x, y, z := Resolve(a, sy.aliases), Resolve(b, sy.aliases), Resolve(c, sy.aliases);
      var r := Branch(opcode, [Value, Value, Value], [a, b, c], sy);
      && (x.Failure? ==> r == Failure(x.error))
      && (x.Success? && y.Failure? ==> r == Failure(y.error))
      && (x.Success? && y.Success? && z.Failure? ==> r == Failure(z.error))
      && (x.Success? && y.Success? && z.Success? ==> r == Success([opcode] + x.value + y.value + z.value))
  {
    var x := Resolve(a, sy.aliases);
    var y := Resolve(b, sy.aliases);
    var z := Resolve(c, sy.aliases);
    var bs := OperandsBytes([Value, Value, Value], [a, b, c], sy);
    OperandsBytesThree(Value, a, b, c, sy);
    assert OperandBytes(Value, a, sy) == x;
    assert OperandBytes(Value, b, sy) == y;
    assert OperandBytes(Value, c, sy) == z;
    assert Branch(opcode, [Value, Value, Value], [a, b, c], sy) ==
      if bs.Failure? then Failure(bs.error) else Success([opcode] + bs.value);
    ThreeResults(opcode, x, y, z, bs, Branch(opcode, [Value, Value, Value], [a, b, c], sy));
  }

  /** Three conversions chained left to right, behind an opcode. */
  lemma ThreeResults(opcode: byte, x: Result<bytes>, y: Result<bytes>, z: Result<bytes>, bs: Result<bytes>, r: Result<bytes>)
    requires bs == (var u :- x; var v :- y; var w :- z; Success(u + v + w))
    requires r == if bs.Failure? then Failure(bs.error) else Success([opcode] + bs.value)
    ensures x.Failure? ==> r == Failure(x.error)
    ensures x.Success? && y.Failure? ==> r == Failure(y.error)
    ensures x.Success? && y.Success? && z.Failure? ==> r == Failure(z.error)
    ensures x.Success? && y.Success? && z.Success? ==> r == Success([opcode] + x.value + y.value + z.value)
  {
    if x.Success? && y.Success? && z.Success? {
      assert [opcode] + (x.value + y.value + z.value) == [opcode] + x.value + y.value + z.value;
    }
  }

  /** A known mnemonic with the wrong number of operands fails before any
      operand is looked at; an unknown mnemonic fails. */
  lemma ArityAndUnknown(m: string, params: seq<string>, sy: Symbols)
    ensures ParseMnemonic(m).Some? && |params| != |Operands(ParseMnemonic(m).value)| ==>
      EncodeInstruction(m, params, sy) == Failure(ArityMismatch)
    ensures ParseMnemonic(m).None? ==> EncodeInstruction(m, params, sy) == Failure(UnknownInstruction)
  {
  }
}

=== FILE: encoding.dfy ===
/** Fixed-width big-endian integers, as produced by Python's
    `int.to_bytes(width, byteorder='big', signed=...)`. */
module Encoding {
  import opened Wrappers

  /** An octet. */
  type byte = b: int | 0 <= b < 256
  type bytes = seq<byte>

  const TWO_TO_32: nat := 0x1_0000_0000
  const TWO_TO_63: nat := 0x8000_0000_0000_0000
  const TWO_TO_64: nat := 0x1_0000_0000_0000_0000

  predicate IsU32(n: int) { 0 <= n < TWO_TO_32 }
  predicate IsU64(n: int) { 0 <= n < TWO_TO_64 }
  predicate IsI64(n: int) { -(TWO_TO_63 as int) <= n < TWO_TO_63 }

  /** 256 to the power `w`: the number of values `w` bytes can hold. */
  function Pow256(w: nat): (r: nat)
    ensures r >= 1
  {
    if w == 0 then 1 else 256 * Pow256(w - 1)
  }

  lemma Pow256Widths()
    ensures Pow256(4) == TWO_TO_32
    ensures Pow256(8) == TWO_TO_64
  {
  }

  /** The `w`-byte big-endian representation of `n`. */
  function BigEndian(n: nat, w: nat): (r: bytes)
    requires n < Pow256(w)
    ensures |r| == w
    decreases w
  {
    if w == 0 then []
    else
      assert n / 256 < Pow256(w - 1);
      BigEndian(n / 256, w - 1) + [n % 256]
  }

  /** The unsigned value of a big-endian byte sequence. */
  function FromBigEndian(s: bytes): (n: nat)
    ensures n < Pow256(|s|)
  {
    if s == [] then 0
    else
      var high := FromBigEndian(s[..|s| - 1]);
      assert high * 256 <= (Pow256(|s| - 1) - 1) * 256;
      high * 256 + s[|s| - 1]
  }

  lemma {:induction false} FromBigEndianInverse(n: nat, w: nat)
    requires n < Pow256(w)
    ensures FromBigEndian(BigEndian(n, w)) == n
    decreases w
  {
    if w > 0 {
      var s := BigEndian(n, w);
      assert s[..|s| - 1] == BigEndian(n / 256, w - 1);
      FromBigEndianInverse(n / 256, w - 1);
    }
  }

  lemma {:induction false} BigEndianInverse(s: bytes)
    ensures BigEndian(FromBigEndian(s), |s|) == s
  {
    if s != [] {
      var init := s[..|s| - 1];
      var n := FromBigEndian(s);
      assert n / 256 == FromBigEndian(init);
      assert n % 256 == s[|s| - 1];
      BigEndianInverse(init);
      assert s == init + [s[|s| - 1]];
    }
  }

  /** Python's `make_u32`: four big-endian bytes, or OverflowError. */
  function MakeU32(i: int): (r: Result<bytes>)
    ensures r.Success? <==> IsU32(i)
    ensures r.Failure? ==> r.error == Overflow
    ensures r.Success? ==> |r.value| == 4 && FromBigEndian(r.value) == i
  {
    Pow256Widths();
    if IsU32(i) then
      FromBigEndianInverse(i, 4);
      Success(BigEndian(i, 4))
    else Failure(Overflow)
  }

  /** Python's `make_u64`: eight big-endian bytes, or OverflowError. */
  function MakeU64(i: int): (r: Result<bytes>)
    ensures r.Success? <==> IsU64(i)
    ensures r.Failure? ==> r.error == Overflow
    ensures r.Success? ==> |r.value| == 8 && FromBigEndian(r.value) == i
  {
    Pow256Widths();
    if IsU64(i) then
      FromBigEndianInverse(i, 8);
      Success(BigEndian(i, 8))
    else Failure(Overflow)
  }

  /** The two's-complement reading of eight bytes. */
  function DecodeI64(s: bytes): (i: int)
    requires |s| == 8
    ensures IsI64(i)
  {
    Pow256Widths();
    var u := FromBigEndian(s);
    if u >= TWO_TO_63 then u - TWO_TO_64 else u
  }

  /** Python's `make_i64`: eight bytes of two's complement, or OverflowError. */
  function MakeI64(i: int): (r: Result<bytes>)
    ensures r.Success? <==> IsI64(i)
    ensures r.Failure? ==> r.error == Overflow
    ensures r.Success? ==> |r.value| == 8 && DecodeI64(r.value) == i
  {
    Pow256Widths();
    if IsI64(i) then
      var u := if i < 0 then i + TWO_TO_64 else i;
      FromBigEndianInverse(u, 8);
      Success(BigEndian(u, 8))
    else Failure(Overflow)
  }

  /** Every eight bytes are the `make_i64` encoding of their own reading. */
  lemma DecodeI64Inverse(s: bytes)
    requires |s| == 8
    ensures MakeI64(DecodeI64(s)) == Success(s)
  {
    Pow256Widths();
    BigEndianInverse(s);
  }

  /** Reads a `w`-byte big-endian unsigned value off the front of `b`. */
  function ReadUnsigned(b: bytes, w: nat): (r: Option<(nat, bytes)>)
    ensures r.Some? <==> |b| >= w
    ensures r.Some? ==> r.value.0 < Pow256(w)
    ensures r.Some? ==> b == BigEndian(r.value.0, w) + r.value.1
  {
    if |b| < w then None
    else
      BigEndianInverse(b[..w]);
      assert b == b[..w] + b[w..];
      Some((FromBigEndian(b[..w]), b[w..]))
  }

  lemma ReadUnsignedBigEndian(n: nat, w: nat, rest: bytes)
    requires n < Pow256(w)
    ensures ReadUnsigned(BigEndian(n, w) + rest, w) == Some((n, rest))
  {
    var b := BigEndian(n, w) + rest;
    assert b[..w] == BigEndian(n, w);
    assert b[w..] == rest;
    FromBigEndianInverse(n, w);
  }

  /** What `MakeU32` writes, `ReadUnsigned` reads back. */
  lemma ReadMadeU32(n: nat, e: bytes, rest: bytes)
    requires MakeU32(n) == Success(e)
    ensures ReadUnsigned(e + rest, 4) == Some((n, rest))
  {
    Pow256Widths();
    ReadUnsignedBigEndian(n, 4, rest);
  }

  /** What `MakeU64` writes, `ReadUnsigned` reads back. */
  lemma ReadMadeU64(n: nat, e: bytes, rest: bytes)
    requires MakeU64(n) == Success(e)
    ensures ReadUnsigned(e + rest, 8) == Some((n, rest))
  {
    Pow256Widths();
    ReadUnsignedBigEndian(n, 8, rest);
  }
}

=== FILE: fields.dfy ===
/** Operand fields and their resolution through aliases: `resolve` and
    `resolveRef` of rasm/rasm.py:36-64. */
module Fields {
  import opened Wrappers
  import opened Encoding
  import opened Text

  /** A location an operand names: `accumulator()`, `local(n)`, `global(n)`, `const(n)`. */
  datatype Field = Accumulator | Local(index: nat) | Global(index: nat) | Const(index: nat)

  /** The index of an indexed field fits the u32 it is written as. */
  predicate Encodable(f: Field) {
    f.Accumulator? || IsU32(f.index)
  }

  /** The kind byte that follows the index. */
  function KindTag(f: Field): byte {
    match f
    case Const(_) => 0x01
    case Accumulator => 0x02
    case Global(_) => 0x03
    case Local(_) => 0x04
  }

  /** Five bytes: the u32 index (zero for the accumulator), then the kind tag. */
  function EncodeField(f: Field): (r: bytes)
    requires Encodable(f)
    ensures |r| == 5
    ensures DecodeField(r) == Some(f)
  {
    Pow256Widths();
    var index := if f.Accumulator? then 0 else f.index;
    FromBigEndianInverse(index, 4);
    assert (BigEndian(index, 4) + [KindTag(f)])[..4] == BigEndian(index, 4);
    BigEndian(index, 4) + [KindTag(f)]
  }

  /** Reads back the five bytes of a field. */
  function DecodeField(b: bytes): Option<Field>
    requires |b| == 5
  {
    var index := FromBigEndian(b[..4]);
    if b[4] == 0x01 then Some(Const(index))
    else if b[4] == 0x02 then (if index == 0 then Some(Accumulator) else None)
    else if b[4] == 0x03 then Some(Global(index))
    else if b[4] == 0x04 then Some(Local(index))
    else None
  }

  /** Decoding succeeds exactly on encodings: the two are inverse bijections. */
  lemma DecodeFieldOnlyEncodings(b: bytes)
    requires |b| == 5 && DecodeField(b).Some?
    ensures Encodable(DecodeField(b).value)
    ensures EncodeField(DecodeField(b).value) == b
  {
    Pow256Widths();
    BigEndianInverse(b[..4]);
    assert b == b[..4] + [b[4]];
  }

  /** The flag byte of a referenceable operand: 0x02 when dereferenced with `*`. */
  function RefFlag(indirect: bool): byte {
    if indirect then 0x02 else 0x01
  }

  function EncodeRef(f: Field, indirect: bool): (r: bytes)
    requires Encodable(f)
    ensures |r| == 6
  {
    EncodeField(f) + [RefFlag(indirect)]
  }

  /** A token that names an alias: it has no `(` and is a key of the table. */
  predicate Expands(token: string, aliases: map<string, string>) {
    '(' !in token && token in aliases
  }

  /** A `kind(param)` token, `open` being the position of its first `(`. */
  function KindField(token: string, open: nat): (r: Result<Field>)
    requires open < |token| && token[open] == '('
    ensures r.Success? ==> Encodable(r.value)
    ensures r.Failure? ==> r.error != AliasDepth
  {
    var close := FindChar(token, ')');
    if close < 0 then Failure(BadField)
    else
      var kind := Lower(token[..open]);
      if kind == "accumulator" then Success(Accumulator)
      else
        var p :- Need(ParseInt(Slice(token, open + 1, close)), BadInteger);
        if kind != "local" && kind != "global" && kind != "const" then Failure(UnknownFieldKind)
        else if !IsU32(p) then Failure(Overflow)
        else if kind == "local" then Success(Local(p))
        else if kind == "global" then Success(Global(p))
        else Success(Const(p))
  }

  /** `resolve` with at most `fuel` alias expansions. */
  function FieldWithin(token: string, aliases: map<string, string>, fuel: nat): (r: Result<Field>)
    ensures r.Success? ==> Encodable(r.value)
    decreases fuel
  {
    var open := FindChar(token, '(');
    if open >= 0 then KindField(token, open)
    else if token !in aliases then Failure(UnknownAlias)
    else if fuel == 0 then Failure(AliasDepth)
    else FieldWithin(aliases[token], aliases, fuel - 1)
  }

  /** `resolve`, bounded by the number of aliases (see `AliasDepthIffDiverges`). */
  function FieldOf(token: string, aliases: map<string, string>): (r: Result<Field>)
    ensures r.Success? ==> Encodable(r.value)
    ensures FindChar(token, '(') < 0 && token !in aliases ==> r == Failure(UnknownAlias)
    ensures FindChar(token, '(') >= 0 ==> r == KindField(token, FindChar(token, '('))
  {
    FieldWithin(token, aliases, |aliases|)
  }

  /** Python's `resolve(field)`: the five operand bytes of a value field. */
  function Resolve(token: string, aliases: map<string, string>): (r: Result<bytes>)
    ensures r.Success? <==> FieldOf(token, aliases).Success?
    ensures r.Failure? ==> r.error == FieldOf(token, aliases).error
    ensures r.Success? ==> |r.value| == 5 && DecodeField(r.value) == Some(FieldOf(token, aliases).value)
  {
    var f :- FieldOf(token, aliases);
    Success(EncodeField(f))
  }

  /** The field and indirection flag of a referenceable operand. */
  function RefFieldOf(token: string, aliases: map<string, string>): (r: Result<(Field, bool)>)
    ensures r.Success? ==> Encodable(r.value.0)
    ensures token == [] ==> r == Failure(EmptyField)
    ensures r.Success? ==> r.value.1 == (token[0] == '*')
    ensures token != [] ==>
      var bare := if token[0] == '*' then token[1..] else token;
      (r.Success? <==> FieldOf(bare, aliases).Success?) &&
      (r.Success? ==> r.value.0 == FieldOf(bare, aliases).value) &&
      (r.Failure? ==> r.error == FieldOf(bare, aliases).error)
  {
    if token == [] then Failure(EmptyField)
    else if token[0] == '*' then
      var f :- FieldOf(token[1..], aliases);
      Success((f, true))
    else
      var f :- FieldOf(token, aliases);
      Success((f, false))
  }

  /** Python's `resolveRef(field)`: six bytes, `resolve` plus the flag byte. */
  function ResolveRef(token: string, aliases: map<string, string>): (r: Result<bytes>)
    ensures token == [] ==> r == Failure(EmptyField)
    ensures r.Success? ==> |r.value| == 6
  {
    var (f, indirect) :- RefFieldOf(token, aliases);
    Success(EncodeRef(f, indirect))
  }

  /** `resolveRef(s)` is `resolve(s[1:]) + 02` when `s` starts with `*`, and
      `resolve(s) + 01` otherwise; the failures are those of `resolve`. */
  lemma ResolveRefIsResolvePlusFlag(token: string, aliases: map<string, string>)
    requires token != []
    ensures var inner := if token[0] == '*' then token[1..] else token;
      var flag: byte := if token[0] == '*' then 0x02 else 0x01;
      && (ResolveRef(token, aliases).Success? <==> Resolve(inner, aliases).Success?)
      && (ResolveRef(token, aliases).Failure? ==>
            ResolveRef(token, aliases).error == Resolve(inner, aliases).error)
      && (ResolveRef(token, aliases).Success? ==>
            ResolveRef(token, aliases).value == Resolve(inner, aliases).value + [flag])
  {
  }

  // ---------------------------------------------------------------------------
  // Alias chains.  The source recurses through aliases with no bound; the
  // lemmas below show that the bound |aliases| changes no answer: FieldOf
  // fails with AliasDepth exactly when the source would recurse forever, and
  // otherwise agrees with any larger bound.

  /** The token reached after `n` alias expansions (it stops at a non-alias). */
  ghost function Chain(token: string, aliases: map<string, string>, n: nat): string
    decreases n
  {
    if n == 0 || !Expands(token, aliases) then token else Chain(aliases[token], aliases, n - 1)
  }

  /** The source's recursion never ends: every token of the chain is an alias. */
  ghost predicate Diverges(token: string, aliases: map<string, string>) {
    forall n: nat :: Expands(Chain(token, aliases, n), aliases)
  }

  lemma {:induction false} DepthMeansExpanding(t: string, aliases: map<string, string>, fuel: nat)
    requires FieldWithin(t, aliases, fuel) == Failure(AliasDepth)
    ensures forall k :: 0 <= k <= fuel ==> Expands(Chain(t, aliases, k), aliases)
    decreases fuel
  {
    assert Expands(t, aliases);
    if fuel > 0 {
      DepthMeansExpanding(aliases[t], aliases, fuel - 1);
      forall k | 0 < k <= fuel
        ensures Expands(Chain(t, aliases, k), aliases)
      {
        assert Chain(t, aliases, k) == Chain(aliases[t], aliases, k - 1);
      }
    }
  }

  /** The first `j` tokens of the chain from `t` are all aliases. */
  ghost predicate ExpandsFor(t: string, aliases: map<string, string>, j: nat)
    decreases j
  {
    j == 0 || (Expands(t, aliases) && ExpandsFor(aliases[t], aliases, j - 1))
  }

  lemma {:induction false} ExpandsForAll(t: string, aliases: map<string, string>, j: nat)
    requires forall k :: 0 <= k < j ==> Expands(Chain(t, aliases, k), aliases)
    ensures ExpandsFor(t, aliases, j)
    decreases j
  {
    if j > 0 {
      assert Expands(Chain(t, aliases, 0), aliases);
      ChainTail(t, aliases, j);
      ExpandsForAll(aliases[t], aliases, j - 1);
    }
  }

  lemma {:induction false} SkipExpansions(t: string, aliases: map<string, string>, j: nat, fuel: nat)
    requires j <= fuel && ExpandsFor(t, aliases, j)
    ensures FieldWithin(t, aliases, fuel) == FieldWithin(Chain(t, aliases, j), aliases, fuel - j)
    decreases j
  {
    if j > 0 {
      SkipExpansions(aliases[t], aliases, j - 1, fuel - 1);
      ExpandOnce(t, aliases, fuel);
      ChainStep(t, aliases, j);
    }
  }

  lemma ChainStep(t: string, aliases: map<string, string>, j: nat)
    requires j > 0 && Expands(t, aliases)
    ensures Chain(t, aliases, j) == Chain(aliases[t], aliases, j - 1)
  {
  }

  /** An alias token resolves as its expansion does, with one expansion fewer. */
  lemma ExpandOnce(t: string, aliases: map<string, string>, fuel: nat)
    requires Expands(t, aliases) && fuel > 0
    ensures FieldWithin(t, aliases, fuel) == FieldWithin(aliases[t], aliases, fuel - 1)
  {
    assert FindChar(t, '(') < 0;
  }

  lemma ChainTail(t: string, aliases: map<string, string>, j: nat)
    requires j > 0 && Expands(t, aliases)
    requires forall k :: 0 <= k < j ==> Expands(Chain(t, aliases, k), aliases)
    ensures forall k :: 0 <= k < j - 1 ==> Expands(Chain(aliases[t], aliases, k), aliases)
  {
    forall k | 0 <= k < j - 1
      ensures Expands(Chain(aliases[t], aliases, k), aliases)
    {
      assert Chain(t, aliases, k + 1) == Chain(aliases[t], aliases, k);
    }
  }

  lemma AllExpandingDepth(t: string, aliases: map<string, string>, fuel: nat)
    requires forall k :: 0 <= k <= fuel ==> Expands(Chain(t, aliases, k), aliases)
    ensures FieldWithin(t, aliases, fuel) == Failure(AliasDepth)
  {
    ExpandsForAll(t, aliases, fuel);
    SkipExpansions(t, aliases, fuel, fuel);
    assert Expands(Chain(t, aliases, fuel), aliases);
  }

  lemma {:induction false} ChainShift(t: string, aliases: map<string, string>, i: nat, m: nat)
    ensures Chain(t, aliases, i + m) == Chain(Chain(t, aliases, i), aliases, m)
    decreases i
  {
    if i > 0 && Expands(t, aliases) {
      ChainShift(aliases[t], aliases, i - 1, m);
    } else if i > 0 {
      ChainFixed(t, aliases, m);
    }
  }

  lemma ChainFixed(t: string, aliases: map<string, string>, m: nat)
    requires !Expands(t, aliases)
    ensures Chain(t, aliases, m) == t
  {
  }

  /** A chain that returns to its start after `p` expansions never resolves. */
  lemma {:induction false} CycleNeverResolves(c: string, aliases: map<string, string>, p: nat, fuel: nat)
    requires p >= 1 && Chain(c, aliases, p) == c
    requires forall k :: 0 <= k < p ==> Expands(Chain(c, aliases, k), aliases)
    ensures FieldWithin(c, aliases, fuel) == Failure(AliasDepth)
    decreases fuel
  {
    if fuel < p {
      AllExpandingDepth(c, aliases, fuel);
    } else {
      ExpandsForAll(c, aliases, p);
      SkipExpansions(c, aliases, p, fuel);
      CycleNeverResolves(c, aliases, p, fuel - p);
    }
  }

  lemma {:induction false} DistinctCard<T>(s: seq<T>)
    requires forall i, j :: 0 <= i < j < |s| ==> s[i] != s[j]
    ensures |set x | x in s| == |s|
  {
    if s != [] {
      DistinctCard(s[1..]);
      assert (set x | x in s) == {s[0]} + (set x | x in s[1..]);
      assert s[0] !in (set x | x in s[1..]);
    }
  }

  lemma {:induction false} SubsetCard<T>(a: set<T>, b: set<T>)
    requires a <= b
    ensures |a| <= |b|
    decreases a
  {
    if a != {} {
      var x :| x in a;
      SubsetCard(a - {x}, b - {x});
    }
  }

  /** Among |aliases| + 1 alias names of a chain, two coincide. */
  lemma Pigeonhole(t: string, aliases: map<string, string>)
    requires forall k :: 0 <= k <= |aliases| ==> Expands(Chain(t, aliases, k), aliases)
    ensures exists i, j :: 0 <= i < j <= |aliases| && Chain(t, aliases, i) == Chain(t, aliases, j)
  {
    var n := |aliases|;
    var s := seq(n + 1, k requires 0 <= k <= n => Chain(t, aliases, k));
    if forall i, j :: 0 <= i < j < |s| ==> s[i] != s[j] {
      DistinctCard(s);
      assert forall x :: x in s ==> x in aliases;
      SubsetCard((set x | x in s), aliases.Keys);
      assert false;
    } else {
      var i, j :| 0 <= i < j < |s| && s[i] == s[j];
      assert Chain(t, aliases, i) == Chain(t, aliases, j);
    }
  }

  /** Running out of fuel at |aliases| means running out at every bound. */
  lemma NoFuelLoss(t: string, aliases: map<string, string>, fuel: nat)
    requires FieldOf(t, aliases) == Failure(AliasDepth)
    ensures FieldWithin(t, aliases, fuel) == Failure(AliasDepth)
  {
    var n := |aliases|;
    DepthMeansExpanding(t, aliases, n);
    Pigeonhole(t, aliases);
    var i, j :| 0 <= i < j <= n && Chain(t, aliases, i) == Chain(t, aliases, j);
    var c := Chain(t, aliases, i);
    ChainShift(t, aliases, i, j - i);
    forall k | 0 <= k < j - i
      ensures Expands(Chain(c, aliases, k), aliases)
    {
      ChainShift(t, aliases, i, k);
    }
    if fuel <= i {
      AllExpandingDepth(t, aliases, fuel);
    } else {
      ExpandsForAll(t, aliases, i);
      SkipExpansions(t, aliases, i, fuel);
      CycleNeverResolves(c, aliases, j - i, fuel - i);
    }
  }

  lemma {:induction false} FuelMonotone(t: string, aliases: map<string, string>, fuel: nat, more: nat)
    requires fuel <= more && FieldWithin(t, aliases, fuel) != Failure(AliasDepth)
    ensures FieldWithin(t, aliases, more) == FieldWithin(t, aliases, fuel)
    decreases fuel
  {
    if FindChar(t, '(') < 0 && t in aliases && fuel > 0 {
      FuelMonotone(aliases[t], aliases, fuel - 1, more - 1);
    }
  }

  /** `FieldOf` gives the answer every larger expansion bound gives. */
  lemma FieldOfIsTheLimit(t: string, aliases: map<string, string>, fuel: nat)
    requires fuel >= |aliases|
    ensures FieldWithin(t, aliases, fuel) == FieldOf(t, aliases)
  {
    if FieldOf(t, aliases) == Failure(AliasDepth) {
      NoFuelLoss(t, aliases, fuel);
    } else {
      FuelMonotone(t, aliases, |aliases|, fuel);
    }
  }

  /** The bound is harmless: `FieldOf` reports AliasDepth exactly when the
      unbounded recursion of the source never returns. */
  lemma AliasDepthIffDiverges(t: string, aliases: map<string, string>)
    ensures FieldOf(t, aliases) == Failure(AliasDepth) <==> Diverges(t, aliases)
  {
    if FieldOf(t, aliases) == Failure(AliasDepth) {
      forall n: nat
        ensures Expands(Chain(t, aliases, n), aliases)
      {
        NoFuelLoss(t, aliases, n);
        DepthMeansExpanding(t, aliases, n);
      }
    }
    if Diverges(t, aliases) {
      AllExpandingDepth(t, aliases, |aliases|);
    }
  }

  /** A bare alias name resolves to whatever its definition resolves to
      (rasm/rasm.py:55-56), cycles included. */
  lemma AliasResolvesAsExpansion(t: string, aliases: map<string, string>)
    requires Expands(t, aliases)
    ensures FieldOf(t, aliases) == FieldOf(aliases[t], aliases)
    ensures Resolve(t, aliases) == Resolve(aliases[t], aliases)
  {
    FieldOfIsTheLimit(t, aliases, |aliases| + 1);
  }

  // ---------------------------------------------------------------------------
  // `kind(param)` tokens.

  lemma KindTokenShape(w: string, d: string)
    requires '(' !in w && ')' !in w && ')' !in d
    ensures var tok := w + "(" + d + ")";
      && FindChar(tok, '(') == |w|
      && FindChar(tok, ')') == |w| + 1 + |d|
      && tok[..|w|] == w
      && Slice(tok, |w| + 1, |w| + 1 + |d|) == d
  {
    var tok := w + "(" + d + ")";
    assert tok == w + ['('] + (d + ")");
    FindCharAt(w, '(', d + ")");
    assert tok == (w + "(" + d) + [')'] + [];
    FindCharAt(w + "(" + d, ')', []);
  }

  /** How a `kind(digits)` token parses: the kind word is everything before
      the first `(`, the index everything up to the first `)`. */
  lemma KindTokenParse(w: string, n: nat, aliases: map<string, string>)
    requires '(' !in w && ')' !in w
    ensures var tok := w + "(" + NatToString(n) + ")";
      && FieldOf(tok, aliases) == KindField(tok, |w|)
      && (Lower(w) != "accumulator" ==>
            KindField(tok, |w|) == if IntFits(n) then KindOfIndex(Lower(w), n) else Failure(BadInteger))
  {
    var d := NatToString(n);
    var tok := w + "(" + d + ")";
    assert ')' !in d by {
      assert forall i :: 0 <= i < |d| ==> IsDigit(d[i]);
    }
    KindTokenShape(w, d);
    ParseNatToString(n);
    FieldOfKind(tok, aliases);
    if Lower(w) != "accumulator" {
      if IntFits(n) {
        KindFieldIndex(tok, |w|, |w| + 1 + |d|, n);
      } else {
        KindFieldBadIndex(tok, |w|, |w| + 1 + |d|);
      }
    }
  }

  /** A token with a `(` is a `kind(param)` field, whatever the aliases. */
  lemma FieldOfKind(tok: string, aliases: map<string, string>)
    requires FindChar(tok, '(') >= 0
    ensures FieldOf(tok, aliases) == KindField(tok, FindChar(tok, '('))
  {
  }

  /** A `kind(param)` field whose kind word is not `accumulator` and whose
      parameter `int()` rejects. */
  lemma KindFieldBadIndex(tok: string, open: nat, close: nat)
    requires open < close <= |tok| && tok[open] == '(' && FindChar(tok, ')') == close
    requires Lower(tok[..open]) != "accumulator"
    requires ParseInt(Slice(tok, open + 1, close)).None?
    ensures KindField(tok, open) == Failure(BadInteger)
  {
  }

  /** A `kind(param)` field whose kind word is not `accumulator` and whose
      parameter parses as `p`. */
  lemma KindFieldIndex(tok: string, open: nat, close: nat, p: int)
    requires open < close <= |tok| && tok[open] == '(' && FindChar(tok, ')') == close
    requires Lower(tok[..open]) != "accumulator"
    requires ParseInt(Slice(tok, open + 1, close)) == Some(p)
    ensures KindField(tok, open) == KindOfIndex(Lower(tok[..open]), p)
  {
  }

  /** The outcome for a kind word other than `accumulator` and a valid integer. */
  function KindOfIndex(kind: string, p: int): Result<Field> {
    if kind != "local" && kind != "global" && kind != "const" then Failure(UnknownFieldKind)
    else if !IsU32(p) then Failure(Overflow)
    else if kind == "local" then Success(Local(p))
    else if kind == "global" then Success(Global(p))
    else Success(Const(p))
  }

  /** `local(n)`, `global(n)` and `const(n)`, kind word in any letter case,
      are the u32 `n` followed by the tags 04, 03 and 01. */
  lemma IndexedKindTokens(w: string, n: nat, aliases: map<string, string>)
    requires '(' !in w && ')' !in w && n < Pow256(4)
    ensures Lower(w) == "local" ==>
      Resolve(w + "(" + NatToString(n) + ")", aliases) == Success(BigEndian(n, 4) + [0x04])
    ensures Lower(w) == "global" ==>
      Resolve(w + "(" + NatToString(n) + ")", aliases) == Success(BigEndian(n, 4) + [0x03])
    ensures Lower(w) == "const" ==>
      Resolve(w + "(" + NatToString(n) + ")", aliases) == Success(BigEndian(n, 4) + [0x01])
  {
    KindTokenParse(w, n, aliases);
    Pow256Widths();
    WideIntFits(n);
    var tok := w + "(" + NatToString(n) + ")";
    var kind := Lower(w);
    if kind == "local" || kind == "global" || kind == "const" {
      var f := if kind == "local" then Local(n) else if kind == "global" then Global(n) else Const(n);
      assert KindOfIndex(kind, n) == Success(f);
      ResolveOf(tok, aliases, f);
    }
  }

  /** A token that names field `f` resolves to the encoding of `f`. */
  lemma ResolveOf(tok: string, aliases: map<string, string>, f: Field)
    requires FieldOf(tok, aliases) == Success(f) && !f.Accumulator?
    ensures Resolve(tok, aliases) == Success(BigEndian(f.index, 4) + [KindTag(f)])
  {
    assert Resolve(tok, aliases) == Success(EncodeField(f));
  }

  /** `accumulator(...)` is four zero bytes and tag 02, whatever the parameter. */
  lemma AccumulatorToken(w: string, p: string, aliases: map<string, string>)
    requires '(' !in w && ')' !in w && Lower(w) == "accumulator"
    ensures Resolve(w + "(" + p + ")", aliases) == Success([0, 0, 0, 0, 0x02])
  {
    var tok := w + "(" + p + ")";
    assert tok == w + ['('] + (p + ")");
    FindCharAt(w, '(', p + ")");
    assert tok[..|w|] == w;
    assert ')' in tok by {
      assert tok[|tok| - 1] == ')';
    }
    AccumulatorField(tok, |w|);
    Pow256Widths();
    assert EncodeField(Accumulator) == [0, 0, 0, 0, 0x02];
  }

  lemma AccumulatorField(tok: string, open: nat)
    requires open < |tok| && tok[open] == '(' && ')' in tok
    requires Lower(tok[..open]) == "accumulator"
    ensures KindField(tok, open) == Success(Accumulator)
  {
  }

  /** An unknown kind word fails: on the kind when `int()` reads the index,
      on the index when it has too many digits. */
  lemma UnknownKindToken(w: string, n: nat, aliases: map<string, string>)
    requires '(' !in w && ')' !in w
    requires Lower(w) !in {"accumulator", "local", "global", "const"}
    ensures Resolve(w + "(" + NatToString(n) + ")", aliases) ==
      if IntFits(n) then Failure(UnknownFieldKind) else Failure(BadInteger)
  {
    KindTokenParse(w, n, aliases);
  }

  /** A `(` without `)` fails, and so does a bare word that names no alias. */
  lemma MalformedTokens(t: string, aliases: map<string, string>)
    ensures '(' in t && ')' !in t ==> Resolve(t, aliases) == Failure(BadField)
    ensures '(' !in t && t !in aliases ==> Resolve(t, aliases) == Failure(UnknownAlias)
  {
  }
}

=== FILE: instructions.dfy ===
/** RVM instructions: the mnemonic and opcode table, the operand layout of
    each instruction, the binary encoding with its decoder, and the
    translation of one line of assembler text (rasm/rasm.py:201-296). */
module Instructions {
  import opened Wrappers
  import opened Encoding
  import opened Text
  import opened Fields

  datatype Op =
    | Alloc | FrameAlloc | Free | FrameFree
    | Jump | Call | ExtCall | Ret
    | Mov | Cpy | Ref | StackPush | StackMov | StackPop
    | Add | Sub | Mul | Div | Mod
    | Equal | NotEqual | Greater | Less | GreaterEqual | LessEqual

  /** The first byte of an encoded instruction. */
  function Opcode(op: Op): (r: byte)
    ensures 0x01 <= r <= 0x19
  {
    match op
    case Alloc => 0x01
    case Free => 0x02
    case Jump => 0x03
    case Call => 0x04
    case ExtCall => 0x05
    case Mov => 0x06
    case Cpy => 0x07
    case Ref => 0x08
    case StackPush => 0x09
    case StackPop => 0x0A
    case Add => 0x0B
    case Sub => 0x0C
    case Mul => 0x0D
    case Div => 0x0E
    case Equal => 0x0F
    case NotEqual => 0x10
    case Greater => 0x11
    case Less => 0x12
    case GreaterEqual => 0x13
    case LessEqual => 0x14
    case FrameAlloc => 0x15
    case FrameFree => 0x16
    case StackMov => 0x17
    case Mod => 0x18
    case Ret => 0x19
  }

  /** The instruction an opcode byte announces; bytes 0x01..0x19 are used. */
  function OpOfCode(b: byte): (r: Option<Op>)
    ensures r.Some? <==> 0x01 <= b <= 0x19
  {
    match b
    case 0x01 => Some(Alloc)
    case 0x02 => Some(Free)
    case 0x03 => Some(Jump)
    case 0x04 => Some(Call)
    case 0x05 => Some(ExtCall)
    case 0x06 => Some(Mov)
    case 0x07 => Some(Cpy)
    case 0x08 => Some(Ref)
    case 0x09 => Some(StackPush)
    case 0x0A => Some(StackPop)
    case 0x0B => Some(Add)
    case 0x0C => Some(Sub)
    case 0x0D => Some(Mul)
    case 0x0E => Some(Div)
    case 0x0F => Some(Equal)
    case 0x10 => Some(NotEqual)
    case 0x11 => Some(Greater)
    case 0x12 => Some(Less)
    case 0x13 => Some(GreaterEqual)
    case 0x14 => Some(LessEqual)
    case 0x15 => Some(FrameAlloc)
    case 0x16 => Some(FrameFree)
    case 0x17 => Some(StackMov)
    case 0x18 => Some(Mod)
    case 0x19 => Some(Ret)
    case _ => None
  }

  /** The lower-case mnemonic of an instruction in assembler text. */
  function Mnemonic(op: Op): string {
    match op
    case Alloc => "alloc"
    case FrameAlloc => "framealloc"
    case Free => "free"
    case FrameFree => "framefree"
    case Jump => "jump"
    case Call => "call"
    case ExtCall => "extcall"
    case Ret => "ret"
    case Mov => "mov"
    case Cpy => "cpy"
    case Ref => "ref"
    case StackPush => "stackpush"
    case StackMov => "stackmov"
    case StackPop => "stackpop"
    case Add => "add"
    case Sub => "sub"
    case Mul => "mul"
    case Div => "div"
    case Mod => "mod"
    case Equal => "equal"
    case NotEqual => "notequal"
    case Greater => "greater"
    case Less => "less"
    case GreaterEqual => "greaterequal"
    case LessEqual => "lessequal"
  }

  /** The instruction a (lower-cased) mnemonic names, if any. */
  function ParseMnemonic(s: string): Option<Op> {
    match s
    case "alloc" => Some(Alloc)
    case "framealloc" => Some(FrameAlloc)
    case "free" => Some(Free)
    case "framefree" => Some(FrameFree)
    case "jump" => Some(Jump)
    case "call" => Some(Call)
    case "extcall" => Some(ExtCall)
    case "ret" => Some(Ret)
    case "mov" => Some(Mov)
    case "cpy" => Some(Cpy)
    case "ref" => Some(Ref)
    case "stackpush" => Some(StackPush)
    case "stackmov" => Some(StackMov)
    case "stackpop" => Some(StackPop)
    case "add" => Some(Add)
    case "sub" => Some(Sub)
    case "mul" => Some(Mul)
    case "div" => Some(Div)
    case "mod" => Some(Mod)
    case "equal" => Some(Equal)
    case "notequal" => Some(NotEqual)
    case "greater" => Some(Greater)
    case "less" => Some(Less)
    case "greaterequal" => Some(GreaterEqual)
    case "lessequal" => Some(LessEqual)
    case _ => None
  }

  /** Every instruction's opcode decodes as that instruction. */
  lemma OpcodeDecodes(op: Op)
    ensures OpOfCode(Opcode(op)) == Some(op)
  {
    match op
    case Alloc =>
    case FrameAlloc =>
    case Free =>
    case FrameFree =>
    case Jump =>
    case Call =>
    case ExtCall =>
    case Ret =>
    case Mov =>
    case Cpy =>
    case Ref =>
    case StackPush =>
    case StackMov =>
    case StackPop =>
    case Add =>
    case Sub =>
    case Mul =>
    case Div =>
    case Mod =>
    case Equal =>
    case NotEqual =>
    case Greater =>
    case Less =>
    case GreaterEqual =>
    case LessEqual =>
  }

  /** Opcodes are one-to-one with instructions. */
  lemma OpcodeTable(b: byte)
    ensures OpOfCode(b).Some? ==> Opcode(OpOfCode(b).value) == b
  {
  }

  /** Every instruction's mnemonic reads back as that instruction. */
  lemma MnemonicParses(op: Op)
    ensures ParseMnemonic(Mnemonic(op)) == Some(op)
  {
    match op
    case Alloc =>
    case FrameAlloc =>
    case Free =>
    case FrameFree =>
    case Jump =>
    case Call =>
    case ExtCall =>
    case Ret =>
    case Mov =>
    case Cpy =>
    case Ref =>
    case StackPush =>
    case StackMov =>
    case StackPop =>
    case Add =>
    case Sub =>
    case Mul =>
    case Div =>
    case Mod =>
    case Equal =>
    case NotEqual =>
    case Greater =>
    case Less =>
    case GreaterEqual =>
    case LessEqual =>
  }

  /** Mnemonics are one-to-one with instructions. */
  lemma MnemonicTable(s: string)
    ensures ParseMnemonic(s).Some? ==> Mnemonic(ParseMnemonic(s).value) == s
  {
  }

  /** What one operand slot of an instruction holds. */
  datatype OperandKind =
    | Imm32        // unsigned 32-bit immediate
    | Value        // a field, as `resolve` writes it
    | Reference    // a field plus its `*` flag, as `resolveRef` writes it
    | RelTarget    // signed 64-bit distance to a placeholder
    | AbsTarget    // unsigned 64-bit instruction index of a placeholder
    | ImportIndex  // unsigned 64-bit position in the imports table

  /** The operand layout of each instruction (rasm/rasm.py:215-294). */
  function Operands(op: Op): (r: seq<OperandKind>)
    ensures |r| <= 3
    ensures forall i :: 0 <= i < |r| && r[i] in {Imm32, RelTarget, AbsTarget, ImportIndex} ==> r == [r[i]]
    ensures |r| == 3 ==> r == [Value, Value, Value]
  {
    match op
    case Alloc | FrameAlloc | Free | FrameFree => [Imm32]
    case Jump => [RelTarget]
    case Call => [AbsTarget]
    case ExtCall => [ImportIndex]
    case Ret | StackPop => []
    case Mov | Cpy | Ref => [Reference, Reference]
    case StackPush | StackMov => [Reference]
    case Add | Sub | Mul | Div | Mod => [Value, Value, Value]
    case Equal | NotEqual | Greater | Less | GreaterEqual | LessEqual => [Value, Value]
  }

  function OperandSize(k: OperandKind): nat {
    match k
    case Imm32 => 4
    case Value => 5
    case Reference => 6
    case RelTarget | AbsTarget | ImportIndex => 8
  }

  datatype Operand =
    | Imm(n: nat)
    | Val(f: Field)
    | RefTo(f: Field, indirect: bool)
    | Rel(offset: int)
    | Abs(n: nat)

  /** `o` is a value of kind `k` that fits the kind's width. */
  predicate Fits(o: Operand, k: OperandKind) {
    match k
    case Imm32 => o.Imm? && IsU32(o.n)
    case Value => o.Val? && Encodable(o.f)
    case Reference => o.RefTo? && Encodable(o.f)
    case RelTarget => o.Rel? && IsI64(o.offset)
    case AbsTarget | ImportIndex => o.Abs? && IsU64(o.n)
  }

  /** Each operand fits the kind of its slot. */
  predicate AllFit(args: seq<Operand>, kinds: seq<OperandKind>) {
    && |args| == |kinds|
    && (args != [] ==> Fits(args[0], kinds[0]) && AllFit(args[1..], kinds[1..]))
  }

  datatype Instr = Instr(op: Op, args: seq<Operand>)

  predicate WellFormed(i: Instr) {
    AllFit(i.args, Operands(i.op))
  }

  function EncodeOperand(o: Operand, k: OperandKind): (r: bytes)
    requires Fits(o, k)
    ensures |r| == OperandSize(k)
  {
    Pow256Widths();
    match k
    case Imm32 => BigEndian(o.n, 4)
    case Value => EncodeField(o.f)
    case Reference => EncodeRef(o.f, o.indirect)
    case RelTarget => MakeI64(o.offset).value
    case AbsTarget | ImportIndex => BigEndian(o.n, 8)
  }

  function EncodeOperands(args: seq<Operand>, kinds: seq<OperandKind>): bytes
    requires AllFit(args, kinds)
  {
    if args == [] then [] else EncodeOperand(args[0], kinds[0]) + EncodeOperands(args[1..], kinds[1..])
  }

  /** An instruction's bytes: its opcode, then each operand in order. */
  function EncodeInstr(i: Instr): bytes
    requires WellFormed(i)
  {
    [Opcode(i.op)] + EncodeOperands(i.args, Operands(i.op))
  }

  /** Reads one operand of kind `k` off the front of `b`. */
  function DecodeOperand(k: OperandKind, b: bytes): (r: Option<(Operand, bytes)>)
    ensures r.Some? ==> |r.value.1| < |b|
  {
    match k
    case Imm32 =>
      var (n, rest) :- ReadUnsigned(b, 4);
      Some((Imm(n), rest))
    case Value =>
      if |b| < 5 then None
      else
        var f :- DecodeField(b[..5]);
        Some((Val(f), b[5..]))
    case Reference =>
      if |b| < 6 then None
      else
        var f :- DecodeField(b[..5]);
        if b[5] == 0x01 then Some((RefTo(f, false), b[6..]))
        else if b[5] == 0x02 then Some((RefTo(f, true), b[6..]))
        else None
    case RelTarget =>
      if |b| < 8 then None else Some((Rel(DecodeI64(b[..8])), b[8..]))
    case AbsTarget | ImportIndex =>
      var (n, rest) :- ReadUnsigned(b, 8);
      Some((Abs(n), rest))
  }

  function DecodeOperands(kinds: seq<OperandKind>, b: bytes): (r: Option<(seq<Operand>, bytes)>)
    ensures r.Some? ==> |r.value.1| <= |b|
  {
    if kinds == [] then Some(([], b))
    else
      var (o, rest) :- DecodeOperand(kinds[0], b);
      var (os, rest') :- DecodeOperands(kinds[1..], rest);
      Some(([o] + os, rest'))
  }

  /** Reads one instruction off the front of `b`. */
  function DecodeInstr(b: bytes): (r: Option<(Instr, bytes)>)
    ensures r.Some? ==> |r.value.1| < |b|
  {
    if b == [] then None
    else
      var op :- OpOfCode(b[0]);
      var (args, rest) :- DecodeOperands(Operands(op), b[1..]);
      Some((Instr(op, args), rest))
  }

  lemma DecodeEncodeOperand(o: Operand, k: OperandKind, rest: bytes)
    requires Fits(o, k)
    ensures DecodeOperand(k, EncodeOperand(o, k) + rest) == Some((o, rest))
  {
    Pow256Widths();
    var b := EncodeOperand(o, k) + rest;
    match k
    case Imm32 =>
      ReadUnsignedBigEndian(o.n, 4, rest);
    case Value =>
      assert b[..5] == EncodeField(o.f) && b[5..] == rest;
    case Reference =>
      assert b[..5] == EncodeField(o.f) && b[5] == RefFlag(o.indirect) && b[6..] == rest;
    case RelTarget =>
      assert b[..8] == MakeI64(o.offset).value && b[8..] == rest;
    case AbsTarget =>
      ReadUnsignedBigEndian(o.n, 8, rest);
    case ImportIndex =>
      ReadUnsignedBigEndian(o.n, 8, rest);
  }

  /** The decoder accepts nothing but encodings. */
  lemma DecodeOperandExact(k: OperandKind, b: bytes)
    requires DecodeOperand(k, b).Some?
    ensures Fits(DecodeOperand(k, b).value.0, k)
    ensures b == EncodeOperand(DecodeOperand(k, b).value.0, k) + DecodeOperand(k, b).value.1
  {
    match k
    case Imm32 => DecodeUnsignedExact(k, b);
    case Value => DecodeValueExact(b);
    case Reference => DecodeReferenceExact(b);
    case RelTarget => DecodeRelExact(b);
    case AbsTarget => DecodeUnsignedExact(k, b);
    case ImportIndex => DecodeUnsignedExact(k, b);
  }

  lemma DecodeUnsignedExact(k: OperandKind, b: bytes)
    requires k == Imm32 || k == AbsTarget || k == ImportIndex
    requires DecodeOperand(k, b).Some?
    ensures Fits(DecodeOperand(k, b).value.0, k)
    ensures b == EncodeOperand(DecodeOperand(k, b).value.0, k) + DecodeOperand(k, b).value.1
  {
    Pow256Widths();
  }

  lemma DecodeValueExact(b: bytes)
    requires DecodeOperand(Value, b).Some?
    ensures Fits(DecodeOperand(Value, b).value.0, Value)
    ensures b == EncodeOperand(DecodeOperand(Value, b).value.0, Value) + DecodeOperand(Value, b).value.1
  {
    DecodeFieldOnlyEncodings(b[..5]);
    assert b == b[..5] + b[5..];
  }

  lemma DecodeReferenceExact(b: bytes)
    requires DecodeOperand(Reference, b).Some?
    ensures Fits(DecodeOperand(Reference, b).value.0, Reference)
    ensures b == EncodeOperand(DecodeOperand(Reference, b).value.0, Reference) + DecodeOperand(Reference, b).value.1
  {
    DecodeFieldOnlyEncodings(b[..5]);
    var f := DecodeField(b[..5]).value;
    var (o, rest) := DecodeOperand(Reference, b).value;
    assert o == RefTo(f, b[5] == 0x02) && rest == b[6..];
    assert RefFlag(o.indirect) == b[5];
    assert EncodeOperand(o, Reference) == b[..5] + [b[5]];
    assert b == b[..5] + [b[5]] + b[6..];
  }

  lemma DecodeRelExact(b: bytes)
    requires DecodeOperand(RelTarget, b).Some?
    ensures Fits(DecodeOperand(RelTarget, b).value.0, RelTarget)
    ensures b == EncodeOperand(DecodeOperand(RelTarget, b).value.0, RelTarget) + DecodeOperand(RelTarget, b).value.1
  {
    Pow256Widths();
    DecodeI64Inverse(b[..8]);
    assert b == b[..8] + b[8..];
  }

  // The step lemmas below each unfold one recursive definition once, so that
  // the inductive proofs after them never mix unfoldings with sequence algebra.

  lemma EncodeOperandsCons(args: seq<Operand>, kinds: seq<OperandKind>, rest: bytes)
    requires AllFit(args, kinds) && args != []
    ensures Fits(args[0], kinds[0]) && AllFit(args[1..], kinds[1..])
    ensures EncodeOperands(args, kinds) + rest
         == EncodeOperand(args[0], kinds[0]) + (EncodeOperands(args[1..], kinds[1..]) + rest)
  {
    assert [args[0]] + args[1..] == args;
  }

  lemma DecodeOperandsStep(kinds: seq<OperandKind>, b: bytes, o: Operand, mid: bytes, os: seq<Operand>, rest: bytes)
    requires kinds != []
    requires DecodeOperand(kinds[0], b) == Some((o, mid))
    requires DecodeOperands(kinds[1..], mid) == Some((os, rest))
    ensures DecodeOperands(kinds, b) == Some(([o] + os, rest))
  {
  }

  lemma DecodeOperandsSplit(kinds: seq<OperandKind>, b: bytes)
    requires kinds != [] && DecodeOperands(kinds, b).Some?
    ensures DecodeOperand(kinds[0], b).Some?
    ensures var (o, mid) := DecodeOperand(kinds[0], b).value;
      && DecodeOperands(kinds[1..], mid).Some?
      && DecodeOperands(kinds, b).value.0 == [o] + DecodeOperands(kinds[1..], mid).value.0
      && DecodeOperands(kinds, b).value.1 == DecodeOperands(kinds[1..], mid).value.1
  {
  }

  lemma {:induction false} DecodeEncodeOperands(args: seq<Operand>, kinds: seq<OperandKind>, rest: bytes)
    requires AllFit(args, kinds)
    ensures DecodeOperands(kinds, EncodeOperands(args, kinds) + rest) == Some((args, rest))
  {
    if args == [] {
      assert EncodeOperands(args, kinds) + rest == rest;
    } else {
      EncodeOperandsCons(args, kinds, rest);
      var head := EncodeOperand(args[0], kinds[0]);
      var tail := EncodeOperands(args[1..], kinds[1..]) + rest;
      DecodeEncodeOperand(args[0], kinds[0], tail);
      DecodeEncodeOperands(args[1..], kinds[1..], rest);
      DecodeOperandsStep(kinds, head + tail, args[0], tail, args[1..], rest);
      assert [args[0]] + args[1..] == args;
    }
  }

  lemma {:induction false} DecodeOperandsExact(kinds: seq<OperandKind>, b: bytes)
    requires DecodeOperands(kinds, b).Some?
    ensures AllFit(DecodeOperands(kinds, b).value.0, kinds)
    ensures b == EncodeOperands(DecodeOperands(kinds, b).value.0, kinds) + DecodeOperands(kinds, b).value.1
  {
    if kinds != [] {
      DecodeOperandsSplit(kinds, b);
      var (o, mid) := DecodeOperand(kinds[0], b).value;
      DecodeOperandExact(kinds[0], b);
      DecodeOperandsExact(kinds[1..], mid);
      var (os, rest) := DecodeOperands(kinds[1..], mid).value;
      var args := [o] + os;
      assert args[0] == o && args[1..] == os;
      EncodeOperandsCons(args, kinds, rest);
    }
  }

  lemma DecodeInstrStep(b: bytes, op: Op, args: seq<Operand>, rest: bytes)
    requires b != [] && OpOfCode(b[0]) == Some(op)
    requires DecodeOperands(Operands(op), b[1..]) == Some((args, rest))
    ensures DecodeInstr(b) == Some((Instr(op, args), rest))
  {
  }

  lemma DecodeInstrSplit(b: bytes)
    requires DecodeInstr(b).Some?
    ensures b != [] && OpOfCode(b[0]) == Some(DecodeInstr(b).value.0.op)
    ensures DecodeOperands(Operands(DecodeInstr(b).value.0.op), b[1..])
         == Some((DecodeInstr(b).value.0.args, DecodeInstr(b).value.1))
  {
  }

  /** Decoding an encoded instruction gives it back and leaves what follows. */
  lemma DecodeEncodeInstr(i: Instr, rest: bytes)
    requires WellFormed(i)
    ensures DecodeInstr(EncodeInstr(i) + rest) == Some((i, rest))
  {
    var b := EncodeInstr(i) + rest;
    var ops := EncodeOperands(i.args, Operands(i.op));
    HeadTail(Opcode(i.op), ops, rest);
    DecodeEncodeOperands(i.args, Operands(i.op), rest);
    OpcodeDecodes(i.op);
    DecodeInstrStep(b, i.op, i.args, rest);
  }

  lemma HeadTail(x: byte, a: bytes, c: bytes)
    ensures var b := [x] + a + c; b != [] && b[0] == x && b[1..] == a + c
  {
    assert [x] + a + c == [x] + (a + c);
  }

  lemma Rejoin(b: bytes, a: bytes, c: bytes)
    requires b != [] && b[1..] == a + c
    ensures b == [b[0]] + a + c
  {
    assert b == [b[0]] + b[1..];
  }

  /** Whatever the decoder accepts is a well-formed instruction's encoding. */
  lemma DecodeInstrExact(b: bytes)
    requires DecodeInstr(b).Some?
    ensures WellFormed(DecodeInstr(b).value.0)
    ensures b == EncodeInstr(DecodeInstr(b).value.0) + DecodeInstr(b).value.1
  {
    DecodeInstrSplit(b);
    var (i, rest) := DecodeInstr(b).value;
    DecodeOperandsExact(Operands(i.op), b[1..]);
    OpcodeTable(b[0]);
    Rejoin(b, EncodeOperands(i.args, Operands(i.op)), rest);
  }

  /** The whole code section as a list of instructions, if it parses. */
  function Disassemble(code: bytes): Option<seq<Instr>>
    decreases |code|
  {
    if code == [] then Some([])
    else
      var (i, rest) :- DecodeInstr(code);
      var prog :- Disassemble(rest);
      Some([i] + prog)
  }

  predicate AllWellFormed(prog: seq<Instr>) {
    prog != [] ==> WellFormed(prog[0]) && AllWellFormed(prog[1..])
  }

  /** The code section of a list of instructions. */
  function EncodeProgram(prog: seq<Instr>): bytes
    requires AllWellFormed(prog)
  {
    if prog == [] then [] else EncodeInstr(prog[0]) + EncodeProgram(prog[1..])
  }

  lemma EncodeProgramCons(prog: seq<Instr>)
    requires AllWellFormed(prog) && prog != []
    ensures AllWellFormed(prog[1..])
    ensures EncodeProgram(prog) == EncodeInstr(prog[0]) + EncodeProgram(prog[1..])
  {
  }

  lemma DisassembleStep(code: bytes, i: Instr, rest: bytes, prog: seq<Instr>)
    requires DecodeInstr(code) == Some((i, rest))
    requires Disassemble(rest) == Some(prog)
    ensures Disassemble(code) == Some([i] + prog)
  {
  }

  lemma DisassembleSplit(code: bytes)
    requires code != [] && Disassemble(code).Some?
    ensures DecodeInstr(code).Some?
    ensures Disassemble(DecodeInstr(code).value.1).Some?
    ensures Disassemble(code).value
         == [DecodeInstr(code).value.0] + Disassemble(DecodeInstr(code).value.1).value
  {
  }

  lemma {:induction false} DisassembleEncode(prog: seq<Instr>)
    requires AllWellFormed(prog)
    ensures Disassemble(EncodeProgram(prog)) == Some(prog)
  {
    if prog == [] {
    } else {
      EncodeProgramCons(prog);
      var tail := EncodeProgram(prog[1..]);
      DecodeEncodeInstr(prog[0], tail);
      DisassembleEncode(prog[1..]);
      DisassembleStep(EncodeInstr(prog[0]) + tail, prog[0], tail, prog[1..]);
      assert [prog[0]] + prog[1..] == prog;
    }
  }

  lemma {:induction false} EncodeDisassemble(code: bytes)
    requires Disassemble(code).Some?
    ensures AllWellFormed(Disassemble(code).value)
    ensures EncodeProgram(Disassemble(code).value) == code
    decreases |code|
  {
    if code != [] {
      DisassembleSplit(code);
      var (i, rest) := DecodeInstr(code).value;
      DecodeInstrExact(code);
      EncodeDisassemble(rest);
      var tail := Disassemble(rest).value;
      var prog := [i] + tail;
      assert prog[0] == i && prog[1..] == tail;
      EncodeProgramCons(prog);
    }
  }

  lemma EncodeProgramSingle(i: Instr)
    requires WellFormed(i)
    ensures EncodeProgram([i]) == EncodeInstr(i)
  {
    assert [i][1..] == [];
  }

  lemma {:induction false} AllWellFormedAppend(prog: seq<Instr>, i: Instr)
    requires AllWellFormed(prog) && WellFormed(i)
    ensures AllWellFormed(prog + [i])
  {
    if prog == [] {
      assert prog + [i] == [i] && [i][1..] == [];
    } else {
      assert (prog + [i])[1..] == prog[1..] + [i];
      AllWellFormedAppend(prog[1..], i);
    }
  }

  lemma {:induction false} EncodeProgramAppend(prog: seq<Instr>, i: Instr)
    requires AllWellFormed(prog) && WellFormed(i)
    ensures AllWellFormed(prog + [i])
    ensures EncodeProgram(prog + [i]) == EncodeProgram(prog) + EncodeInstr(i)
  {
    AllWellFormedAppend(prog, i);
    if prog == [] {
      assert prog + [i] == [i];
      EncodeProgramSingle(i);
    } else {
      var p := prog + [i];
      assert p[1..] == prog[1..] + [i];
      assert p[0] == prog[0];
      EncodeProgramAppend(prog[1..], i);
      EncodeProgramCons(p);
      EncodeProgramCons(prog);
      BytesAssoc(EncodeInstr(prog[0]), EncodeProgram(prog[1..]), EncodeInstr(i));
    }
  }

  lemma BytesAssoc(a: bytes, b: bytes, c: bytes)
    ensures a + (b + c) == a + b + c
  {
  }

  /** Appending one encoded instruction to a code section that disassembles
      to `prog` gives a code section that disassembles to `prog + [i]`. */
  lemma DisassembleAppend(code: bytes, i: Instr)
    requires Disassemble(code).Some? && WellFormed(i)
    ensures Disassemble(code + EncodeInstr(i)) == Some(Disassemble(code).value + [i])
  {
    var prog := Disassemble(code).value;
    EncodeDisassemble(code);
    EncodeProgramAppend(prog, i);
    DisassembleEncode(prog + [i]);
  }

  // ---------------------------------------------------------------------
  // From assembler text to instructions

  /** What an operand may refer to while one code line is translated: the
      alias table, the placeholders seen so far with the instruction index
      each marks, the index of the instruction being translated, and the
      imports table. */
  datatype Symbols = Symbols(
    aliases: map<string, string>,
    places: map<string, nat>,
    here: nat,
    imports: seq<string>)

  /** One operand token read as an operand of kind `k`. */
  function ParseOperand(k: OperandKind, token: string, sy: Symbols): (r: Result<Operand>)
    ensures r.Success? ==> Fits(r.value, k)
  {
    match k
    case Imm32 =>
      var n :- Need(ParseInt(token), BadInteger);
      if IsU32(n) then Success(Imm(n)) else Failure(Overflow)
    case Value =>
      var f :- FieldOf(token, sy.aliases);
      Success(Val(f))
    case Reference =>
      var (f, indirect) :- RefFieldOf(token, sy.aliases);
      Success(RefTo(f, indirect))
    case RelTarget =>
      if token !in sy.places then Failure(UnknownPlaceholder)
      else
        var offset := sy.places[token] - sy.here;
        if IsI64(offset) then Success(Rel(offset)) else Failure(Overflow)
    case AbsTarget =>
      if token !in sy.places then Failure(UnknownPlaceholder)
      else if IsU64(sy.places[token]) then Success(Abs(sy.places[token]))
      else Failure(Overflow)
    case ImportIndex =>
      var n :- Need(IndexOf(sy.imports, token), UnknownImport);
      if IsU64(n) then Success(Abs(n)) else Failure(Overflow)
  }

  /** The operand tokens read left to right; the first failure wins. */
  function ParseOperands(kinds: seq<OperandKind>, params: seq<string>, sy: Symbols): (r: Result<seq<Operand>>)
    requires |kinds| == |params|
    ensures r.Success? ==> AllFit(r.value, kinds)
  {
    if kinds == [] then Success([])
    else
      var o :- ParseOperand(kinds[0], params[0], sy);
      var os :- ParseOperands(kinds[1..], params[1..], sy);
      assert ([o] + os)[1..] == os;
      Success([o] + os)
  }

  /** A lower-cased mnemonic with its comma-separated operand tokens, read as
      an instruction: the mnemonic first, then the operand count, then the
      operands in order. */
  function ParseInstruction(mnemonic: string, params: seq<string>, sy: Symbols): (r: Result<Instr>)
    ensures r.Success? ==> WellFormed(r.value) && Mnemonic(r.value.op) == mnemonic
    ensures ParseMnemonic(mnemonic).None? ==> r == Failure(UnknownInstruction)
    ensures ParseMnemonic(mnemonic).Some? && |params| != |Operands(ParseMnemonic(mnemonic).value)|
            ==> r == Failure(ArityMismatch)
  {
    MnemonicTable(mnemonic);
    var op :- Need(ParseMnemonic(mnemonic), UnknownInstruction);
    if |params| != |Operands(op)| then Failure(ArityMismatch)
    else
      var args :- ParseOperands(Operands(op), params, sy);
      Success(Instr(op, args))
  }

  lemma DecodeEncodeInstrAll(i: Instr)
    requires WellFormed(i)
    ensures forall rest :: DecodeInstr(EncodeInstr(i) + rest) == Some((i, rest))
  {
    forall rest {
      DecodeEncodeInstr(i, rest);
    }
  }

  /** The bytes one code line contributes to the code section: they decode
      to exactly the instruction the line denotes, whatever follows them. */
  function EncodeInstruction(mnemonic: string, params: seq<string>, sy: Symbols): (r: Result<bytes>)
    ensures r.Success? <==> ParseInstruction(mnemonic, params, sy).Success?
    ensures r.Failure? ==> r.error == ParseInstruction(mnemonic, params, sy).error
    ensures r.Success? ==> forall rest ::
      DecodeInstr(r.value + rest) == Some((ParseInstruction(mnemonic, params, sy).value, rest))
  {
    var i :- ParseInstruction(mnemonic, params, sy);
    DecodeEncodeInstrAll(i);
    Success(EncodeInstr(i))
  }
}

=== FILE: literals.dfy ===
/** Constant-table literals (rasm/rasm.py:145-176): a quoted string, then
    `true`/`false` in any case, then an integer, then a float. */
module Literals {
  import opened Wrappers
  import opened Encoding
  import opened Text

  /** The eight bytes of an IEEE-754 double, big-endian. */
  type F64 = s: bytes | |s| == 8 witness [0, 0, 0, 0, 0, 0, 0, 0]

  /** Python's `float(text)` followed by `struct.pack('>d', ...)`, which this
      model does not reimplement: `None` where `float()` raises ValueError. */
  type FloatReader = string -> Option<F64>

  datatype Constant =
    | StrConst(text: string)
    | BoolConst(truth: bool)
    | IntConst(number: int)
    | FloatConst(bits: F64)

  /** Starts and ends with the same kind of quote (one quote character counts). */
  predicate IsQuoted(val: string) {
    && |val| > 0
    && ((val[0] == '"' && val[|val| - 1] == '"') || (val[0] == '\'' && val[|val| - 1] == '\''))
  }

  /** Python's `val[1:-1]`. */
  function Unquote(val: string): (r: string)
    requires |val| > 0
    ensures |val| >= 2 ==> val == [val[0]] + r + [val[|val| - 1]]
    ensures |val| < 2 ==> r == []
  {
    if |val| < 2 then [] else val[1..|val| - 1]
  }

  /** Not quoted, not a boolean word, not an integer, not a float. */
  predicate NoCategory(val: string, readFloat: FloatReader) {
    && !IsQuoted(val)
    && Lower(val) != "true" && Lower(val) != "false"
    && ParseInt(val).None?
    && readFloat(val).None?
  }

  /** The typed value of a constant literal; the first matching category wins. */
  function ClassifyLiteral(val: string, readFloat: FloatReader): (r: Result<Constant>)
    ensures r.Success? && r.value.StrConst? <==> IsQuoted(val)
    ensures r.Success? && r.value.StrConst? ==> r.value.text == Unquote(val)
    ensures r.Success? && r.value.BoolConst? <==>
      !IsQuoted(val) && (Lower(val) == "true" || Lower(val) == "false")
    ensures r.Success? && r.value.BoolConst? ==> (r.value.truth <==> Lower(val) == "true")
    ensures r.Success? && r.value.IntConst? ==> ParseInt(val) == Some(r.value.number)
    ensures r.Success? && r.value.FloatConst? ==>
      ParseInt(val).None? && readFloat(val) == Some(r.value.bits)
    ensures r.Failure? <==> (|val| == 0 || NoCategory(val, readFloat))
    ensures r.Failure? ==> (r.error == MissingValue <==> |val| == 0)
  {
    if |val| == 0 then Failure(MissingValue)
    else if IsQuoted(val) then Success(StrConst(Unquote(val)))
    else if Lower(val) == "false" then Success(BoolConst(false))
    else if Lower(val) == "true" then Success(BoolConst(true))
    else if ParseInt(val).Some? then Success(IntConst(ParseInt(val).value))
    else if readFloat(val).Some? then Success(FloatConst(readFloat(val).value))
    else Failure(UnknownLiteralType)
  }

  /** Source text for a string, boolean or integer constant. */
  function Render(c: Constant): string
    requires !c.FloatConst?
  {
    match c
    case StrConst(s) => "\"" + s + "\""
    case BoolConst(b) => if b then "true" else "false"
    case IntConst(i) => IntToString(i)
  }

  /** Classification inverts rendering: quoted contents are kept verbatim
      (even when they look like a number or a boolean), and an integer is
      never handed to the float reader. */
  lemma ClassifyRender(c: Constant, readFloat: FloatReader)
    requires !c.FloatConst?
    ensures ClassifyLiteral(Render(c), readFloat) == Success(c) <==> !c.IntConst? || IntFits(c.number)
  {
    match c
    case StrConst(s) => ClassifyRenderStr(s, readFloat);
    case BoolConst(b) => ClassifyRenderBool(b, readFloat);
    case IntConst(i) => ClassifyRenderInt(i, readFloat);
  }

  lemma ClassifyRenderStr(s: string, readFloat: FloatReader)
    ensures ClassifyLiteral("\"" + s + "\"", readFloat) == Success(StrConst(s))
  {
    var t := "\"" + s + "\"";
    assert IsQuoted(t);
    assert Unquote(t) == s;
  }

  lemma ClassifyRenderBool(b: bool, readFloat: FloatReader)
    ensures ClassifyLiteral(if b then "true" else "false", readFloat) == Success(BoolConst(b))
  {
    var t := if b then "true" else "false";
    assert Lower(t) == t;
    assert !IsQuoted(t);
  }

  /** The decimal text of an integer within `int()`'s digit limit is that
      integer; longer text is left to the float reader. */
  lemma ClassifyRenderInt(i: int, readFloat: FloatReader)
    ensures IntFits(i) ==> ClassifyLiteral(IntToString(i), readFloat) == Success(IntConst(i))
    ensures !IntFits(i) ==>
      ClassifyLiteral(IntToString(i), readFloat) ==
        if readFloat(IntToString(i)).Some? then Success(FloatConst(readFloat(IntToString(i)).value))
        else Failure(UnknownLiteralType)
  {
    var t := IntToString(i);
    assert t != [] && !IsQuoted(t) && Lower(t) != "true" && Lower(t) != "false" by {
      assert t[0] == '-' || IsDigit(t[0]) by {
        if i >= 0 {
          assert t == NatToString(i) && IsDigit(t[0]);
        }
      }
      assert Lower(t)[0] == t[0];
    }
    ClassifyNumeric(t, readFloat);
    ParseIntToString(i);
  }

  /** A value that is neither quoted nor a boolean word is an integer if
      `int()` reads it, else whatever the float reader makes of it. */
  lemma ClassifyNumeric(t: string, readFloat: FloatReader)
    requires t != [] && !IsQuoted(t) && Lower(t) != "true" && Lower(t) != "false"
    ensures ClassifyLiteral(t, readFloat) ==
      if ParseInt(t).Some? then Success(IntConst(ParseInt(t).value))
      else if readFloat(t).Some? then Success(FloatConst(readFloat(t).value))
      else Failure(UnknownLiteralType)
  {
  }

  /** `true` and `false` in any letter case are booleans. */
  lemma BooleanWords(w: string, readFloat: FloatReader)
    requires Lower(w) == "true" || Lower(w) == "false"
    ensures ClassifyLiteral(w, readFloat) == Success(BoolConst(Lower(w) == "true"))
  {
    assert Lower(w)[0] == LowerChar(w[0]);
  }
}

=== FILE: rasm.dfy ===
/** The assembler end to end (rasm/rasm.py:82-347 without the file
    handling): the source lines in, the bytes of the module file out. */
module Rasm {
  import opened Wrappers
  import opened Encoding
  import opened Literals
  import opened Instructions
  import opened Assembler
  import opened Serializer
  import opened Text
  import opened Dispatch

  /** A module file as a loader sees it: the tables, and the code section
      decoded into instructions. */
  datatype Program = Program(
    constants: seq<Constant>,
    imports: seq<string>,
    exports: seq<(string, nat)>,
    code: seq<Instr>)

  /** Reads a module file and disassembles its code section. */
  function LoadModule(b: bytes): Option<Program> {
    var m :- ReadModule(b);
    var code :- Disassemble(m.code);
    Some(Program(m.constants, m.imports, m.exports, code))
  }

  /** The module file for a source, or the first failure: an assembly error
      of some line, or a table entry the file format cannot hold. */
  function AssembleModule(lines: seq<string>, readFloat: FloatReader): (r: Result<bytes>)
    ensures r.Success? <==> Assemble(lines, readFloat).Success? && Serialize(Assemble(lines, readFloat).value).Success?
    ensures Assemble(lines, readFloat).Failure? ==> r == Failure(Assemble(lines, readFloat).error)
    ensures Assemble(lines, readFloat).Success? && Serialize(Assemble(lines, readFloat).value).Failure? ==>
      r == Failure(Serialize(Assemble(lines, readFloat).value).error)
    ensures r.Success? ==> r.value == Serialize(Assemble(lines, readFloat).value).value
    ensures r.Success? ==> LoadModule(r.value).Some?
    ensures r.Success? ==>
      var st := Assemble(lines, readFloat).value; var p := LoadModule(r.value).value;
      && p.constants == st.constants
      && p.imports == st.imports
      && |p.exports| == |st.exports|
      && p.exports == Exported(st.exports, st.instPlaces)
      && Some(p.code) == Disassemble(st.instructionData)
      && |p.code| == st.instNumber
      && BackwardOnly(p.code)
  {
    var st :- Assemble(lines, readFloat);
    var b :- Serialize(st);
    AssembleValid(lines, readFloat);
    Success(b)
  }

  /** Every exported entry point of an assembled module is the index of one
      of its instructions or the end of the code. */
  lemma ExportsInRange(lines: seq<string>, readFloat: FloatReader)
    requires AssembleModule(lines, readFloat).Success?
    ensures var p := LoadModule(AssembleModule(lines, readFloat).value).value;
      forall i :: 0 <= i < |p.exports| ==> p.exports[i].1 <= |p.code|
  {
    var st := Assemble(lines, readFloat).value;
    AssembleValid(lines, readFloat);
    var p := LoadModule(AssembleModule(lines, readFloat).value).value;
    assert p.exports == Exported(st.exports, st.instPlaces);
    forall i | 0 <= i < |p.exports|
      ensures p.exports[i].1 <= |p.code|
    {
      assert p.exports[i].1 == st.instPlaces[st.exports[i]];
    }
  }

  // ---------------------------------------------------------------------
  // Worked lines

  lemma AllocTenWords()
    ensures LineWords("alloc 10") == ["alloc", "10"]
  {
    assert JoinWith(["alloc", "10"], " ") == "alloc 10";
    LineOfWords(["alloc", "10"]);
  }

  lemma AllocTenParams()
    ensures Params(["alloc", "10"]) == ["10"]
    ensures Lower("alloc") == "alloc"
  {
    assert ["alloc", "10"][1..] == ["10"];
    assert Concat(["10"]) == "10";
    assert FindChar("10", ',') == -1;
  }

  lemma AllocTenBytes(sy: Symbols)
    ensures EncodeInstruction("alloc", ["10"], sy) == Success([0x01, 0x00, 0x00, 0x00, 0x0A])
  {
    AllocEncoding(10, sy);
    assert NatToString(10) == "10";
    Pow256Widths();
    assert BigEndian(10, 4) == [0x00, 0x00, 0x00, 0x0A];
    assert [0x01 as byte] + [0x00, 0x00, 0x00, 0x0A] == [0x01, 0x00, 0x00, 0x00, 0x0A];
  }

  /** In code mode, `alloc 10` appends opcode 0x01 and the big-endian u32 10. */
  lemma AllocLine(st: State, readFloat: FloatReader)
    requires st.mode == InCode
    ensures Step(st, "alloc 10", readFloat) ==
      Success(st.(instructionData := st.instructionData + [0x01, 0x00, 0x00, 0x00, 0x0A],
                  instNumber := st.instNumber + 1))
  {
    AllocTenWords();
    AllocTenParams();
    AllocTenBytes(SymbolsOf(st));
    StepInstructionLine(st, "alloc 10", readFloat);
  }
}

=== FILE: serializer.dfy ===
/** The module file the assembler writes (rasm/rasm.py:312-347): header,
    constants table, imports table, exports table, code. `ReadModule` is the
    matching reader, and `Serialize` is proved to be its inverse. */
module Serializer {
  import opened Wrappers
  import opened Encoding
  import opened Utf8
  import opened Literals
  import opened Assembler

  /** `R` `V` `M` 0x88: the module magic number. */
  const MAGIC: bytes := [0x52, 0x56, 0x4D, 0x88]
  /** The module format version, 0.5. */
  const VERSION: bytes := [0x00, 0x05]
  const HEADER: bytes := MAGIC + VERSION

  /** The tag byte in front of each constant of the constants table. */
  const TAG_INT: byte := 0x01
  const TAG_FLOAT: byte := 0x02
  const TAG_STR: byte := 0x03
  const TAG_BOOL: byte := 0x04

  /** Whether a constant has an encoding: strings whose UTF-8 length fits a
      u64 and integers that fit an i64. */
  predicate Encodable(c: Constant) {
    match c
    case StrConst(s) => IsU64(|Encode(s)|)
    case IntConst(i) => IsI64(i)
    case _ => true
  }

  lemma AppendAssoc(a: bytes, b: bytes, c: bytes)
    ensures a + b + c == a + (b + c)
  {
  }

  // ---------------------------------------------------------------------
  // Constants

  /** Reads one tagged constant off the front of `b`. */
  function ReadConstant(b: bytes): (r: Option<(Constant, bytes)>)
    ensures r.Some? ==> |r.value.1| < |b|
  {
    if b == [] then None
    else if b[0] == TAG_INT then
      if |b| < 9 then None else Some((IntConst(DecodeI64(b[1..9])), b[9..]))
    else if b[0] == TAG_FLOAT then
      if |b| < 9 then None else Some((FloatConst(b[1..9]), b[9..]))
    else if b[0] == TAG_STR then
      var (s, rest) :- ReadStr(b[1..]);
      Some((StrConst(s), rest))
    else if b[0] == TAG_BOOL then
      if |b| < 2 || b[1] > 1 then None else Some((BoolConst(b[1] == 1), b[2..]))
    else None
  }

  /** One entry of the constants table: its tag, then its payload. */
  function EncodeConstant(c: Constant): (r: Result<bytes>)
    ensures r.Success? <==> Encodable(c)
    ensures r.Failure? ==> r.error == Overflow
    ensures r.Success? ==> forall rest :: ReadConstant(r.value + rest) == Some((c, rest))
  {
    match c
    case StrConst(s) =>
      var e :- MakeStr(s);
      ReadEncodeTagged(TAG_STR, e, c);
      Success([TAG_STR] + e)
    case BoolConst(b) =>
      ReadEncodeTagged(TAG_BOOL, [if b then 1 else 0], c);
      Success([TAG_BOOL, if b then 1 else 0])
    case FloatConst(bits) =>
      ReadEncodeTagged(TAG_FLOAT, bits, c);
      Success([TAG_FLOAT] + bits)
    case IntConst(i) =>
      var e :- MakeI64(i);
      ReadEncodeTagged(TAG_INT, e, c);
      Success([TAG_INT] + e)
  }

  /** The reader inverts each constant's tagged form. */
  lemma ReadEncodeTagged(tag: byte, payload: bytes, c: Constant)
    requires match c
      case StrConst(s) => tag == TAG_STR && MakeStr(s) == Success(payload)
      case BoolConst(b) => tag == TAG_BOOL && payload == [if b then 1 else 0]
      case FloatConst(bits) => tag == TAG_FLOAT && payload == bits
      case IntConst(i) => tag == TAG_INT && MakeI64(i) == Success(payload)
    ensures forall rest :: ReadConstant([tag] + payload + rest) == Some((c, rest))
  {
    forall rest: bytes
      ensures ReadConstant([tag] + payload + rest) == Some((c, rest))
    {
      match c
      case StrConst(s) => ReadTaggedStr(s, payload, rest);
      case BoolConst(b) => ReadTaggedBool(b, rest);
      case FloatConst(bits) => ReadTaggedFloat(bits, rest);
      case IntConst(i) => ReadTaggedInt(i, payload, rest);
    }
  }

  lemma ReadTaggedStr(s: string, payload: bytes, rest: bytes)
    requires MakeStr(s) == Success(payload)
    ensures ReadConstant([TAG_STR] + payload + rest) == Some((StrConst(s), rest))
  {
    MakeStrReads(s, payload, rest);
    ReadConstantStr(payload + rest, s, rest);
    PrefixAssoc(TAG_STR, payload, rest);
  }

  lemma MakeStrReads(s: string, payload: bytes, rest: bytes)
    requires MakeStr(s) == Success(payload)
    ensures ReadStr(payload + rest) == Some((s, rest))
  {
  }

  lemma ReadConstantStr(t: bytes, s: string, rest: bytes)
    requires ReadStr(t) == Some((s, rest))
    ensures ReadConstant([TAG_STR] + t) == Some((StrConst(s), rest))
  {
    var b := [TAG_STR] + t;
    assert b[0] == TAG_STR && b[1..] == t;
  }

  lemma PrefixAssoc(tag: byte, a: bytes, b: bytes)
    ensures [tag] + a + b == [tag] + (a + b)
  {
  }

  lemma ReadTaggedBool(v: bool, rest: bytes)
    ensures ReadConstant([TAG_BOOL] + [if v then 1 else 0] + rest) == Some((BoolConst(v), rest))
  {
    var b := [TAG_BOOL] + [if v then 1 else 0] + rest;
    assert b[2..] == rest;
  }

  lemma ReadTaggedFloat(bits: F64, rest: bytes)
    ensures ReadConstant([TAG_FLOAT] + bits + rest) == Some((FloatConst(bits), rest))
  {
    var b := [TAG_FLOAT] + bits + rest;
    assert b[1..9] == bits;
    assert b[9..] == rest;
  }

  lemma ReadTaggedInt(i: int, payload: bytes, rest: bytes)
    requires MakeI64(i) == Success(payload)
    ensures ReadConstant([TAG_INT] + payload + rest) == Some((IntConst(i), rest))
  {
    var b := [TAG_INT] + payload + rest;
    assert b[1..9] == payload;
    assert b[9..] == rest;
  }

  /** The constants table body: each constant's entry, in order; the first
      constant without an encoding stops it. */
  function EncodeConstants(cs: seq<Constant>): (r: Result<bytes>)
    ensures r.Success? <==> forall i :: 0 <= i < |cs| ==> Encodable(cs[i])
    ensures r.Failure? ==> r.error == Overflow
  {
    if cs == [] then Success([])
    else
      AllEncodableCons(cs);
      var h :- EncodeConstant(cs[0]);
      var t :- EncodeConstants(cs[1..]);
      Success(h + t)
  }

  lemma AllEncodableCons(cs: seq<Constant>)
    requires cs != []
    ensures (forall i :: 0 <= i < |cs| ==> Encodable(cs[i])) <==>
      Encodable(cs[0]) && forall i :: 0 <= i < |cs[1..]| ==> Encodable(cs[1..][i])
  {
    assert forall i :: 1 <= i < |cs| ==> cs[i] == cs[1..][i - 1];
  }

  /** Reads `n` constants off the front of `b`; what it accepts is exactly
      what `EncodeConstants` writes for the constants read. */
  function ReadConstants(b: bytes, n: nat): (r: Option<(seq<Constant>, bytes)>)
    ensures r.Some? ==> |r.value.0| == n
    ensures r.Some? ==> EncodeConstants(r.value.0).Success? && b == EncodeConstants(r.value.0).value + r.value.1
    decreases n
  {
    if n == 0 then Some(([], b))
    else
      var (c, rest) :- ReadConstant(b);
      ReadConstantExact(b);
      var (cs, rest') :- ReadConstants(rest, n - 1);
      EncodeConstantsPrepend(c, cs, EncodeConstant(c).value, EncodeConstants(cs).value);
      AppendAssoc(EncodeConstant(c).value, EncodeConstants(cs).value, rest');
      Some(([c] + cs, rest'))
  }

  lemma EncodeConstantsCons(cs: seq<Constant>)
    requires cs != [] && EncodeConstants(cs).Success?
    ensures EncodeConstant(cs[0]).Success? && EncodeConstants(cs[1..]).Success?
    ensures EncodeConstants(cs).value == EncodeConstant(cs[0]).value + EncodeConstants(cs[1..]).value
  {
  }

  lemma ReadConstantsStep(c: Constant, h: bytes, t: bytes, rest: bytes, n: nat, cs: seq<Constant>)
    requires ReadConstant(h + (t + rest)) == Some((c, t + rest))
    requires ReadConstants(t + rest, n) == Some((cs, rest))
    ensures ReadConstants(h + t + rest, n + 1) == Some(([c] + cs, rest))
  {
    assert h + t + rest == h + (t + rest);
  }

  /** Reading back as many constants as were written gives them back. */
  lemma {:induction false} ReadEncodeConstants(cs: seq<Constant>, rest: bytes)
    requires EncodeConstants(cs).Success?
    ensures ReadConstants(EncodeConstants(cs).value + rest, |cs|) == Some((cs, rest))
  {
    if cs == [] {
      assert EncodeConstants(cs).value + rest == rest;
    } else {
      EncodeConstantsCons(cs);
      var h := EncodeConstant(cs[0]).value;
      var t := EncodeConstants(cs[1..]).value;
      ReadEncodeConstants(cs[1..], rest);
      ReadConstantsStep(cs[0], h, t, rest, |cs| - 1, cs[1..]);
      assert [cs[0]] + cs[1..] == cs;
    }
  }

  // ---------------------------------------------------------------------
  // Imports

  /** The imports table body: each name as a length-prefixed string. */
  function EncodeNames(names: seq<string>): (r: Result<bytes>)
    ensures r.Success? <==> forall i :: 0 <= i < |names| ==> IsU64(|Encode(names[i])|)
    ensures r.Failure? ==> r.error == Overflow
  {
    if names == [] then Success([])
    else
      AllNamesFitCons(names);
      var h :- MakeStr(names[0]);
      var t :- EncodeNames(names[1..]);
      Success(h + t)
  }

  lemma AllNamesFitCons(names: seq<string>)
    requires names != []
    ensures (forall i :: 0 <= i < |names| ==> IsU64(|Encode(names[i])|)) <==>
      IsU64(|Encode(names[0])|) && forall i :: 0 <= i < |names[1..]| ==> IsU64(|Encode(names[1..][i])|)
  {
    assert forall i :: 1 <= i < |names| ==> names[i] == names[1..][i - 1];
  }

  /** Reads `n` length-prefixed strings off the front of `b`; what it accepts
      is exactly what `EncodeNames` writes for the names read. */
  function ReadNames(b: bytes, n: nat): (r: Option<(seq<string>, bytes)>)
    ensures r.Some? ==> |r.value.0| == n
    ensures r.Some? ==> EncodeNames(r.value.0).Success? && b == EncodeNames(r.value.0).value + r.value.1
    decreases n
  {
    if n == 0 then Some(([], b))
    else
      var (s, rest) :- ReadStr(b);
      ReadStrExact(b);
      var (ss, rest') :- ReadNames(rest, n - 1);
      EncodeNamesPrepend(s, ss, MakeStr(s).value, EncodeNames(ss).value);
      AppendAssoc(MakeStr(s).value, EncodeNames(ss).value, rest');
      Some(([s] + ss, rest'))
  }

  lemma EncodeNamesCons(names: seq<string>)
    requires names != [] && EncodeNames(names).Success?
    ensures MakeStr(names[0]).Success? && EncodeNames(names[1..]).Success?
    ensures EncodeNames(names).value == MakeStr(names[0]).value + EncodeNames(names[1..]).value
  {
  }

  lemma ReadNamesStep(s: string, tail: bytes, b: bytes, n: nat, ss: seq<string>, rest: bytes)
    requires ReadStr(b) == Some((s, tail))
    requires ReadNames(tail, n) == Some((ss, rest))
    ensures ReadNames(b, n + 1) == Some(([s] + ss, rest))
  {
  }

  /** Reading back as many names as were written gives them back. */
  lemma {:induction false} ReadEncodeNames(names: seq<string>, rest: bytes)
    requires EncodeNames(names).Success?
    ensures ReadNames(EncodeNames(names).value + rest, |names|) == Some((names, rest))
  {
    if names == [] {
      assert EncodeNames(names).value + rest == rest;
    } else {
      EncodeNamesCons(names);
      var h := MakeStr(names[0]).value;
      var t := EncodeNames(names[1..]).value;
      ReadEncodeNames(names[1..], rest);
      AppendAssoc(h, t, rest);
      ReadNamesStep(names[0], t + rest, h + (t + rest), |names| - 1, names[1..], rest);
      assert [names[0]] + names[1..] == names;
    }
  }

  // ---------------------------------------------------------------------
  // Exports

  /** Each exported name with the instruction index its placeholder marks. */
  function Exported(names: seq<string>, places: map<string, nat>): (es: seq<(string, nat)>)
    requires forall i :: 0 <= i < |names| ==> names[i] in places
    ensures |es| == |names|
    ensures forall i :: 0 <= i < |names| ==> es[i] == (names[i], places[names[i]])
  {
    if names == [] then []
    else [(names[0], places[names[0]])] + Exported(names[1..], places)
  }

  /** Whether an export has an entry: its placeholder exists, and the name
      and index fit their u64 fields. */
  predicate Exportable(name: string, places: map<string, nat>) {
    name in places && IsU64(|Encode(name)|) && IsU64(places[name])
  }

  /** One entry of the exports table: the name, then the u64 index its
      placeholder marks; a name that no placeholder declared fails first. */
  function EncodeExport(name: string, places: map<string, nat>): (r: Result<bytes>)
    ensures name !in places ==> r == Failure(UndefinedExport)
    ensures r.Success? <==> Exportable(name, places)
    ensures r.Failure? ==> r.error == Overflow || r.error == UndefinedExport
    ensures r.Success? ==> forall rest :: ReadExport(r.value + rest) == Some(((name, places[name]), rest))
  {
    if name !in places then Failure(UndefinedExport)
    else
      var s :- MakeStr(name);
      var l :- MakeU64(places[name]);
      assert forall rest :: ReadExport(s + l + rest) == Some(((name, places[name]), rest)) by {
        forall rest: bytes
          ensures ReadExport(s + l + rest) == Some(((name, places[name]), rest))
        {
          ReadExportParts(name, places[name], s, l, rest);
        }
      }
      Success(s + l)
  }

  lemma ReadExportParts(name: string, n: nat, s: bytes, l: bytes, rest: bytes)
    requires MakeStr(name) == Success(s) && MakeU64(n) == Success(l)
    ensures ReadExport(s + l + rest) == Some(((name, n), rest))
  {
    AppendAssoc(s, l, rest);
    assert ReadStr(s + (l + rest)) == Some((name, l + rest));
    Pow256Widths();
    ReadUnsignedBigEndian(n, 8, rest);
  }

  /** Reads one export entry off the front of `b`. */
  function ReadExport(b: bytes): (r: Option<((string, nat), bytes)>)
    ensures r.Some? ==> |r.value.1| < |b|
  {
    var (name, rest) :- ReadStr(b);
    var (n, rest') :- ReadUnsigned(rest, 8);
    Some(((name, n), rest'))
  }

  /** The exports table body. */
  function EncodeExports(names: seq<string>, places: map<string, nat>): (r: Result<bytes>)
    ensures r.Success? <==> forall i :: 0 <= i < |names| ==> Exportable(names[i], places)
    ensures r.Failure? ==> r.error == Overflow || r.error == UndefinedExport
  {
    if names == [] then Success([])
    else
      AllExportableCons(names, places);
      var h :- EncodeExport(names[0], places);
      var t :- EncodeExports(names[1..], places);
      Success(h + t)
  }

  lemma AllExportableCons(names: seq<string>, places: map<string, nat>)
    requires names != []
    ensures (forall i :: 0 <= i < |names| ==> Exportable(names[i], places)) <==>
      Exportable(names[0], places) && forall i :: 0 <= i < |names[1..]| ==> Exportable(names[1..][i], places)
  {
    assert forall i :: 1 <= i < |names| ==> names[i] == names[1..][i - 1];
  }

  /** Reads `n` export entries off the front of `b`. */
  function ReadExports(b: bytes, n: nat): (r: Option<(seq<(string, nat)>, bytes)>)
    ensures r.Some? ==> |r.value.0| == n
    decreases n
  {
    if n == 0 then Some(([], b))
    else
      var (e, rest) :- ReadExport(b);
      var (es, rest') :- ReadExports(rest, n - 1);
      Some(([e] + es, rest'))
  }

  lemma ReadExportEntry(name: string, places: map<string, nat>, rest: bytes)
    requires EncodeExport(name, places).Success?
    ensures ReadExport(EncodeExport(name, places).value + rest) == Some(((name, places[name]), rest))
  {
  }

  lemma ExportedCons(names: seq<string>, places: map<string, nat>)
    requires names != [] && forall i :: 0 <= i < |names| ==> names[i] in places
    ensures Exported(names, places) == [(names[0], places[names[0]])] + Exported(names[1..], places)
  {
  }

  lemma EncodeExportsCons(names: seq<string>, places: map<string, nat>)
    requires names != [] && EncodeExports(names, places).Success?
    ensures EncodeExport(names[0], places).Success? && EncodeExports(names[1..], places).Success?
    ensures EncodeExports(names, places).value ==
      EncodeExport(names[0], places).value + EncodeExports(names[1..], places).value
  {
  }

  lemma ReadExportsStep(e: (string, nat), tail: bytes, b: bytes, n: nat, es: seq<(string, nat)>, rest: bytes)
    requires ReadExport(b) == Some((e, tail))
    requires ReadExports(tail, n) == Some((es, rest))
    ensures ReadExports(b, n + 1) == Some(([e] + es, rest))
  {
  }

  /** Reading back as many export entries as were written gives each name
      with its placeholder's index. */
  lemma {:induction false} ReadEncodeExports(names: seq<string>, places: map<string, nat>, rest: bytes)
    requires EncodeExports(names, places).Success?
    ensures ReadExports(EncodeExports(names, places).value + rest, |names|) ==
      Some((Exported(names, places), rest))
  {
    if names == [] {
      assert EncodeExports(names, places).value + rest == rest;
    } else {
      EncodeExportsCons(names, places);
      var h := EncodeExport(names[0], places).value;
      var t := EncodeExports(names[1..], places).value;
      ReadEncodeExports(names[1..], places, rest);
      AppendAssoc(h, t, rest);
      ExportedCons(names, places);
      ReadExportEntry(names[0], places, t + rest);
      ReadExportsStep((names[0], places[names[0]]), t + rest, h + (t + rest), |names| - 1, Exported(names[1..], places), rest);
    }
  }

  // ---------------------------------------------------------------------
  // The whole module

  /** What a module file holds. */
  datatype Module = Module(
    constants: seq<Constant>,
    imports: seq<string>,
    exports: seq<(string, nat)>,
    code: bytes)

  /** Reads a module file; the code section runs to the end of the file. */
  function ReadModule(b: bytes): Option<Module> {
    if |b| < |HEADER| || b[..|HEADER|] != HEADER then None
    else ReadTables(b[|HEADER|..])
  }

  /** What follows the header: the three tables, then the code. */
  function ReadTables(b: bytes): Option<Module> {
    var (nc, b1) :- ReadUnsigned(b, 4);
    var (cs, b2) :- ReadConstants(b1, nc);
    ReadLinks(cs, b2)
  }

  /** The imports and exports tables, then the code. */
  function ReadLinks(cs: seq<Constant>, b: bytes): (r: Option<Module>)
    ensures r.Some? ==> r.value.constants == cs
  {
    var (ni, b3) :- ReadUnsigned(b, 8);
    var (ims, b4) :- ReadNames(b3, ni);
    ReadExportsTable(cs, ims, b4)
  }

  /** The exports table, then the code. */
  function ReadExportsTable(cs: seq<Constant>, ims: seq<string>, b: bytes): (r: Option<Module>)
    ensures r.Some? ==> r.value.constants == cs && r.value.imports == ims
  {
    var (ne, b5) :- ReadUnsigned(b, 8);
    var (es, code) :- ReadExports(b5, ne);
    Some(Module(cs, ims, es, code))
  }

  /** The module file for an assembled state. */
  function Serialize(st: State): (r: Result<bytes>)
    ensures r.Success? ==> |r.value| >= |HEADER| && r.value[..|HEADER|] == HEADER
    ensures r.Success? <==>
      && IsU32(|st.constants|) && (forall i :: 0 <= i < |st.constants| ==> Encodable(st.constants[i]))
      && IsU64(|st.imports|) && (forall i :: 0 <= i < |st.imports| ==> IsU64(|Encode(st.imports[i])|))
      && IsU64(|st.exports|) && (forall i :: 0 <= i < |st.exports| ==> Exportable(st.exports[i], st.instPlaces))
    ensures r.Failure? ==> r.error == Overflow || r.error == UndefinedExport
    ensures r.Success? ==>
      ReadModule(r.value) ==
        Some(Module(st.constants, st.imports, Exported(st.exports, st.instPlaces), st.instructionData))
  {
    var nc :- MakeU32(|st.constants|);
    var cs :- EncodeConstants(st.constants);
    var ni :- MakeU64(|st.imports|);
    var ims :- EncodeNames(st.imports);
    var ne :- MakeU64(|st.exports|);
    var es :- EncodeExports(st.exports, st.instPlaces);
    var b := HEADER + (nc + (cs + (ni + (ims + (ne + (es + st.instructionData))))));
    ReadModuleParts(st, nc, cs, ni, ims, ne, es);
    Success(b)
  }

  lemma ReadModuleParts(st: State, nc: bytes, cs: bytes, ni: bytes, ims: bytes, ne: bytes, es: bytes)
    requires MakeU32(|st.constants|) == Success(nc)
    requires EncodeConstants(st.constants) == Success(cs)
    requires MakeU64(|st.imports|) == Success(ni)
    requires EncodeNames(st.imports) == Success(ims)
    requires MakeU64(|st.exports|) == Success(ne)
    requires EncodeExports(st.exports, st.instPlaces) == Success(es)
    ensures var b := HEADER + (nc + (cs + (ni + (ims + (ne + (es + st.instructionData))))));
      ReadModule(b) == Some(Module(st.constants, st.imports, Exported(st.exports, st.instPlaces), st.instructionData))
  {
    var t := nc + (cs + (ni + (ims + (ne + (es + st.instructionData)))));
    var b := HEADER + t;
    assert b[..|HEADER|] == HEADER;
    assert b[|HEADER|..] == t;
    ReadTablesParts(st, nc, cs, ni, ims, ne, es);
  }

  lemma ReadTablesParts(st: State, nc: bytes, cs: bytes, ni: bytes, ims: bytes, ne: bytes, es: bytes)
    requires MakeU32(|st.constants|) == Success(nc)
    requires EncodeConstants(st.constants) == Success(cs)
    requires MakeU64(|st.imports|) == Success(ni)
    requires EncodeNames(st.imports) == Success(ims)
    requires MakeU64(|st.exports|) == Success(ne)
    requires EncodeExports(st.exports, st.instPlaces) == Success(es)
    ensures ReadTables(nc + (cs + (ni + (ims + (ne + (es + st.instructionData)))))) ==
      Some(Module(st.constants, st.imports, Exported(st.exports, st.instPlaces), st.instructionData))
  {
    var b2 := ni + (ims + (ne + (es + st.instructionData)));
    var b1 := cs + b2;
    ReadMadeU32(|st.constants|, nc, b1);
    ReadEncodeConstants(st.constants, b2);
    ReadLinksParts(st, ni, ims, ne, es);
  }

  lemma ReadLinksParts(st: State, ni: bytes, ims: bytes, ne: bytes, es: bytes)
    requires MakeU64(|st.imports|) == Success(ni)
    requires EncodeNames(st.imports) == Success(ims)
    requires MakeU64(|st.exports|) == Success(ne)
    requires EncodeExports(st.exports, st.instPlaces) == Success(es)
    ensures ReadLinks(st.constants, ni + (ims + (ne + (es + st.instructionData)))) ==
      Some(Module(st.constants, st.imports, Exported(st.exports, st.instPlaces), st.instructionData))
  {
    var code := st.instructionData;
    var b5 := es + code;
    var b4 := ne + b5;
    var b3 := ims + b4;
    ReadMadeU64(|st.imports|, ni, b3);
    ReadEncodeNames(st.imports, b4);
    ReadMadeU64(|st.exports|, ne, b5);
    ReadEncodeExports(st.exports, st.instPlaces, code);
  }

  // ---------------------------------------------------------------------
  // The readers are exact: the bytes the writer produces are the only ones
  // that read back as what was written.

  lemma MadeU32Bytes(n: nat, v: bytes)
    requires MakeU32(n) == Success(v)
    ensures n < Pow256(4) && v == BigEndian(n, 4)
  {
    Pow256Widths();
    BigEndianInverse(v);
  }

  lemma MadeU64Bytes(n: nat, v: bytes)
    requires MakeU64(n) == Success(v)
    ensures n < Pow256(8) && v == BigEndian(n, 8)
  {
    Pow256Widths();
    BigEndianInverse(v);
  }

  /** Whatever `ReadConstant` accepts is an entry `EncodeConstant` writes. */
  lemma ReadConstantExact(b: bytes)
    requires ReadConstant(b).Some?
    ensures var (c, rest) := ReadConstant(b).value;
      EncodeConstant(c).Success? && b == EncodeConstant(c).value + rest
  {
    if b[0] == TAG_INT {
      ReadIntExact(b);
    } else if b[0] == TAG_FLOAT {
      ReadFloatExact(b);
    } else if b[0] == TAG_STR {
      ReadStrEntryExact(b);
    } else {
      ReadBoolExact(b);
    }
  }

  lemma ReadIntExact(b: bytes)
    requires |b| >= 9 && b[0] == TAG_INT
    ensures EncodeConstant(IntConst(DecodeI64(b[1..9]))) == Success(b[..9])
  {
    DecodeI64Inverse(b[1..9]);
    assert b[..9] == [TAG_INT] + b[1..9];
  }

  lemma ReadFloatExact(b: bytes)
    requires |b| >= 9 && b[0] == TAG_FLOAT
    ensures EncodeConstant(FloatConst(b[1..9])) == Success(b[..9])
  {
    assert b[..9] == [TAG_FLOAT] + b[1..9];
  }

  lemma ReadStrEntryExact(b: bytes)
    requires b != [] && b[0] == TAG_STR && ReadStr(b[1..]).Some?
    ensures var (s, rest) := ReadStr(b[1..]).value;
      EncodeConstant(StrConst(s)).Success? && b == EncodeConstant(StrConst(s)).value + rest
  {
    ReadStrExact(b[1..]);
    assert b == [b[0]] + b[1..];
  }

  lemma ReadBoolExact(b: bytes)
    requires |b| >= 2 && b[0] == TAG_BOOL && b[1] <= 1
    ensures EncodeConstant(BoolConst(b[1] == 1)) == Success(b[..2])
  {
    assert b[..2] == [b[0], b[1]];
  }

  lemma EncodeConstantsPrepend(c: Constant, cs: seq<Constant>, h: bytes, t: bytes)
    requires EncodeConstant(c) == Success(h) && EncodeConstants(cs) == Success(t)
    ensures EncodeConstants([c] + cs) == Success(h + t)
  {
    var all := [c] + cs;
    assert all[0] == c && all[1..] == cs;
    AllEncodableCons(all);
  }

  lemma EncodeNamesPrepend(s: string, ss: seq<string>, h: bytes, t: bytes)
    requires MakeStr(s) == Success(h) && EncodeNames(ss) == Success(t)
    ensures EncodeNames([s] + ss) == Success(h + t)
  {
    var all := [s] + ss;
    assert all[0] == s && all[1..] == ss;
    AllNamesFitCons(all);
  }

  /** Whatever `ReadExport` accepts is a name followed by its u64 index. */
  lemma ReadExportExact(b: bytes)
    requires ReadExport(b).Some?
    ensures var ((name, n), rest) := ReadExport(b).value;
      MakeStr(name).Success? && MakeU64(n).Success? && b == MakeStr(name).value + MakeU64(n).value + rest
  {
    var (name, t) := ReadStr(b).value;
    var (n, rest) := ReadUnsigned(t, 8).value;
    ReadStrExact(b);
    Pow256Widths();
    MadeU64Bytes(n, MakeU64(n).value);
  }

  lemma ReadExportsCons(b: bytes, n: nat)
    requires n > 0 && ReadExports(b, n).Some?
    ensures ReadExport(b).Some? && ReadExports(ReadExport(b).value.1, n - 1).Some?
    ensures var (e, t) := ReadExport(b).value; var (es, rest) := ReadExports(t, n - 1).value;
      ReadExports(b, n).value == ([e] + es, rest)
  {
  }

  /** The head entry read is the head name's, and the tail reads as the tail. */
  lemma ExportedSplit(e: (string, nat), es: seq<(string, nat)>, names: seq<string>, places: map<string, nat>)
    requires names != [] && forall i :: 0 <= i < |names| ==> names[i] in places
    requires [e] + es == Exported(names, places)
    ensures e == (names[0], places[names[0]]) && es == Exported(names[1..], places)
  {
    ExportedCons(names, places);
    assert ([e] + es)[0] == e && ([e] + es)[1..] == es;
  }

  lemma ExportEntryBytes(name: string, places: map<string, nat>)
    requires EncodeExport(name, places).Success?
    ensures EncodeExport(name, places).value == MakeStr(name).value + MakeU64(places[name]).value
  {
  }

  lemma {:induction false} ReadExportsExact(b: bytes, n: nat, names: seq<string>, places: map<string, nat>, rest: bytes)
    requires EncodeExports(names, places).Success?
    requires ReadExports(b, n) == Some((Exported(names, places), rest))
    ensures n == |names| && b == EncodeExports(names, places).value + rest
    decreases n
  {
    if n > 0 {
      ReadExportsCons(b, n);
      var (e, t) := ReadExport(b).value;
      var es := ReadExports(t, n - 1).value.0;
      EncodeExportsCons(names, places);
      ExportedSplit(e, es, names, places);
      ReadExportExact(b);
      ExportEntryBytes(names[0], places);
      ReadExportsExact(t, n - 1, names[1..], places, rest);
      var h := EncodeExport(names[0], places).value;
      var tl := EncodeExports(names[1..], places).value;
      AppendAssoc(h, tl, rest);
    }
  }

  /** A module file is determined by what it holds: the only bytes that read
      back as an assembled state's module are the ones `Serialize` writes. */
  lemma ReadModuleExact(st: State, b: bytes)
    requires Serialize(st).Success?
    requires ReadModule(b) ==
      Some(Module(st.constants, st.imports, Exported(st.exports, st.instPlaces), st.instructionData))
    ensures b == Serialize(st).value
  {
    var nc, cs, ni, ims, ne, es := SerializeParts(st);
    var t := ReadModuleHead(b);
    ReadTablesExact(st, t, nc, cs, ni, ims, ne, es);
  }

  /** A module file is the header followed by what `ReadTables` reads. */
  lemma ReadModuleHead(b: bytes) returns (t: bytes)
    requires ReadModule(b).Some?
    ensures b == HEADER + t && ReadModule(b) == ReadTables(t)
  {
    t := b[|HEADER|..];
    assert b == b[..|HEADER|] + t;
  }

  /** The pieces a successful `Serialize` is made of. */
  lemma SerializeParts(st: State) returns (nc: bytes, cs: bytes, ni: bytes, ims: bytes, ne: bytes, es: bytes)
    requires Serialize(st).Success?
    ensures MakeU32(|st.constants|) == Success(nc)
    ensures EncodeConstants(st.constants) == Success(cs)
    ensures MakeU64(|st.imports|) == Success(ni)
    ensures EncodeNames(st.imports) == Success(ims)
    ensures MakeU64(|st.exports|) == Success(ne)
    ensures EncodeExports(st.exports, st.instPlaces) == Success(es)
    ensures Serialize(st).value == HEADER + (nc + (cs + (ni + (ims + (ne + (es + st.instructionData))))))
  {
    nc := MakeU32(|st.constants|).value;
    cs := EncodeConstants(st.constants).value;
    ni := MakeU64(|st.imports|).value;
    ims := EncodeNames(st.imports).value;
    ne := MakeU64(|st.exports|).value;
    es := EncodeExports(st.exports, st.instPlaces).value;
  }

  lemma ReadTablesExact(st: State, b: bytes, nc: bytes, cs: bytes, ni: bytes, ims: bytes, ne: bytes, es: bytes)
    requires MakeU32(|st.constants|) == Success(nc)
    requires EncodeConstants(st.constants) == Success(cs)
    requires MakeU64(|st.imports|) == Success(ni)
    requires EncodeNames(st.imports) == Success(ims)
    requires MakeU64(|st.exports|) == Success(ne)
    requires EncodeExports(st.exports, st.instPlaces) == Success(es)
    requires ReadTables(b) ==
      Some(Module(st.constants, st.imports, Exported(st.exports, st.instPlaces), st.instructionData))
    ensures b == nc + (cs + (ni + (ims + (ne + (es + st.instructionData)))))
  {
    var b1, b2 := ReadTablesHead(b, st.constants, nc, cs);
    ReadLinksExact(st, b2, ni, ims, ne, es);
  }

  /** The count and the constants table at the front of a module's tables. */
  lemma ReadTablesHead(b: bytes, consts: seq<Constant>, nc: bytes, cs: bytes) returns (b1: bytes, b2: bytes)
    requires MakeU32(|consts|) == Success(nc) && EncodeConstants(consts) == Success(cs)
    requires ReadTables(b).Some? && ReadTables(b).value.constants == consts
    ensures b == nc + (cs + b2) && ReadTables(b) == ReadLinks(consts, b2)
  {
    var n: nat;
    n, b1 := ReadUnsigned(b, 4).value.0, ReadUnsigned(b, 4).value.1;
    var read: seq<Constant>;
    read, b2 := ReadConstants(b1, n).value.0, ReadConstants(b1, n).value.1;
    assert read == consts;
    MadeU32Bytes(n, nc);
  }

  lemma ReadLinksExact(st: State, b: bytes, ni: bytes, ims: bytes, ne: bytes, es: bytes)
    requires MakeU64(|st.imports|) == Success(ni)
    requires EncodeNames(st.imports) == Success(ims)
    requires MakeU64(|st.exports|) == Success(ne)
    requires EncodeExports(st.exports, st.instPlaces) == Success(es)
    requires ReadLinks(st.constants, b) ==
      Some(Module(st.constants, st.imports, Exported(st.exports, st.instPlaces), st.instructionData))
    ensures b == ni + (ims + (ne + (es + st.instructionData)))
  {
    var b4 := ReadLinksHead(b, st.constants, st.imports, ni, ims);
    ReadExportsTableExact(st, b4, ne, es);
  }

  /** The count and the imports table at the front of the links. */
  lemma ReadLinksHead(b: bytes, consts: seq<Constant>, imports: seq<string>, ni: bytes, ims: bytes) returns (b4: bytes)
    requires MakeU64(|imports|) == Success(ni) && EncodeNames(imports) == Success(ims)
    requires ReadLinks(consts, b).Some? && ReadLinks(consts, b).value.imports == imports
    ensures b == ni + (ims + b4) && ReadLinks(consts, b) == ReadExportsTable(consts, imports, b4)
  {
    var n: nat, b3: bytes;
    n, b3 := ReadUnsigned(b, 8).value.0, ReadUnsigned(b, 8).value.1;
    var read: seq<string>;
    read, b4 := ReadNames(b3, n).value.0, ReadNames(b3, n).value.1;
    assert read == imports;
    MadeU64Bytes(n, ni);
  }

  lemma ReadExportsTableExact(st: State, b: bytes, ne: bytes, es: bytes)
    requires MakeU64(|st.exports|) == Success(ne)
    requires EncodeExports(st.exports, st.instPlaces) == Success(es)
    requires ReadExportsTable(st.constants, st.imports, b) ==
      Some(Module(st.constants, st.imports, Exported(st.exports, st.instPlaces), st.instructionData))
    ensures b == ne + (es + st.instructionData)
  {
    var n: nat, b5: bytes;
    n, b5 := ReadUnsigned(b, 8).value.0, ReadUnsigned(b, 8).value.1;
    ReadExportsExact(b5, n, st.exports, st.instPlaces, st.instructionData);
    MadeU64Bytes(n, ne);
  }
}

=== FILE: text.dfy ===
/** The Python string operations the assembler relies on, over `string`
    (a sequence of Unicode scalar values): `split()`, `split(None, 2)`,
    `strip()`, `lower()`, `find()`, `split(",")`, `"".join(...)`,
    `list.index()` and base-10 `int()`. */
module Text {
  import opened Wrappers

  /** Python's whitespace (`str.isspace`), which `split()` and `strip()` use. */
  predicate IsSpace(c: char) {
    var n := c as int;
    || 0x09 <= n <= 0x0D || 0x1C <= n <= 0x20 || n == 0x85 || n == 0xA0
    || n == 0x1680 || 0x2000 <= n <= 0x200A || n == 0x2028 || n == 0x2029
    || n == 0x202F || n == 0x205F || n == 0x3000
  }

  predicate NoSpace(s: string) {
    forall i :: 0 <= i < |s| ==> !IsSpace(s[i])
  }

  /** A non-empty run of non-whitespace characters. */
  predicate IsWord(w: string) {
    w != [] && NoSpace(w)
  }

  predicate AllSpace(s: string) {
    forall i :: 0 <= i < |s| ==> IsSpace(s[i])
  }

  /** Python's `s.find(c)`: the first position of `c`, or -1. */
  function FindChar(s: string, c: char): (k: int)
    ensures -1 <= k < |s|
    ensures k >= 0 ==> s[k] == c && c !in s[..k]
    ensures k < 0 <==> c !in s
  {
    if s == [] then -1
    else if s[0] == c then 0
    else
      var k := FindChar(s[1..], c);
      assert s[1..] == s[..|s|][1..];
      if k < 0 then -1
      else
        assert s[..k + 1] == [s[0]] + s[1..][..k];
        k + 1
  }

  lemma FindCharAt(a: string, c: char, b: string)
    requires c !in a
    ensures FindChar(a + [c] + b, c) == |a|
  {
    var s := a + [c] + b;
    assert s[|a|] == c;
    assert s[..|a|] == a;
    assert forall j :: |a| < j <= |s| ==> s[..j][|a|] == c;
  }

  /** Python's slice `s[i:j]`: empty when `j <= i`. */
  function Slice(s: string, i: nat, j: nat): (r: string)
    requires i <= |s| && j <= |s|
    ensures i <= j ==> r == s[i..j]
    ensures j <= i ==> r == []
  {
    if j <= i then [] else s[i..j]
  }

  /** `text.split("#")[0]`: the text before the first `#`. */
  function StripComment(s: string): (r: string)
    ensures |r| <= |s| && r == s[..|r|]
    ensures '#' !in r
    ensures |r| < |s| ==> s[|r|] == '#'
  {
    var k := FindChar(s, '#');
    if k < 0 then s else s[..k]
  }

  function TrimStart(s: string): (r: string)
    ensures |r| <= |s| && r == s[|s| - |r|..]
    ensures r == [] || !IsSpace(r[0])
    ensures AllSpace(s[..|s| - |r|])
    ensures r == [] <==> AllSpace(s)
  {
    if s != [] && IsSpace(s[0]) then
      var r := TrimStart(s[1..]);
      assert s[..|s| - |r|] == [s[0]] + s[1..][..|s[1..]| - |r|];
      r
    else s
  }

  function TrimEnd(s: string): (r: string)
    ensures |r| <= |s| && r == s[..|r|]
    ensures r == [] || !IsSpace(r[|r| - 1])
    ensures AllSpace(s[|r|..])
  {
    if s != [] && IsSpace(s[|s| - 1]) then
      var r := TrimEnd(s[..|s| - 1]);
      assert s[|r|..] == s[..|s| - 1][|r|..] + [s[|s| - 1]];
      r
    else s
  }

  /** Text with no whitespace at either end. */
  predicate Stripped(s: string) {
    s == [] || (!IsSpace(s[0]) && !IsSpace(s[|s| - 1]))
  }

  /** Python's `s.strip()`. */
  function Strip(s: string): (r: string)
    ensures r == [] <==> AllSpace(s)
    ensures |r| <= |s|
    ensures Stripped(r)
  {
    var t := TrimStart(s);
    var r := TrimEnd(t);
    assert r != [] ==> r[0] == t[0];
    r
  }

  /** Surrounding whitespace is all `strip()` removes. */
  lemma StripPadded(a: string, v: string, b: string)
    requires AllSpace(a) && AllSpace(b)
    requires Stripped(v)
    ensures Strip(a + (v + b)) == v
  {
    if v == [] {
      AllSpaceJoin(a, b);
      assert v + b == b;
    } else {
      StripAround(a, v, b);
    }
  }

  lemma StripAround(a: string, v: string, b: string)
    requires AllSpace(a) && AllSpace(b)
    requires v != [] && !IsSpace(v[0]) && !IsSpace(v[|v| - 1])
    ensures Strip(a + (v + b)) == v
  {
    assert (v + b)[0] == v[0];
    TrimStartPadded(a, v + b);
    TrimEndPadded(v, b);
  }

  lemma AllSpaceJoin(a: string, b: string)
    requires AllSpace(a) && AllSpace(b)
    ensures AllSpace(a + b)
  {
    var s := a + b;
    forall i | 0 <= i < |s| ensures IsSpace(s[i]) {
      if i < |a| { assert s[i] == a[i]; } else { assert s[i] == b[i - |a|]; }
    }
  }

  lemma {:induction false} TrimStartPadded(a: string, t: string)
    requires AllSpace(a) && (t == [] || !IsSpace(t[0]))
    ensures TrimStart(a + t) == t
    decreases |a|
  {
    if a != [] {
      assert (a + t)[1..] == a[1..] + t;
      TrimStartPadded(a[1..], t);
    } else {
      assert a + t == t;
    }
  }

  lemma {:induction false} TrimEndPadded(v: string, b: string)
    requires AllSpace(b) && (v == [] || !IsSpace(v[|v| - 1]))
    ensures TrimEnd(v + b) == v
    decreases |b|
  {
    if b != [] {
      var s := v + b;
      assert s[..|s| - 1] == v + b[..|b| - 1];
      assert IsSpace(b[|b| - 1]);
      TrimEndPadded(v, b[..|b| - 1]);
    } else {
      assert v + b == v;
    }
  }

  /** The length of the longest prefix of `s` without whitespace. */
  function WordEnd(s: string): (n: nat)
    ensures n <= |s| && NoSpace(s[..n])
    ensures n < |s| ==> IsSpace(s[n])
  {
    if s == [] || IsSpace(s[0]) then 0
    else
      var n := WordEnd(s[1..]);
      assert s[..n + 1] == [s[0]] + s[1..][..n];
      n + 1
  }

  /** The first whitespace-delimited word of `s` (empty if there is none):
      `s.split(None, 2)[0]`, which is the first word of `s.split()`. */
  function FirstWord(s: string): (w: string)
    ensures NoSpace(w)
    ensures w == [] <==> AllSpace(s)
  {
    var t := TrimStart(s);
    t[..WordEnd(t)]
  }

  /** What follows the first word of `s`, leading whitespace included; its
      words are the words of `s` after the first. */
  function AfterWord(s: string): (r: string)
    ensures |r| <= |s|
    ensures !AllSpace(s) ==> |r| < |s|
  {
    var t := TrimStart(s);
    t[WordEnd(t)..]
  }

  /** `split(None, 2)` agrees with `split()`: its first piece is the first
      word, and the words of what follows are the remaining words. */
  lemma FirstWordSplit(s: string)
    requires !AllSpace(s)
    ensures Words(s) == [FirstWord(s)] + Words(AfterWord(s))
  {
  }

  /** Python's `s.split()`: the maximal runs of non-whitespace, in order. */
  function Words(s: string): (ws: seq<string>)
    ensures forall w :: w in ws ==> IsWord(w)
    ensures ws == [] <==> AllSpace(s)
    decreases |s|
  {
    var t := TrimStart(s);
    if t == [] then []
    else
      var n := WordEnd(t);
      [t[..n]] + Words(t[n..])
  }

  /** Python's `"sep".join(parts)`. */
  function JoinWith(parts: seq<string>, sep: string): string
    requires |parts| >= 1
  {
    if |parts| == 1 then parts[0] else parts[0] + sep + JoinWith(parts[1..], sep)
  }

  /** Python's `"".join(parts)`. */
  function Concat(parts: seq<string>): string {
    if parts == [] then [] else parts[0] + Concat(parts[1..])
  }

  /** Splitting the words of a space-joined line gives the words back. */
  lemma {:induction false} WordsJoin(ws: seq<string>)
    requires |ws| >= 1
    requires forall i :: 0 <= i < |ws| ==> IsWord(ws[i])
    ensures Words(JoinWith(ws, " ")) == ws
  {
    if |ws| == 1 {
      WordsCons(ws[0], []);
      assert ws[0] + [] == ws[0];
    } else {
      assert forall i :: 0 <= i < |ws[1..]| ==> ws[1..][i] == ws[i + 1];
      WordsJoin(ws[1..]);
      WordsJoinCons(ws);
    }
  }

  lemma WordsJoinCons(ws: seq<string>)
    requires |ws| >= 2 && IsWord(ws[0])
    requires Words(JoinWith(ws[1..], " ")) == ws[1..]
    ensures Words(JoinWith(ws, " ")) == ws
  {
    var t := JoinWith(ws[1..], " ");
    calc {
      Words(JoinWith(ws, " "));
    == { JoinCons(ws); }
      Words(ws[0] + (" " + t));
    == { WordsConsSpace(ws[0], t); }
      [ws[0]] + Words(t);
    ==
      [ws[0]] + ws[1..];
    == { HeadTail(ws); }
      ws;
    }
  }

  lemma AppendEmpty<T>(s: seq<T>)
    ensures s + [] == s
  {
  }

  lemma ConcatTail<T>(a: seq<T>, b: seq<T>)
    requires a != []
    ensures (a + b)[0] == a[0] && (a + b)[1..] == a[1..] + b
  {
  }

  lemma EmptyConcat<T>(b: seq<T>)
    ensures [] + b == b
  {
  }

  lemma HeadTail<T>(s: seq<T>)
    requires s != []
    ensures [s[0]] + s[1..] == s
  {
  }

  lemma JoinCons(ws: seq<string>)
    requires |ws| >= 2
    ensures JoinWith(ws, " ") == ws[0] + (" " + JoinWith(ws[1..], " "))
  {
  }

  lemma WordsConsSpace(w: string, t: string)
    requires IsWord(w)
    ensures Words(w + (" " + t)) == [w] + Words(t)
  {
    WordsCons(w, " " + t);
    WordsLeadingSpace(' ', t);
  }

  /** A word followed by nothing or by whitespace is split off first. */
  lemma WordsCons(w: string, rest: string)
    requires IsWord(w)
    requires rest == [] || IsSpace(rest[0])
    ensures Words(w + rest) == [w] + Words(rest)
  {
    var s := w + rest;
    assert s[0] == w[0];
    assert TrimStart(s) == s;
    WordEndAt(w, rest);
    assert s[..|w|] == w && s[|w|..] == rest;
  }

  /** Leading whitespace of any kind does not change the words. */
  lemma WordsLeadingSpace(c: char, t: string)
    requires IsSpace(c)
    ensures Words([c] + t) == Words(t)
  {
    TrimStartSpace(c, t);
  }

  lemma TrimStartSpace(c: char, t: string)
    requires IsSpace(c)
    ensures TrimStart([c] + t) == TrimStart(t)
  {
    var s := [c] + t;
    assert s != [] && IsSpace(s[0]);
    assert s[1..] == t;
  }

  /** `split()` read character by character: `cur` is the word being built;
      whitespace ends it, any other character extends it. An independent
      definition of what `Words` computes. */
  function SplitFrom(s: string, cur: string): seq<string>
    decreases |s|
  {
    if s == [] then (if cur == [] then [] else [cur])
    else if IsSpace(s[0]) then (if cur == [] then [] else [cur]) + SplitFrom(s[1..], [])
    else SplitFrom(s[1..], cur + [s[0]])
  }

  lemma {:induction false} SplitFromWords(s: string, cur: string)
    requires NoSpace(cur)
    ensures SplitFrom(s, cur) == Words(cur + s)
    decreases |s|
  {
    if s == [] {
      SplitFromEnd(cur);
    } else if IsSpace(s[0]) {
      SplitFromWords(s[1..], []);
      SplitFromSpace(s, cur);
    } else {
      NoSpaceExtend(cur, s[0]);
      SplitFromWords(s[1..], cur + [s[0]]);
      SplitFromChar(s, cur);
    }
  }

  lemma SplitFromEnd(cur: string)
    requires NoSpace(cur)
    ensures SplitFrom([], cur) == Words(cur + [])
  {
    assert cur + [] == cur;
    WordsOfWord(cur);
  }

  lemma SplitFromSpace(s: string, cur: string)
    requires NoSpace(cur) && s != [] && IsSpace(s[0])
    requires SplitFrom(s[1..], []) == Words([] + s[1..])
    ensures SplitFrom(s, cur) == Words(cur + s)
  {
    assert [] + s[1..] == s[1..];
    WordsBeforeSpace(cur, s);
  }

  lemma SplitFromChar(s: string, cur: string)
    requires s != [] && !IsSpace(s[0])
    requires SplitFrom(s[1..], cur + [s[0]]) == Words(cur + [s[0]] + s[1..])
    ensures SplitFrom(s, cur) == Words(cur + s)
  {
    assert SplitFrom(s, cur) == SplitFrom(s[1..], cur + [s[0]]);
    AppendFirst(cur, s);
  }

  lemma AppendFirst(a: string, s: string)
    requires s != []
    ensures a + [s[0]] + s[1..] == a + s
  {
    assert s == [s[0]] + s[1..];
  }

  /** A run without whitespace is one word, or none when it is empty. */
  lemma WordsOfWord(w: string)
    requires NoSpace(w)
    ensures Words(w) == if w == [] then [] else [w]
  {
    if w != [] {
      WordsCons(w, []);
      assert w + [] == w;
    }
  }

  /** Whitespace after a run ends it. */
  lemma WordsBeforeSpace(w: string, s: string)
    requires NoSpace(w) && s != [] && IsSpace(s[0])
    ensures Words(w + s) == (if w == [] then [] else [w]) + Words(s[1..])
  {
    assert s == [s[0]] + s[1..];
    WordsLeadingSpace(s[0], s[1..]);
    if w != [] {
      WordsCons(w, s);
    } else {
      assert w + s == s;
    }
  }

  lemma NoSpaceExtend(w: string, c: char)
    requires NoSpace(w) && !IsSpace(c)
    ensures NoSpace(w + [c])
  {
    var w' := w + [c];
    forall i | 0 <= i < |w'| ensures !IsSpace(w'[i]) {
      if i < |w| { assert w'[i] == w[i]; }
    }
  }

  /** `Words` is `split()`: the maximal runs of non-whitespace, in order. */
  lemma WordsIsSplit(s: string)
    ensures Words(s) == SplitFrom(s, [])
  {
    SplitFromWords(s, []);
    assert [] + s == s;
  }

  /** Leading whitespace, then a word, then whitespace or nothing: what
      follows the word is what is left. */
  lemma AfterWordAt(pre: string, w: string, rest: string)
    requires AllSpace(pre) && IsWord(w) && (rest == [] || IsSpace(rest[0]))
    ensures AfterWord(pre + (w + rest)) == rest
  {
    assert (w + rest)[0] == w[0];
    AfterWordPadded(pre, w + rest);
    FirstWordAt(w, rest);
  }

  lemma AfterWordPadded(pre: string, t: string)
    requires AllSpace(pre) && (t == [] || !IsSpace(t[0]))
    ensures AfterWord(pre + t) == AfterWord(t)
  {
    TrimStartPadded(pre, t);
    assert TrimStart(t) == t;
  }

  /** A word followed by whitespace (or nothing) is what `split(None, 2)`
      takes first, and the rest is left as it was. */
  lemma FirstWordAt(w: string, rest: string)
    requires IsWord(w) && (rest == [] || IsSpace(rest[0]))
    ensures FirstWord(w + rest) == w && AfterWord(w + rest) == rest
  {
    var s := w + rest;
    assert s[0] == w[0];
    assert TrimStart(s) == s;
    WordEndAt(w, rest);
    assert s[..|w|] == w && s[|w|..] == rest;
  }

  lemma WordEndAt(w: string, rest: string)
    requires NoSpace(w)
    requires rest == [] || IsSpace(rest[0])
    ensures WordEnd(w + rest) == |w|
  {
    var s := w + rest;
    assert s[..|w|] == w;
    assert forall j :: |w| < j <= |s| ==> s[..j][|w|] == s[|w|];
  }

  /** Python's `str.lower()` as far as comparisons with the lower-case ASCII
      keywords of the assembler can tell: ASCII capitals and the Kelvin sign
      (whose lower case is `k`) are folded; no other character lower-cases to
      an ASCII letter. */
  function LowerChar(c: char): char {
    if 'A' <= c <= 'Z' then (c as int + 32) as char
    else if c == 'K' then 'k'
    else c
  }

  function Lower(s: string): (r: string)
    ensures |r| == |s|
    ensures forall i :: 0 <= i < |s| ==> r[i] == LowerChar(s[i])
  {
    seq(|s|, i requires 0 <= i < |s| => LowerChar(s[i]))
  }

  /** Python's `s.split(sep)` for a one-character separator: the pieces
      between separators, empty pieces kept. */
  function SplitOn(s: string, sep: char): (parts: seq<string>)
    ensures |parts| >= 1
    ensures forall i :: 0 <= i < |parts| ==> sep !in parts[i]
    ensures JoinWith(parts, [sep]) == s
    decreases |s|
  {
    var k := FindChar(s, sep);
    if k < 0 then [s]
    else
      var rest := SplitOn(s[k + 1..], sep);
      SplitStep(s, k, sep, rest);
      [s[..k]] + rest
  }

  /** The piece before the first separator, in front of the pieces of the
      rest, joins back to the whole string. */
  lemma SplitStep(s: string, k: nat, sep: char, rest: seq<string>)
    requires k < |s| && s[k] == sep && sep !in s[..k]
    requires |rest| >= 1 && (forall i :: 0 <= i < |rest| ==> sep !in rest[i])
    requires JoinWith(rest, [sep]) == s[k + 1..]
    ensures forall i :: 0 <= i < |[s[..k]] + rest| ==> sep !in ([s[..k]] + rest)[i]
    ensures JoinWith([s[..k]] + rest, [sep]) == s
  {
    var parts := [s[..k]] + rest;
    assert parts[1..] == rest;
    assert s == s[..k] + [sep] + s[k + 1..];
    forall i | 0 <= i < |parts|
      ensures sep !in parts[i]
    {
      if i > 0 {
        assert parts[i] == rest[i - 1];
      }
    }
  }

  /** `list.index(x)`: the first position of `x`, if any. */
  function IndexOf<T(==)>(xs: seq<T>, x: T): (r: Option<nat>)
    ensures r.Some? ==> r.value < |xs| && xs[r.value] == x && x !in xs[..r.value]
    ensures r.None? <==> x !in xs
  {
    if xs == [] then None
    else if xs[0] == x then Some(0)
    else
      var r := IndexOf(xs[1..], x);
      if r.None? then None
      else
        assert xs[..r.value + 1] == [xs[0]] + xs[1..][..r.value];
        Some(r.value + 1)
  }

  predicate IsDigit(c: char) { '0' <= c <= '9' }

  predicate IsDigits(s: string) {
    |s| > 0 && forall i :: 0 <= i < |s| ==> IsDigit(s[i])
  }

  /** The value of a run of decimal digits. */
  function DigitsValue(s: string): nat
    requires forall i :: 0 <= i < |s| ==> IsDigit(s[i])
  {
    if s == [] then 0
    else
      assert IsDigit(s[|s| - 1]);
      DigitsValue(s[..|s| - 1]) * 10 + (s[|s| - 1] as int - '0' as int)
  }

  /** CPython's integer string conversion length limit (the default of
      `sys.set_int_max_str_digits`, in force since Python 3.11): `int()`
      rejects base-10 text with more digits than this. The sign does not
      count; leading zeros do. */
  const MaxIntDigits: nat := 4300

  /** `int(s)` for base-10 text: an optional sign and at least one digit,
      at most `MaxIntDigits` of them. The value read is the one whose
      decimal digits are the text's digits without leading zeros, negative
      only after a `-`. */
  function ParseInt(s: string): (r: Option<int>)
    ensures r.Some? <==> IsDigits(Unsigned(s)) && |Unsigned(s)| <= MaxIntDigits
    ensures r.Some? ==> (r.value < 0 ==> s[0] == '-') && (s[0] == '-' ==> r.value <= 0)
    ensures r.Some? ==> NatToString(Magnitude(r.value)) == NoLeadingZeros(Unsigned(s))
  {
    var d := Unsigned(s);
    if !IsDigits(d) || |d| > MaxIntDigits then None
    else
      var v: int := DigitsValue(d);
      NoLeadingZerosValue(d);
      CanonicalDigits(NoLeadingZeros(d));
      Some(if s[0] == '-' then -v else v)
  }

  /** The text after an optional leading sign. */
  function Unsigned(s: string): (d: string)
    ensures |d| <= |s|
  {
    if |s| > 0 && (s[0] == '-' || s[0] == '+') then s[1..] else s
  }

  function Magnitude(i: int): nat {
    if i < 0 then -i else i
  }

  /** Digits with their leading zeros removed, keeping at least one. */
  function NoLeadingZeros(d: string): string
    decreases |d|
  {
    if |d| > 1 && d[0] == '0' then NoLeadingZeros(d[1..]) else d
  }

  lemma {:induction false} DigitsLeadingZero(d: string)
    requires IsDigits(d) && d[0] == '0'
    ensures DigitsValue(d) == DigitsValue(d[1..])
    decreases |d|
  {
    if |d| > 1 {
      var init := d[..|d| - 1];
      assert init[0] == '0' && IsDigits(init);
      DigitsLeadingZero(init);
      assert d[1..][..|d[1..]| - 1] == init[1..];
    }
  }

  lemma {:induction false} NoLeadingZerosValue(d: string)
    requires IsDigits(d)
    ensures IsDigits(NoLeadingZeros(d)) && DigitsValue(NoLeadingZeros(d)) == DigitsValue(d)
    ensures |NoLeadingZeros(d)| == 1 || NoLeadingZeros(d)[0] != '0'
    decreases |d|
  {
    if |d| > 1 && d[0] == '0' {
      DigitsLeadingZero(d);
      NoLeadingZerosValue(d[1..]);
    }
  }

  lemma {:induction false} DigitsPositive(w: string)
    requires IsDigits(w) && w[0] != '0'
    ensures DigitsValue(w) > 0
    decreases |w|
  {
    if |w| > 1 {
      DigitsPositive(w[..|w| - 1]);
    }
  }

  /** Digits without a leading zero are the decimal text of their value. */
  lemma {:induction false} CanonicalDigits(w: string)
    requires IsDigits(w) && (|w| == 1 || w[0] != '0')
    ensures NatToString(DigitsValue(w)) == w
    decreases |w|
  {
    if |w| > 1 {
      var init := w[..|w| - 1];
      var c := w[|w| - 1];
      assert IsDigits(init) && init[0] == w[0];
      DigitsPositive(init);
      CanonicalDigits(init);
      var n := DigitsValue(w);
      assert n == DigitsValue(init) * 10 + (c as int - '0' as int);
      assert n / 10 == DigitsValue(init) && n % 10 == c as int - '0' as int;
      assert w == init + [c];
    } else {
      assert w == [w[0]];
    }
  }

  /** The decimal digits of `n`, without leading zeros. */
  function NatToString(n: nat): (s: string)
    ensures IsDigits(s) && DigitsValue(s) == n
    ensures s[0] != '0' || n == 0
  {
    var d := [(n % 10 + '0' as int) as char];
    if n < 10 then d
    else
      var high := NatToString(n / 10);
      var s := high + d;
      assert s[..|s| - 1] == high;
      s
  }

  function IntToString(i: int): string {
    if i < 0 then "-" + NatToString(-i) else NatToString(i)
  }

  /** Integers whose decimal text `int()` reads back. */
  predicate IntFits(i: int) {
    |NatToString(Magnitude(i))| <= MaxIntDigits
  }

  function Pow10(k: nat): nat {
    if k == 0 then 1 else 10 * Pow10(k - 1)
  }

  lemma {:induction false} Pow10Add(a: nat, b: nat)
    ensures Pow10(a + b) == Pow10(a) * Pow10(b)
  {
    if a > 0 {
      Pow10Add(a - 1, b);
      assert Pow10(a + b) == 10 * Pow10(a - 1 + b);
    }
  }

  /** A number below `10^k` has at most `k` decimal digits. */
  lemma {:induction false} NatToStringLength(n: nat, k: nat)
    requires 0 < k && n < Pow10(k)
    ensures |NatToString(n)| <= k
  {
    if n >= 10 {
      assert n / 10 < Pow10(k - 1);
      NatToStringLength(n / 10, k - 1);
    }
  }

  /** Every 64-bit value, signed or unsigned, fits the limit. */
  lemma WideIntFits(i: int)
    requires -0x1_0000_0000_0000_0000 < i < 0x1_0000_0000_0000_0000
    ensures IntFits(i)
  {
    assert Pow10(10) == 10000000000;
    Pow10Add(10, 10);
    NatToStringLength(Magnitude(i), 20);
  }

  /** `int()` reads back the decimal text of every integer within the limit
      and rejects the text of every integer beyond it. */
  lemma ParseIntToString(i: int)
    ensures ParseInt(IntToString(i)) == if IntFits(i) then Some(i) else None
  {
    var t := IntToString(i);
    var d := NatToString(Magnitude(i));
    if i < 0 {
      assert t[1..] == d;
    } else {
      assert t == d && t[0] != '-' && t[0] != '+';
    }
    assert Unsigned(t) == d;
  }

  /** The same for the unsigned text of a natural number. */
  lemma ParseNatToString(n: nat)
    ensures ParseInt(NatToString(n)) == if IntFits(n) then Some(n) else None
  {
    ParseIntToString(n);
    assert IntToString(n) == NatToString(n);
  }
}

=== FILE: utf8.dfy ===
/** UTF-8 text and the length-prefixed strings of the module format
    (`make_str`, rasm/rasm.py:32-33). */
module Utf8 {
  import opened Wrappers
  import opened Encoding

  /** The UTF-8 bytes of one Unicode scalar value. */
  function EncodeChar(c: char): (r: bytes)
    ensures 1 <= |r| <= 4
    ensures |r| == 1 <==> (c as int) < 0x80
  {
    var v := c as int;
    if v < 0x80 then [v]
    else if v < 0x800 then [0xC0 + v / 64, 0x80 + v % 64]
    else if v < 0x10000 then [0xE0 + v / 4096, 0x80 + (v / 64) % 64, 0x80 + v % 64]
    else [0xF0 + v / 262144, 0x80 + (v / 4096) % 64, 0x80 + (v / 64) % 64, 0x80 + v % 64]
  }

  /** Python's `s.encode('utf8')`. */
  function Encode(s: string): (r: bytes)
    ensures |r| >= |s|
  {
    if s == [] then [] else EncodeChar(s[0]) + Encode(s[1..])
  }

  predicate IsAscii(s: string) {
    forall i :: 0 <= i < |s| ==> (s[i] as int) < 0x80
  }

  predicate IsContinuation(b: byte) { 0x80 <= b < 0xC0 }

  function ScalarChar(v: int): Option<char> {
    if 0 <= v < 0xD800 || 0xE000 <= v < 0x110000 then Some(v as char) else None
  }

  /** Decodes the character at the front of `b`, with the number of bytes it
      took.  Overlong forms (a value written with more bytes than it needs)
      are rejected, so each character has exactly one accepted spelling. */
  function DecodeChar(b: bytes): (r: Option<(char, nat)>)
    requires |b| > 0
    ensures r.Some? ==> 1 <= r.value.1 <= |b|
  {
    var b0 := b[0] as int;
    if b0 < 0x80 then Some((b0 as char, 1))
    else if 0xC2 <= b0 < 0xE0 && |b| >= 2 && IsContinuation(b[1]) then
      var c :- ScalarChar((b0 - 0xC0) * 64 + (b[1] as int - 0x80));
      Some((c, 2))
    else if 0xE0 <= b0 < 0xF0 && |b| >= 3 && IsContinuation(b[1]) && IsContinuation(b[2]) then
      var v := ((b0 - 0xE0) * 64 + (b[1] as int - 0x80)) * 64 + (b[2] as int - 0x80);
      if v < 0x800 then None
      else
        var c :- ScalarChar(v);
        Some((c, 3))
    else if 0xF0 <= b0 < 0xF8 && |b| >= 4 && IsContinuation(b[1]) && IsContinuation(b[2])
            && IsContinuation(b[3]) then
      var v := (((b0 - 0xF0) * 64 + (b[1] as int - 0x80)) * 64 + (b[2] as int - 0x80)) * 64 + (b[3] as int - 0x80);
      if v < 0x10000 then None
      else
        var c :- ScalarChar(v);
        Some((c, 4))
    else None
  }

  /** Decodes a whole byte sequence as UTF-8.  It accepts only what `Encode`
      produces: a byte sequence decodes to `s` only if it is `s.encode('utf8')`. */
  function Decode(b: bytes): (r: Option<string>)
    ensures r.Some? ==> b == Encode(r.value)
    decreases |b|
  {
    if b == [] then Some([])
    else
      var (c, n) :- DecodeChar(b);
      var tail :- Decode(b[n..]);
      DecodeStep(b, tail);
      Some([c] + tail)
  }

  lemma DecodeStep(b: bytes, tail: string)
    requires |b| > 0 && DecodeChar(b).Some?
    requires b[DecodeChar(b).value.1..] == Encode(tail)
    ensures b == Encode([DecodeChar(b).value.0] + tail)
  {
    var (c, n) := DecodeChar(b).value;
    DecodeCharExact(b);
    EncodeCons(c, tail);
    assert b == b[..n] + b[n..];
  }

  lemma EncodeCons(c: char, t: string)
    ensures Encode([c] + t) == EncodeChar(c) + Encode(t)
  {
    assert ([c] + t)[0] == c && ([c] + t)[1..] == t;
  }

  lemma DecodeEncodeChar(c: char, rest: bytes)
    ensures DecodeChar(EncodeChar(c) + rest) == Some((c, |EncodeChar(c)|))
  {
    var v := c as int;
    var b := EncodeChar(c) + rest;
    if v < 0x80 {
    } else if v < 0x800 {
      assert (v / 64) * 64 + v % 64 == v;
    } else if v < 0x10000 {
      var q := v / 64;
      assert q * 64 + v % 64 == v;
      assert v / 4096 == q / 64;
      assert (q / 64) * 64 + q % 64 == q;
    } else {
      var q := v / 64;
      var q2 := q / 64;
      assert q * 64 + v % 64 == v;
      assert q2 * 64 + q % 64 == q;
      assert v / 4096 == q2;
      assert v / 262144 == q2 / 64;
      assert (q2 / 64) * 64 + q2 % 64 == q2;
    }
  }

  lemma {:induction false} DecodeEncode(s: string)
    ensures Decode(Encode(s)) == Some(s)
  {
    if s != [] {
      var head := EncodeChar(s[0]);
      var tail := Encode(s[1..]);
      DecodeEncodeChar(s[0], tail);
      assert (head + tail)[|head|..] == tail;
      DecodeEncode(s[1..]);
      assert s == [s[0]] + s[1..];
    }
  }

  lemma DivMod64(q: int, r: int)
    requires 0 <= r < 64
    ensures (q * 64 + r) / 64 == q && (q * 64 + r) % 64 == r
  {
  }

  /** The bytes a character is decoded from are its encoding: UTF-8 as
      accepted here has one spelling per character. */
  lemma DecodeCharExact(b: bytes)
    requires |b| > 0 && DecodeChar(b).Some?
    ensures var (c, n) := DecodeChar(b).value; b[..n] == EncodeChar(c)
  {
    var (c, n) := DecodeChar(b).value;
    var b0 := b[0] as int;
    if b0 < 0x80 {
    } else if n == 2 {
      DecodeCharTwo(b0 - 0xC0, b[1] as int - 0x80);
      assert b[..2] == [b[0], b[1]];
    } else if n == 3 {
      DecodeCharThree(b0 - 0xE0, b[1] as int - 0x80, b[2] as int - 0x80);
      assert b[..3] == [b[0], b[1], b[2]];
    } else {
      DecodeCharFour(b0 - 0xF0, b[1] as int - 0x80, b[2] as int - 0x80, b[3] as int - 0x80);
      assert b[..4] == [b[0], b[1], b[2], b[3]];
    }
  }

  lemma DecodeCharTwo(x0: int, x1: int)
    requires 2 <= x0 < 32 && 0 <= x1 < 64
    ensures var v := x0 * 64 + x1;
      0x80 <= v < 0x800 && ScalarChar(v).Some? &&
      EncodeChar(ScalarChar(v).value) == [0xC0 + x0, 0x80 + x1]
  {
    DivMod64(x0, x1);
  }

  lemma DecodeCharThree(x0: int, x1: int, x2: int)
    requires 0 <= x0 < 16 && 0 <= x1 < 64 && 0 <= x2 < 64
    requires (x0 * 64 + x1) * 64 + x2 >= 0x800
    requires ScalarChar((x0 * 64 + x1) * 64 + x2).Some?
    ensures EncodeChar(ScalarChar((x0 * 64 + x1) * 64 + x2).value) == [0xE0 + x0, 0x80 + x1, 0x80 + x2]
  {
    var q := x0 * 64 + x1;
    var v := q * 64 + x2;
    DivMod64(q, x2);
    DivMod64(x0, x1);
    assert v / 4096 == q / 64;
  }

  lemma DecodeCharFour(x0: int, x1: int, x2: int, x3: int)
    requires 0 <= x0 < 8 && 0 <= x1 < 64 && 0 <= x2 < 64 && 0 <= x3 < 64
    requires ((x0 * 64 + x1) * 64 + x2) * 64 + x3 >= 0x10000
    requires ScalarChar(((x0 * 64 + x1) * 64 + x2) * 64 + x3).Some?
    ensures EncodeChar(ScalarChar(((x0 * 64 + x1) * 64 + x2) * 64 + x3).value)
      == [0xF0 + x0, 0x80 + x1, 0x80 + x2, 0x80 + x3]
  {
    var q2 := x0 * 64 + x1;
    var q := q2 * 64 + x2;
    var v := q * 64 + x3;
    DivMod64(q, x3);
    DivMod64(q2, x2);
    DivMod64(x0, x1);
    assert v / 4096 == q2;
    assert v / 262144 == x0;
  }

  lemma {:induction false} EncodeAscii(s: string)
    requires IsAscii(s)
    ensures |Encode(s)| == |s|
  {
    if s != [] {
      EncodeAscii(s[1..]);
    }
  }

  /** The length-prefixed form of a string: the u64 byte count of its UTF-8
      encoding, then those bytes.  This is what a reader of the module format
      needs; `MakeStrAsWritten` is what rasm/rasm.py:33 actually emits. */
  function MakeStr(s: string): (r: Result<bytes>)
    ensures r.Success? <==> IsU64(|Encode(s)|)
    ensures r.Failure? ==> r.error == Overflow
    ensures r.Success? ==> |r.value| >= 8 && FromBigEndian(r.value[..8]) == |Encode(s)| && r.value[8..] == Encode(s)
    ensures r.Success? ==> forall rest :: ReadStr(r.value + rest) == Some((s, rest))
  {
    var len :- MakeU64(|Encode(s)|);
    assert (len + Encode(s))[..8] == len && (len + Encode(s))[8..] == Encode(s);
    var e := len + Encode(s);
    assert forall rest :: ReadStr(e + rest) == Some((s, rest)) by {
      forall rest: bytes
        ensures ReadStr(e + rest) == Some((s, rest))
      {
        ReadStrMakeStr(s, len, rest);
      }
    }
    Success(e)
  }

  lemma ReadStrMakeStr(s: string, len: bytes, rest: bytes)
    requires MakeU64(|Encode(s)|) == Success(len)
    ensures ReadStr(len + Encode(s) + rest) == Some((s, rest))
  {
    var payload := Encode(s);
    var b := len + payload + rest;
    Pow256Widths();
    BigEndianInverse(len);
    assert len == BigEndian(|payload|, 8);
    assert b == BigEndian(|payload|, 8) + (payload + rest);
    ReadUnsignedBigEndian(|payload|, 8, payload + rest);
    assert (payload + rest)[..|payload|] == payload;
    assert (payload + rest)[|payload|..] == rest;
    DecodeEncode(s);
  }

  /** Reads one length-prefixed UTF-8 string off the front of `b`. */
  function ReadStr(b: bytes): (r: Option<(string, bytes)>)
    ensures r.Some? ==> |r.value.1| < |b|
  {
    var (n, rest) :- ReadUnsigned(b, 8);
    if |rest| < n then None
    else
      var s :- Decode(rest[..n]);
      Some((s, rest[n..]))
  }

  /** Conversely, whatever `ReadStr` accepts is a `MakeStr` string followed by
      the rest: the reader takes nothing the writer would not write. */
  lemma ReadStrExact(b: bytes)
    requires ReadStr(b).Some?
    ensures var (s, rest) := ReadStr(b).value;
      MakeStr(s).Success? && b == MakeStr(s).value + rest
  {
    var (s, rest) := ReadStr(b).value;
    var n, payload := ReadStrHead(b);
    MakeStrBytes(s);
  }

  /** A string `ReadStr` accepts: its count, its payload, and what follows. */
  lemma ReadStrHead(b: bytes) returns (n: nat, payload: bytes)
    requires ReadStr(b).Some?
    ensures n < Pow256(8) && n == |payload|
    ensures Decode(payload) == Some(ReadStr(b).value.0)
    ensures b == BigEndian(n, 8) + payload + ReadStr(b).value.1
  {
    var after: bytes;
    n, after := ReadUnsigned(b, 8).value.0, ReadUnsigned(b, 8).value.1;
    payload := after[..n];
    assert after == payload + after[n..];
  }

  lemma MakeStrBytes(s: string)
    requires |Encode(s)| < Pow256(8)
    ensures MakeStr(s) == Success(BigEndian(|Encode(s)|, 8) + Encode(s))
  {
    Pow256Widths();
    var len := MakeU64(|Encode(s)|).value;
    BigEndianInverse(len);
  }

  /** `make_str` as written: the prefix counts CHARACTERS (`len(i)`), while
      the payload is the UTF-8 encoding, whose length differs as soon as the
      string holds a non-ASCII character. */
  function MakeStrAsWritten(s: string): (r: Result<bytes>)
    ensures r.Success? <==> IsU64(|s|)
    ensures r.Success? ==> |r.value| >= 8 && FromBigEndian(r.value[..8]) == |s| && r.value[8..] == Encode(s)
  {
    var len :- MakeU64(|s|);
    Success(len + Encode(s))
  }

  /** On ASCII text the written and the corrected forms coincide. */
  lemma MakeStrAsciiAgrees(s: string)
    requires IsAscii(s)
    ensures MakeStrAsWritten(s) == MakeStr(s)
  {
    EncodeAscii(s);
  }

  /** Counterexample: "é" (U+00E9) is written as the count 1 followed by the two
      bytes C3 A9, so a reader takes the lone byte C3 as the whole payload and
      cannot decode it. */
  lemma MakeStrAsWrittenMisframes()
    ensures MakeStrAsWritten("é").Success?
    ensures ReadStr(MakeStrAsWritten("é").value) == None
    ensures ReadStr(MakeStr("é").value) == Some(("é", []))
  {
    var s := "é";
    var w := MakeStrAsWritten(s).value;
    assert Encode(s) == [0xC3, 0xA9];
    Pow256Widths();
    BigEndianInverse(w[..8]);
    assert w == w[..8] + w[8..];
    assert ReadUnsigned(w, 8) == Some((1, [0xC3, 0xA9]));
    assert DecodeChar([0xC3]) == None;
    assert MakeStr(s).value + [] == MakeStr(s).value;
  }
}

=== FILE: wrappers.dfy ===
/** Failure-compatible result types shared by every stage of the assembler.
    Every `fail(...)` of the assembler, and every Python exception that would
    abort it (ValueError from `int()`, OverflowError from `to_bytes`,
    IndexError, KeyError, TypeError), becomes a `Failure` carrying the kind
    of error; the message text is not modelled. */
module Wrappers {

  datatype Option<+T> = None | Some(value: T) {
    predicate IsFailure() {
      None?
    }

    function PropagateFailure<U>(): Option<U>
      requires None?
    {
      None
    }

    function Extract(): T
      requires Some?
    {
      value
    }
  }

  /** The ways an assembly run can stop. */
  datatype Error =
    | SectionRequired        // a line before any `section` directive
    | BadSectionDeclaration  // `section` with no name
    | UnknownSection         // `section` with an unrecognised name
    | BadConstant            // constant line not of the shape `<index> => <value>`
    | BadConstantIndex       // constant index differs from the running count
    | UnknownLiteralType     // constant value is no string, bool, int or float
    | MissingValue           // a constant line whose raw text has no value word
    | BadAlias               // alias line not of the shape `<name> => <expr>`
    | BadField               // `(` without a `)` in a field expression
    | UnknownFieldKind       // `kind(...)` with an unknown kind word
    | UnknownAlias           // a bare token that is not an alias
    | AliasDepth             // alias expansion that never reaches a field
    | EmptyField             // an empty referenceable operand
    | BadInteger             // text that `int()` rejects
    | Overflow               // a value outside the range of its fixed-width encoding
    | ArityMismatch          // wrong number of operands for a mnemonic
    | UnknownInstruction     // a mnemonic outside the instruction table
    | UnknownPlaceholder     // `jump`/`call` to a label not declared so far
    | UnknownImport          // `extcall` of a name missing from the imports
    | TypeMismatch           // text concatenated with bytes
    | UndefinedExport        // an export naming no placeholder

  datatype Result<+T> = Success(value: T) | Failure(error: Error) {
    predicate IsFailure() {
      Failure?
    }

    function PropagateFailure<U>(): Result<U>
      requires Failure?
    {
      Failure(error)
    }

    function Extract(): T
      requires Success?
    {
      value
    }
  }

  /** Turns an absent value into the given failure. */
  function Need<T>(o: Option<T>, e: Error): (r: Result<T>)
    ensures r.Success? <==> o.Some?
    ensures r.Success? ==> r.value == o.value
    ensures r.Failure? ==> r.error == e
  {
    match o
    case Some(v) => Success(v)
    case None => Failure(e)
  }
}
